=== FILE: README.md ===
# Multi-store inventory backend — a Dafny model

This project models the rules of a FastAPI/SQLAlchemy backend for a chain of stores.

At its heart is a ledger of stock quantities, one row per (store, product) pair. Around it are the operations that move stock:
- stock removals;
- restocks;
- orders and their cart edits;
- refunds;
- direct inventory edits.

The model also covers:
- the pricing helpers;
- the request validators;
- the tagging of ledger transactions;
- an older in-memory store class;
- the privilege checks of the user-management routes.

Each HTTP handler becomes a pure function over an immutable state: an inventory map plus the records the handler touches. It returns a `Result`.

In the source, a raised `HTTPException` or `ValueError` aborts the request before `db.commit()`. The model mirrors this:
- an `Err` means the old state is kept;
- an `Ok` carries the new state.

Errors are classified as follows:
- `NotFound` (HTTP 404);
- `InsufficientStock`;
- `Rejected`: a validation failure or HTTP 400 / 422;
- `Forbidden` (HTTP 403);
- `Fault`: a Python runtime error such as an unbound local, a `TypeError` or an `AttributeError`.

Prices, discounts and tax are exact `real`s. Timestamps are `int` microseconds. Every clock reading is passed in as a parameter.

Layout, one module per file:
- `wrappers.dfy`: `Option`, `Result`, the error kinds and the clock constants.
- `dicts.dfy`: a Python dict built from a list, with insertion-ordered keys where the last value wins.
- `stock.dfy`: the inventory map and the reference quantity change `Adjust`.
- `stock_restore.dfy`: `restore_inventory`.
- `check_inventory.dfy`: `check_and_remove_inventory` and `check_and_add_inventory`, as loop methods.
- `restock_creator.dfy`: the restock helpers.
- `catalog.dfy`, `cart.dfy`, `legacy_order.dfy`: pricing.
- `orders.dfy`, `refunds.dfy`, `restocks.dfy`, `removals.dfy`, `inventory_routes.dfy`: the route handlers.
- `legacy_refund.dfy`: the 15-day refund window.
- `transactions.dfy`: `add_transaction`.
- `legacy_store.dfy`: the in-memory `Store`.
- `users.dfy`: the user routes.

Where the code and its documentation disagree, the model follows the code. Where the code as written cannot do what it evidently intends, both versions are modelled (see "Findings"). The following divergences are modelled as written, and the comments in the Dafny say so:
- `create_order` never touches inventory.
- `create_restock` applies stock at creation. It creates a row, but no restock item, for a product the store does not stock yet.
- Order and refund status updates accept any status from any status.
- `validate_application` walks the order's lines and looks each one up among the refund lines. This is the reverse of a subset check.
- A stock removal records the caller-supplied `previous_quantity`, not the inventory snapshot.
- `modify_any_user` finds its target by username first and by email only when no username is given.

## Model

| member | source | states |
|---|---|---|
| Catalog.DiscountedPrice | validations/product.py:14-16 | The discounted price is never negative. It equals price × (1 − discount) whenever that is non-negative, and is 0 otherwise. |
| Catalog.DiscountedPriceWithinPrice | validations/product.py:9-16 | With price ≥ 0 and discount in [0, 1], the discounted price lies in [0, price]. |
| Catalog.DiscountedPriceEdges | validations/product.py:16 | Discount 0 yields the full price and discount 1 yields 0. |
| Cart.BuildCart | utils/cart_creator.py:6-30 | Fails with NotFound iff some line's product has no price. Otherwise: the lines are copied one-for-one in order; amount = Σ price × quantity; discount = Σ price × quantity × line discount; tax = (amount − discount) × rate. |
| Cart.BuildFrom | utils/cart_creator.py:11-28 | The loop step. It appends the remaining lines to the accumulated ones, adds their sums to the running totals, and keeps tax equal to (amount − discount) × rate. |
| Cart.EmptyCart | utils/cart_creator.py:7-10 | An empty request yields no lines and all totals 0. |
| Cart.DiscountWithinAmount | utils/cart_creator.py:16-21 | With prices ≥ 0, quantities ≥ 0 and line discounts in [0, 1]: 0 ≤ total discount ≤ total amount. |
| Cart.CartTotalsBounded | utils/cart_creator.py:16-22 | Under the same bounds and a tax rate ≥ 0, cart building succeeds, 0 ≤ discount ≤ amount, and tax ≥ 0. |
| LegacyOrder.CalculateTotalAsWritten | schema/order.py:34-48 | A cart product missing from the catalog fails (KeyError). A zero discount fails too, because `discount_amount` is never bound. In every other case the result agrees with the intended total. |
| LegacyOrder.CalculateTotal | schema/order.py:42-48 | Fails only for a product missing from the catalog. Otherwise only `total_price` changes, to (s − s × discount) × (1 + tax), where s is the sum of discounted price × quantity over the cart. |
| LegacyOrder.ZeroDiscountFails | schema/order.py:45-47 | With discount 0 the method as written fails, while the intended total is s × (1 + tax). |
| LegacyOrder.SubtotalNonNegative | schema/order.py:42-43 | With non-negative quantities the subtotal is non-negative. |
| LegacyOrder.TotalNonNegative | schema/order.py:15-48 | With discount and tax in [0, 1] and non-negative quantities, `total_price` ≥ 0. |
| LegacyRefund.HandleRefund | schema/operations.py:21-31 | The status becomes Approved iff now − application date ≤ 15 days, so exactly 15 days still passes, and Rejected otherwise. No other field changes. |
| LegacyRefund.HandleRefundSettles | schema/operations.py:28-31 | After `handle_refund` the status is never Pending, and repeating it with the same clock changes nothing. |
| LegacyRefund.RefundabilityLapses | schema/operations.py:21-23 | Refundability only lapses as the clock advances: refundable later implies refundable earlier, and a rejection stays a rejection. |
| Dicts.FromSeq | utils/check_inventory.py:13 | A dict built from a list holds exactly the keys the list names, each mapped to the value of some line carrying that key. |
| Dicts.FromSeqLastWins | utils/check_inventory.py:13 | When the same key appears on several lines, the last line's value wins. |
| Dicts.FromSeqInOrder | utils/restock_creator.py:33 | With distinct keys, the dict keeps the list's order. |
| Stock.Adjust | utils/stock_restore.py:14-33 | The reference quantity change. The key set is unchanged, and rows of other stores or unlisted products keep their values. |
| Stock.AdjustRoundTrip | utils/stock_restore.py:25-29 | Adjusting by a delta map and then by its negation restores the inventory. |
| Stock.AdjustUpKeepsNonNegative | utils/stock_restore.py:25-26 | Adding non-negative quantities keeps every row non-negative. |
| StockRestore.RestoreKeys | utils/stock_restore.py:18-33 | The loop over the dict in insertion order: it succeeds iff every product has a row and, on a subtraction, enough stock; a failure is NotFound for a missing row or insufficient stock on a subtraction; otherwise each listed row moves by exactly its quantity and every other row stays. |
| StockRestore.Restore | utils/stock_restore.py:8-33 | Adding succeeds iff every listed product has a row in the store. Subtracting succeeds iff every such row holds at least the quantity. On success the result is `Adjust` by the map (add) or its negation (subtract). An adding failure is NotFound. |
| StockRestore.RestoreKeysIsAdjust | utils/stock_restore.py:18-33 | The per-key loop computes the same inventory as the reference `Adjust`. |
| StockRestore.RestoreKeepsNonNegative | utils/stock_restore.py:25-33 | If every row starts ≥ 0 (and added quantities are ≥ 0), no row becomes negative. |
| StockRestore.AddThenSubtractRestores | utils/stock_restore.py:25-29 | Adding and then subtracting the same product map succeeds and restores the original inventory. |
| StockRestore.SubtractThenAddRestores | utils/stock_restore.py:25-29 | Subtracting and then adding the same product map succeeds and restores the original inventory. |
| CheckInventory.Wanted | utils/check_inventory.py:13 | The order's lines keyed by product: exactly the ordered products, with the last line's quantity for a product listed twice. |
| CheckInventory.TakeRows | utils/check_inventory.py:17-23 | The removal loop fails with insufficient stock iff some existing row holds less than wanted; otherwise it lowers each of those rows by the wanted quantity. |
| CheckInventory.PutRows | utils/check_inventory.py:44-46 | The adding loop raises each existing row by the wanted quantity. |
| CheckInventory.PartialComplete | utils/check_inventory.py:17-23 | Once a loop has visited every product of the dict exactly once, the rows it moved equal the reference `Adjust`. |
| CheckInventory.CheckAndRemoveInventory | utils/check_inventory.py:10-23 | Succeeds iff every ordered product that has a row in the store has enough stock; products without a row are skipped. The result is `Adjust` by the negated wanted map, and every touched row stays ≥ 0. |
| CheckInventory.CoveredIsEveryKey | utils/check_inventory.py:14-21 | The success condition is the same whether it is read over the dict's keys or over its value map. |
| CheckInventory.CoveredRemovalNonNegative | utils/check_inventory.py:19-23 | When the check passes, no touched row goes negative. |
| CheckInventory.CheckAndAddInventory | utils/check_inventory.py:26-46 | Raises every existing matching row by its wanted quantity and creates no rows. The result is `Adjust` by the wanted map. |
| CheckInventory.RemoveThenAddRestores | utils/check_inventory.py:10-46 | A successful removal followed by an add of the same order lines in the same store restores the inventory. |
| CheckInventory.AddThenRemoveCovered | utils/check_inventory.py:10-46 | After adding an order's lines to a non-negative inventory, removing them again always passes the check. |
| RestockCreator.CreateRestockItems | utils/restock_creator.py:7-29 | One item per request line, in order, copying product and restock quantity. The previous quantity is the row's quantity, or 0 when the store has no row. The inventory is not touched. |
| RestockCreator.ByProduct | utils/restock_creator.py:33 | The restock's items keyed by product, each entry one of the items. |
| RestockCreator.LinesByProduct | utils/restock_creator.py:33 | The dict's values have distinct products and are drawn from the items. |
| RestockCreator.LastLineKept | utils/restock_creator.py:33 | The last line for a product survives the keying. |
| RestockCreator.KeyedAreRequested | utils/restock_creator.py:33 | Keying introduces no product that was not requested. |
| RestockCreator.AddRestockItemsToInventory | utils/restock_creator.py:32-54 | An existing row rises by the restock quantity of the product's last line. A product without a row gets a new row of that quantity with discount 0. Every other row, and every other store, is unchanged. |
| RestockCreator.PreviousPlusRestock | utils/restock_creator.py:7-54 | For distinct products, previous quantity + restock quantity equals the quantity after the items are applied. |
| Restocks.CompletedDate | validations/restock.py:55-60 | `date_received` is set (to the clock) iff the update's status is Completed. |
| Restocks.CatalogMatches | routes/store/routes_restock.py:18-19 | The products found in the catalog are exactly the requested products that the catalog holds. |
| Restocks.ProductsCount | routes/store/routes_restock.py:18-23 | The number of distinct requested products is at most the number of lines, and equal iff the lines name distinct products. |
| Restocks.CatalogCountMatches | routes/store/routes_restock.py:18-24 | The length check passes iff every line's product is in the catalog and no product is repeated, so duplicate lines fail too. |
| Restocks.RestockRow | routes/store/routes_restock.py:32-50 | A row that exists rises by the restock quantity; a missing one becomes a row of that quantity with discount 0. |
| Restocks.ApplyRestockLines | routes/store/routes_restock.py:29-50 | Every line's row ends as `RestockRow`. New rows appear only for requested products in the store. Every other row is unchanged. |
| Restocks.RecordedLines | routes/store/routes_restock.py:43-49 | Restock items are recorded only for products that already had a row, snapshotting that row's quantity. |
| Restocks.RecordRestock | routes/store/routes_restock.py:29-57 | The created record carries the request's store, status and dates (date placed defaults to now) and the snapshot items. The inventory changes as `ApplyRestockLines` says, and no other record changes. |
| Restocks.CreateRestock | routes/store/routes_restock.py:16-66 | An invalid request is Rejected. Otherwise it succeeds iff every product is in the catalog and the products are distinct (else NotFound). On success the result is `RecordRestock`. |
| Restocks.RecordedQuantities | routes/store/routes_restock.py:107 | The restock's items keyed by product, holding exactly the recorded products. |
| Restocks.UpdateRestock | routes/store/routes_restock.py:94-118 | NotFound for a missing record. Status and date received change only when supplied, and Completed has no inventory effect. Cancelled succeeds iff the store still holds every recorded quantity, and then subtracts them all. |
| Restocks.DeleteRestock | routes/store/routes_restock.py:121-139 | Whatever the status, delete succeeds iff the recorded quantities can be subtracted. It subtracts them and removes the record. |
| Restocks.UpdateRestockAsWritten | routes/store/routes_restock.py:106-108 | Cancelling an existing restock fails as written; other updates agree with `UpdateRestock`. |
| Restocks.DeleteRestockAsWritten | routes/store/routes_restock.py:128-129 | Deleting an existing restock fails as written. |
| Restocks.CreateThenCancel | routes/store/routes_restock.py:32-50 | Cancelling a freshly created restock succeeds. It restores every row that existed before, and leaves in place the rows created for previously absent products. |
| Restocks.RecordedAreRequested | routes/store/routes_restock.py:43-49 | Each recorded quantity is the restock quantity of a requested line whose product had a row. |
| Restocks.RecordedCoversExisting | routes/store/routes_restock.py:43-49 | Every line whose product had a row is recorded with its restock quantity. |
| Restocks.CancelAfterCreateSufficient | routes/store/routes_restock.py:106-108 | Right after creation, the store holds at least every recorded quantity. |
| Restocks.CancelRestoresRow | routes/store/routes_restock.py:50 | Subtracting the recorded quantities brings each pre-existing row back to its old value. |
| Restocks.CancelRestoresRequestedRow | routes/store/routes_restock.py:44-50 | A requested product that had a row goes up by its line and comes back down by the same amount. |
| Restocks.CancelKeepsOtherRow | routes/store/routes_restock.py:29-50 | A row of another store or of an unrequested product is touched by neither creation nor cancellation. |
| Removals.Withdraw | routes/store/routes_stock_removal.py:28-39 | Lines are checked in order against the running balance. The call succeeds iff each line's row covers the running total of its product's quantities so far. On success each row of the store drops by the sum of its lines, and the key set is unchanged. |
| Removals.WithdrawFirstFailure | routes/store/routes_stock_removal.py:28-39 | The first line that cannot be withdrawn decides the error: NotFound when its row is missing, InsufficientStock when the running balance falls short. |
| Removals.WithdrawLeavesNonNegative | routes/store/routes_stock_removal.py:33-39 | On success no withdrawn row is negative. |
| Removals.CreateStockRemoval | routes/store/routes_stock_removal.py:14-65 | An invalid request is Rejected. Otherwise the withdrawal's error comes next. A request that names a product twice is then Rejected, since the removal_items key (removal, product) of schemas/removal.py:13-16 refuses it on commit and the generic handler answers 400. It succeeds iff none of these applies. On success the record holds the request's fields and items (caller-supplied previous quantities), and each row drops by its lines' total. |
| Removals.RemovedQuantities | routes/store/routes_stock_removal.py:109 | The removal's items keyed by product. With distinct products each holds its removal quantity. |
| Removals.UpdateStockRemoval | routes/store/routes_stock_removal.py:95-114 | NotFound for a missing record. Supplied fields are set; a missing one keeps its value. Without `is_cancelled` true the inventory is unchanged. With it, each product's recorded quantity (the last line for that product) is added back, even to an already cancelled removal, and the update succeeds iff the rows exist. |
| Removals.DeleteStockRemoval | routes/store/routes_stock_removal.py:117-128 | Deleting adds back each product's recorded quantity, the last line for that product (iff the rows exist), then removes the record. |
| Removals.UpdateStockRemovalAsWritten | routes/store/routes_stock_removal.py:108-110 | Cancelling an existing removal fails as written; other updates agree with `UpdateStockRemoval`. |
| Removals.DeleteStockRemovalAsWritten | routes/store/routes_stock_removal.py:123-124 | Deleting an existing removal fails as written. |
| Removals.CreateThenCancelRestores | routes/store/routes_stock_removal.py:28-46 | Cancelling a freshly created removal succeeds and restores the original inventory. |
| Removals.WithdrawnAreRecorded | routes/store/routes_stock_removal.py:28-46 | Adding the recorded removal quantities back to the withdrawn inventory gives the inventory before the withdrawal. |
| Removals.WithdrawnRowRestored | routes/store/routes_stock_removal.py:39 | The same, row by row. |
| Orders.ValidateAddress | validations/order.py:51-55 | An Offline order always passes. An Online order passes iff its delivery address is non-empty. An empty one is rejected, and a missing one fails on `len(None)`. |
| Orders.ValidateOrderRequest | validations/order.py:8-55 | Passes iff every line quantity is > 0, the amounts are within bounds, and the address rule holds. |
| Orders.ReceivedDate | validations/order.py:66-71 | `date_received` is set (to the clock) iff the update's status is Received. |
| Orders.CreateOrder | routes/order/routes_order.py:16-42 | Fails with NotFound for an unknown customer, or for a line whose product has no price. Otherwise the stored order's totals are exactly those of the cart built from the request. The inventory and every other order are unchanged. |
| Orders.UpdateOrder | routes/order/routes_order.py:73-92 | Any status is accepted from any status. `date_received` follows the new status. Every other field of the order (items, totals, customer, mode, placement date), every other order, the customers, the prices and the inventory are unchanged. NotFound for a missing order. |
| Orders.DeleteOrder | routes/order/routes_order.py:95-111 | Removes exactly the order and never touches inventory; NotFound for a missing order. |
| Orders.EditLine | routes/order/routes_order.py:129-138 | Quantity 0 deletes the line. Otherwise each supplied field overwrites the old one, a missing field keeps its value, and the line keeps its place. |
| Orders.ApplyCartUpdates | routes/order/routes_order.py:122-138 | Succeeds iff every edit names a product the cart held and that no earlier edit deleted with quantity 0. Otherwise the loop stops with NotFound. Lines only disappear, and they stay keyed by product. |
| Orders.ApplyCartUpdatesSplit | routes/order/routes_order.py:124-138 | Editing with one list and then another is editing with the two joined. A failure in the first list stops the loop. |
| Orders.ApplyOneCartUpdate | routes/order/routes_order.py:125-138 | A single edit changes the line it names, or fails with NotFound when that product has no line. |
| Orders.UntouchedLineKept | routes/order/routes_order.py:124-138 | A line that no edit names is kept unchanged. |
| Orders.LastCartUpdateWins | routes/order/routes_order.py:124-138 | For every edit that is the last to name its product: quantity 0 removes the line. Otherwise the line remains, holding the supplied quantity and discount, exactly as that edit left it. |
| Orders.CartLinePresence | routes/order/routes_order.py:124-138 | After a successful edit, a product has a line iff the cart had one and no edit gave it quantity 0. |
| Orders.EditedLines | routes/order/routes_order.py:122-138 | Succeeds iff every edit finds its line; otherwise NotFound. The resulting lines have distinct products. |
| Orders.EditedLinesPresence | routes/order/routes_order.py:122-138 | A product has a resulting line iff the order had one and no edit set its quantity to 0. |
| Orders.EditedLinesLastEdit | routes/order/routes_order.py:124-138 | Each product's last edit that keeps the line shows in it: the supplied quantity and discount are what the line holds. |
| Orders.EditedLinesUntouched | routes/order/routes_order.py:122-138 | A product that no edit names keeps the order's last line for it, unchanged. |
| Orders.UpdateCartItems | routes/order/routes_order.py:115-157 | Succeeds iff every edit is within bounds, the order exists, every edit finds its line, and every remaining line has a price. Otherwise it fails with Rejected for a bad edit, then NotFound. The stored lines are exactly the edited lines, and the totals are those of the cart built from them. No other field or order changes, and inventory is untouched. |
| Orders.RepriceOrder | routes/order/routes_order.py:140-146 | The order takes the given lines and the `create_cart_items` totals over them; NotFound when a line has no price. Nothing else changes. |
| Orders.UpdateCartItemsNoEdits | routes/order/routes_order.py:140-146 | An empty edit list succeeds and keeps the order's lines. |
| Orders.EditedLinesNoEdits | routes/order/routes_order.py:122-138 | Keying lines with distinct products and reading them back, with no edits, gives the same lines in the same order. |
| Refunds.ApplicationDateAsWritten | validations/refund.py:28 | A request that leaves the application date out fails as written. An explicit null or a given date is kept as sent. |
| Refunds.ApplicationDate | validations/refund.py:28 | A left-out application date defaults to the clock. An explicit null stays null, since the field is optional and no default runs, and a given date is kept. |
| Refunds.ApplicationDateDefaultFails | validations/refund.py:28 | The as-written default always fails where the intended one yields the clock. The two agree whenever the client sends the field, null or not. |
| Refunds.LastQuantity | validations/refund.py:59 | The quantity of the last refund line naming a product, or none when no line names it. |
| Refunds.RefundDictIsLast | validations/refund.py:59 | The refund dict holds exactly the requested products, each with its last line's quantity. |
| Refunds.CheckOrderLines | validations/refund.py:60-69 | Passes iff every order line's product is among the refund lines with at least the ordered quantity. The first line that fails decides the error: Rejected when its product is missing, Fault (the message formatting fails) when the quantity is short. |
| Refunds.CheckMeansCovers | validations/refund.py:59-69 | The loop over the dict agrees with the declarative coverage condition. |
| Refunds.ValidateApplication | validations/refund.py:48-75 | A Cancelled or Pending order is rejected first. Then it passes iff the refund lines cover every order line and the application came at most 15 days after receipt (exactly 15 passes). A null application date fails on the subtraction (validations/refund.py:71). On a normal return the status is always Approved. |
| Refunds.ValidateApplicationAsWritten | validations/refund.py:59 | For a delivered order, any refund with lines fails (`p.id` does not exist). The two versions agree only when there are no lines. |
| Refunds.ValidateApplicationAsWrittenRejectsValidRefund | validations/refund.py:59-63 | A concrete refund that the intended check approves fails as written. |
| Refunds.OrderedOnly | routes/order/routes_refund.py:25-38 | With an amount given, only the requested lines whose product is in the order are kept. |
| Refunds.CreateRefund | routes/order/routes_refund.py:17-71 | Rejected for out-of-bounds fields and NotFound for a missing order. Otherwise it succeeds iff the application validates, an amount is given, and the kept lines name each product once. A missing amount leaves `total_amount` unbound. Repeated products collide on the refund_items key (refund, product) of schemas/refund.py:14-17 at commit, which the generic handler answers with Rejected (a 400). An explicit null application date always fails. The refund is Approved with the supplied amount and the ordered lines. The order's status becomes For Refund, and inventory is untouched. |
| Refunds.RefundedDate | validations/refund.py:89-94 | `date_refunded` is set (to the clock) iff the update's status is Refunded. |
| Refunds.UpdateRefund | routes/order/routes_refund.py:99-121 | NotFound for a missing refund. A given status overwrites the status and `date_refunded` with no transition check, and a truthy reason changes independently. Orders, inventory and other refunds are unchanged. |
| Refunds.DeleteRefund | routes/order/routes_refund.py:124-139 | Removes exactly the refund and changes neither orders nor inventory. |
| Refunds.SecondRefundAccepted | validations/refund.py:50-56 | A second identical refund on the same order is accepted, since For Refund is neither Cancelled nor Pending. |
| Refunds.RefundUpdatesNeverRestock | routes/order/routes_refund.py:106-108 | Marking a refund Refunded stamps the clock and returns no stock. |
| Refunds.EmptyRefundUpdateIsIdentity | routes/order/routes_refund.py:106-111 | An update with neither status nor reason changes nothing. |
| InventoryRoutes.DefaultRequest | validations/inventory.py:8-14 | The defaults (quantity 0, discount 0) form a valid row. |
| InventoryRoutes.AddInventory | routes/store/routes_inventory.py:47-59 | An out-of-bounds request, or one whose (store, product) key exists, is Rejected. Otherwise exactly that key is added with the given quantity and discount. |
| InventoryRoutes.UpdateRow | routes/store/routes_inventory.py:83-87 | Quantity and discount change only when supplied. |
| InventoryRoutes.ApplyUpdates | routes/store/routes_inventory.py:76-89 | NotFound iff some update names a product without a row in the store. Otherwise the keys and other stores are unchanged, and each row of the store ends as `FinalRow` of the updates. |
| InventoryRoutes.FinalRowIsLast | routes/store/routes_inventory.py:76-89 | Each field of a row ends at the last value supplied for it, or keeps its value when none is. |
| InventoryRoutes.ModifyInventory | routes/store/routes_inventory.py:62-97 | An out-of-bounds update is Rejected. A store with no rows is NotFound. Otherwise the result is that of `ApplyUpdates`. |
| InventoryRoutes.DeleteListed | routes/store/routes_inventory.py:112-118 | The loop fails with NotFound on an unknown product. Otherwise it removes exactly the listed rows. |
| InventoryRoutes.DeleteInventoryByStore | routes/store/routes_inventory.py:101-126 | NotFound when the store has no rows or a listed product has none. Otherwise exactly the listed rows are removed and the rest keep their values. |
| InventoryRoutes.ModifyKeepsValidRows | validations/inventory.py:28-33 | Modification keeps every row within the field bounds. |
| InventoryRoutes.LastValueValid | validations/inventory.py:30-33 | A field's final value is either its old value or a supplied one, so it stays within bounds. |
| InventoryRoutes.LastQuantityValid | validations/inventory.py:30 | A quantity that is the old valid one or the last supplied valid one is non-negative. |
| InventoryRoutes.LastDiscountValid | validations/inventory.py:31-33 | A max discount that is the old valid one or the last supplied valid one lies in [0, 1]. |
| InventoryRoutes.ModifyIdempotent | routes/store/routes_inventory.py:83-87 | Applying the same modification twice equals applying it once. |
| InventoryRoutes.ApplyIdempotent | routes/store/routes_inventory.py:76-89 | The update loop is idempotent. |
| InventoryRoutes.FinalRowIdempotent | routes/store/routes_inventory.py:83-87 | Replaying the updates on an already updated row changes nothing. |
| InventoryRoutes.DeleteThenAddBack | routes/store/routes_inventory.py:101-118 | Deleting one row succeeds. Adding the same row back afterwards restores the inventory. |
| Transactions.TypeOf | utils/create_transaction.py:12-25 | Order → Sale, Refund → Refund, Restock → Restock, StockRemoval → Removal. Any other record kind has no type. |
| Transactions.KindOf | utils/create_transaction.py:12-22 | Every transaction type comes from a real record kind. |
| Transactions.TagRoundTrip | utils/create_transaction.py:12-22 | The kind-to-type tagging and its inverse undo each other. |
| Transactions.AddTransaction | utils/create_transaction.py:11-32 | Any other record kind is Rejected and adds nothing. Otherwise exactly one transaction is appended, carrying the record's type and id, the handler and the date. |
| Transactions.AddTransactionAsWritten | utils/create_transaction.py:2 | As written every call fails. |
| Transactions.AddTransactionCounts | utils/create_transaction.py:31-32 | A successful call raises the count of its own type by one and leaves every other count alone. |
| Transactions.AddTransactionsExtend | utils/create_transaction.py:31-32 | A run of calls only appends: the earlier ledger is a prefix of the later one. |
| LegacyStore.AddProduct | validations/store.py:43-54 | A quantity below 1 is rejected. Otherwise the product's entry grows by the quantity, or is created with it, and revenue is unchanged. |
| LegacyStore.SellProduct | validations/store.py:56-70 | Rejected for an absent product or insufficient stock. The entry drops by the quantity and is deleted at 0; revenue rises by discounted price × quantity. |
| LegacyStore.RemoveProduct | validations/store.py:72-76 | Deletes the entry if present and is a no-op otherwise. |
| LegacyStore.OperationsKeepStoredPositive | validations/store.py:43-76 | Every stored quantity stays ≥ 1 across add, sell and remove. |
| LegacyStore.AddThenSellRestores | validations/store.py:48-65 | Adding and then selling the same quantity restores the inventory map; only revenue grows. |
| LegacyStore.SaleRaisesRevenue | validations/store.py:68 | With a valid product and a non-negative quantity, a sale never lowers revenue. |
| Users.CreatePublicUser | routes/user/routes_user.py:26-46 | A request that breaks the field bounds, or whose username is taken, is rejected. The new user always gets the default level, whatever was requested. |
| Users.CreateInternalUser | routes/user/routes_user.py:52-84 | A request for a level ≥ the caller's is Forbidden. On success the new user's level lies below the caller's. |
| Users.ApplyEdit | routes/user/routes_user.py:175-180 | Only the truthy supplied fields change, and the password is stored hashed. |
| Users.ModifyUser | routes/user/routes_user.py:154-194 | Edits only the caller's own record, and only its supplied fields. A username clash fails the commit. |
| Users.FindTarget | routes/user/routes_user.py:210-225 | The username takes precedence and the email is used otherwise. Neither given is Rejected. For the chosen key, no match is NotFound, several matches are a Fault, and exactly one match is Ok with that user. |
| Users.ModifyAnyUser | routes/user/routes_user.py:200-254 | A new level ≥ the caller's, or a target at a level ≥ the caller's, is Forbidden. Once both checks pass, the call succeeds iff the edited username clashes with no other user, and a clash is a Fault. After success the target's level is below the caller's, only the target changes, and a zero new level leaves the level alone. |
| Users.PublicLevelIgnored | routes/user/routes_user.py:29-34 | The requested level never affects a public registration. |
| Users.ManagersCannotTouchPeers | routes/user/routes_user.py:227-240 | A successful management update leaves every user at or above the caller's level unchanged. |
| Users.EmptyEditIsIdentity | routes/user/routes_user.py:175-180 | An edit supplying nothing changes nothing. |
| Users.ApplyEditIdempotent | routes/user/routes_user.py:175-180 | Applying the same edit twice equals applying it once. |

## Left out

- Database sessions, queries, commits, refreshes and async/await. Lookups are map lookups, and an error keeps the old state.
- Concurrency and row locking: the code has none.
- Floating-point rounding: prices, discounts and tax are exact reals.
- The wall clock: every `datetime.now` is a `now` parameter, and the default timezone argument is not modelled.
- Password hashing, tokens and authentication: the hash is an opaque function parameter.
- The `require_access_level` dependency gate in front of the management routes. The caller (id and level) is taken as given. utils/auth.py as shipped does not define that gate.
- Read-only routes (the `get_*` handlers, transaction listing, information loading) and the thin CRUD routes for products, categories, customers, employees, roles, locations and stores.
- ORM table declarations, and columns without rules: timestamps, names, the refund's store and reason columns, NOT NULL constraints.
- The Transaction lookup in `check_and_add_inventory` (utils/check_inventory.py:27-37). Its result is never used, so it has no effect on the inventory.
- The `sales` tally and the `last_stock_update`/`updated_at` timestamps of the in-memory store (validations/store.py:53-54, 67, 70). They do not affect inventory or revenue.
- The refund amount the route computes when no amount is given is not modelled, because that branch always fails (see `Refunds.CreateRefund`).
- InventoryRoutes.AddInventory: refuses a second row for an existing (store, product) pair. The inventory table's primary key also includes a surrogate id, so the database would accept the duplicate; the model keeps one row per pair.
- LegacyStore.SellProduct: performs no check on the sign of the quantity, as in the source. `SaleRaisesRevenue` is stated only for non-negative quantities.
- Users.CreatePublicUser, Users.CreateInternalUser: the request type as shipped has no email field, the update request classes that `modify_user` and `modify_any_user` read are not part of validations/user.py, and the users table has no email or level column. The model gives the request an email and the user a level, as the routes use them.
- Users.ApplyEdit: the users table has a `hashed_password` column, not `password` (schemas/user.py:25). As written, `User(password=...)` in both create handlers fails with a TypeError. `user.password = ...` (routes/user/routes_user.py:178 and 236) sets an attribute the table does not map, so a new password is never stored. The model stores the hash as `passwordHash`, as the handlers evidently intend.
- Users.FindTarget: several users matching the key are a failure (`scalar_one_or_none`); the model does not go further into what the database would do.
- Orders.CreateOrder, Orders.UpdateCartItems: the orders table (schemas/order.py:24-44) has no `customer_id` column and no `items` relationship. As written, `Order(customer_id=..., items=...)` (routes/order/routes_order.py:27-36) raises a TypeError and `order.items` (routes/order/routes_order.py:122) an AttributeError, so neither handler can succeed. The model stores the customer and the cart lines on the order, as the handlers evidently intend.
- Removals.UpdateStockRemoval, Removals.DeleteStockRemoval: a stored removal is taken to name each product once, which `CreateStockRemoval` guarantees. For a removal that did repeat a product, only the last line per product would be added back (the quantity dict of routes/store/routes_stock_removal.py:109, keyed by product as the handler intends), which is less than the withdrawal took.
- Removals.CreateStockRemoval, Removals.UpdateStockRemoval: the stock_removals table maps the flag as `is_canceled` (schemas/removal.py:37), while the handlers write `is_cancelled`. As written, `StockRemoval(..., is_cancelled=...)` (routes/store/routes_stock_removal.py:48-53) raises a TypeError, which the generic handler turns into a 400, so no removal can be created. `stock_removal.is_cancelled = ...` (routes/store/routes_stock_removal.py:106) sets an unmapped attribute, so the flag is never stored. The model stores the flag as `isCancelled` in both handlers, as they evidently intend.
- Orders.EditedLines: states which lines remain and what they hold, but not the order they come back in (the dict's first-insertion order), except for an empty edit list (`EditedLinesNoEdits`).

## Findings

| source | as written | input that shows it | evidently intended | confidence | as-written member | corrected member |
|---|---|---|---|---|---|---|
| schema/order.py:45-47 | `discount_amount` is bound only inside `if self.discount:` | any order with discount 0 (the default) | no discount taken off, total = subtotal × (1 + tax) | high; not executed | LegacyOrder.CalculateTotalAsWritten, LegacyOrder.ZeroDiscountFails | LegacyOrder.CalculateTotal |
| validations/refund.py:28 | the default factory calls `datetime.now(timezone)` with the class, not a tzinfo | a refund request without `application_date` | the current time | high; not executed | Refunds.ApplicationDateAsWritten, Refunds.ApplicationDateDefaultFails | Refunds.ApplicationDate |
| validations/refund.py:59 | the refund dict is keyed by `p.id`, which refund items lack | a delivered order with one line, refunded in full the day after receipt | key by `product_id` | high; not executed | Refunds.ValidateApplicationAsWritten, Refunds.ValidateApplicationAsWrittenRejectsValidRefund | Refunds.ValidateApplication |
| routes/store/routes_restock.py:107-108 | `restore_inventory(db, products, add_stock=False)` omits the store and keys by item id | cancelling any existing restock | subtract each recorded product's quantity in the restock's store | high; not executed | Restocks.UpdateRestockAsWritten, Restocks.DeleteRestockAsWritten | Restocks.UpdateRestock, Restocks.DeleteRestock, Restocks.CreateThenCancel |
| routes/store/routes_stock_removal.py:108-110 | `restore_inventory(db, products, add_stock=True)` omits the store and keys by item id | cancelling or deleting any existing removal | add back each removed product's quantity in the removal's store | high; not executed | Removals.UpdateStockRemovalAsWritten, Removals.DeleteStockRemovalAsWritten | Removals.UpdateStockRemoval, Removals.DeleteStockRemoval, Removals.CreateThenCancelRestores |
| utils/create_transaction.py:2 | imports `TransactionBase` from a module that does not define it; the transaction record also needs the handler | any call to `add_transaction` | append one tagged transaction | medium; not executed | Transactions.AddTransactionAsWritten | Transactions.AddTransaction, Transactions.AddTransactionCounts |

=== FILE: cart.dfy ===
/** `create_cart_items`: price the requested lines against the catalog and total them. */
module Cart {
  import opened Wrappers
  import opened Stock

  /** A cart line: the request's CartItemBase and the stored CartItems carry the same fields. */
  datatype CartItem = CartItem(product: ProductId, quantity: int, discount: real)

  datatype Cart = Cart(items: seq<CartItem>, amount: real, discount: real, tax: real)

  /** Product prices from the catalog, keyed by product id. */
  type Prices = map<ProductId, real>

  const DefaultTaxRate: real := 0.18

  predicate Priced(items: seq<CartItem>, prices: Prices) {
    forall i :: 0 <= i < |items| ==> items[i].product in prices
  }

  function LinePrice(item: CartItem, prices: Prices): real
    requires item.product in prices
  {
    prices[item.product] * (item.quantity as real)
  }

  /** Reference sum of price x quantity over the lines. */
  function Amount(items: seq<CartItem>, prices: Prices): real
    requires Priced(items, prices)
    decreases |items|
  {
    if |items| == 0 then 0.0 else LinePrice(items[0], prices) + Amount(items[1..], prices)
  }

  /** Reference sum of price x quantity x discount over the lines. */
  function DiscountTotal(items: seq<CartItem>, prices: Prices): real
    requires Priced(items, prices)
    decreases |items|
  {
    if |items| == 0 then 0.0 else LinePrice(items[0], prices) * items[0].discount + DiscountTotal(items[1..], prices)
  }

  /** The loop of `create_cart_items`, carrying its running totals in `acc`. */
  function BuildFrom(items: seq<CartItem>, prices: Prices, taxRate: real, acc: Cart): (r: Result<Cart>)
    requires acc.tax == (acc.amount - acc.discount) * taxRate
    ensures r.Ok? <==> Priced(items, prices)
    ensures r.Err? ==> r.error == NotFound
    ensures r.Ok? ==> r.value.items == acc.items + items
    ensures r.Ok? ==> Priced(items, prices) && r.value.amount == acc.amount + Amount(items, prices)
    ensures r.Ok? ==> Priced(items, prices) && r.value.discount == acc.discount + DiscountTotal(items, prices)
    ensures r.Ok? ==> r.value.tax == (r.value.amount - r.value.discount) * taxRate
    decreases |items|
  {
    if |items| == 0 then Ok(acc)
    else if items[0].product !in prices then Err(NotFound)
    else
      var item := items[0];
      var price := LinePrice(item, prices);
      var disc := price * item.discount;
      var tax := (price - disc) * taxRate;
      assert acc.tax + tax == ((acc.amount + price) - (acc.discount + disc)) * taxRate;
      var next := Cart(acc.items + [item], acc.amount + price, acc.discount + disc, acc.tax + tax);
      assert acc.items + items == next.items + items[1..];
      assert Priced(items, prices) <==> Priced(items[1..], prices) by {
        assert forall i :: 0 < i < |items| ==> items[i] == items[1..][i - 1];
      }
      BuildFrom(items[1..], prices, taxRate, next)
  }

  /** `create_cart_items(items, products, tax_rate)`: fails with NotFound on an unknown
      product; otherwise copies every line and returns the three totals. */
  function BuildCart(items: seq<CartItem>, prices: Prices, taxRate: real): (r: Result<Cart>)
    ensures r.Ok? <==> Priced(items, prices)
    ensures r.Err? ==> r.error == NotFound
    ensures r.Ok? ==> r.value.items == items
    ensures r.Ok? ==> Priced(items, prices) && r.value.amount == Amount(items, prices)
    ensures r.Ok? ==> Priced(items, prices) && r.value.discount == DiscountTotal(items, prices)
    ensures r.Ok? ==> r.value.tax == (r.value.amount - r.value.discount) * taxRate
  {
    BuildFrom(items, prices, taxRate, Cart([], 0.0, 0.0, 0.0))
  }

  /** An empty request yields no lines and zero totals. */
  lemma EmptyCart(prices: Prices, taxRate: real)
    ensures BuildCart([], prices, taxRate) == Ok(Cart([], 0.0, 0.0, 0.0))
  {
  }

  /** With non-negative prices and quantities and discounts in [0, 1], the discount total
      lies between 0 and the amount. */
  lemma {:induction false} DiscountWithinAmount(items: seq<CartItem>, prices: Prices)
    requires Priced(items, prices)
    requires forall p :: p in prices ==> prices[p] >= 0.0
    requires forall i :: 0 <= i < |items| ==> items[i].quantity >= 0 && 0.0 <= items[i].discount <= 1.0
    ensures 0.0 <= DiscountTotal(items, prices) <= Amount(items, prices)
    decreases |items|
  {
    if |items| > 0 {
      var price := LinePrice(items[0], prices);
      assert price >= 0.0;
      assert 0.0 <= price * items[0].discount <= price;
      assert Priced(items[1..], prices) by {
        assert forall i :: 0 < i < |items| ==> items[i] == items[1..][i - 1];
      }
      DiscountWithinAmount(items[1..], prices);
      assert DiscountTotal(items, prices) == price * items[0].discount + DiscountTotal(items[1..], prices);
      assert Amount(items, prices) == price + Amount(items[1..], prices);
    }
  }

  /** Under the same bounds and a non-negative tax rate, every total of a built cart is
      non-negative and the discount never exceeds the amount. */
  lemma CartTotalsBounded(items: seq<CartItem>, prices: Prices, taxRate: real)
    requires Priced(items, prices)
    requires taxRate >= 0.0
    requires forall p :: p in prices ==> prices[p] >= 0.0
    requires forall i :: 0 <= i < |items| ==> items[i].quantity >= 0 && 0.0 <= items[i].discount <= 1.0
    ensures BuildCart(items, prices, taxRate).Ok?
    ensures var c := BuildCart(items, prices, taxRate).value;
            0.0 <= c.discount <= c.amount && c.tax >= 0.0
  {
    DiscountWithinAmount(items, prices);
    var c := BuildCart(items, prices, taxRate).value;
    ProductNonNegative(c.amount - c.discount, taxRate);
  }

  lemma ProductNonNegative(a: real, b: real)
    requires a >= 0.0 && b >= 0.0
    ensures a * b >= 0.0
  {
  }
}

=== FILE: catalog.dfy ===
/** The in-memory product model of validations/product.py and its discounted price. */
module Catalog {
  import opened Stock

  datatype Product = Product(id: ProductId, price: real, discount: real)

  /** Field bounds: price >= 0 and discount in [0, 1]. */
  predicate ValidProduct(p: Product) {
    p.price >= 0.0 && 0.0 <= p.discount <= 1.0
  }

  /** `max(0, price * (1 - discount))`. */
  function DiscountedPrice(p: Product): (r: real)
    ensures r >= 0.0
    ensures p.price * (1.0 - p.discount) >= 0.0 ==> r == p.price * (1.0 - p.discount)
    ensures p.price * (1.0 - p.discount) < 0.0 ==> r == 0.0
  {
    var raw := p.price * (1.0 - p.discount);
    if raw > 0.0 then raw else 0.0
  }

  /** For a product within its field bounds the discounted price lies in [0, price]. */
  lemma DiscountedPriceWithinPrice(p: Product)
    requires ValidProduct(p)
    ensures 0.0 <= DiscountedPrice(p) <= p.price
  {
    assert p.price * (1.0 - p.discount) == p.price - p.price * p.discount;
    assert p.price * p.discount >= 0.0;
  }

  /** No discount leaves the price as it is; a full discount makes the product free. */
  lemma DiscountedPriceEdges(p: Product)
    requires p.price >= 0.0
    ensures p.discount == 0.0 ==> DiscountedPrice(p) == p.price
    ensures p.discount == 1.0 ==> DiscountedPrice(p) == 0.0
  {
  }
}

=== FILE: check_inventory.dfy ===
/** The order-side stock movements of utils/check_inventory.py: taking an order's items out
    of a store and putting them back.  Both read the items through a product-keyed dict, so
    a product listed twice moves by its last line's quantity only, and both visit only the
    rows the store already has: an ordered product without a row is skipped. */
module CheckInventory {
  import opened Wrappers
  import opened Stock
  import Dicts

  /** `{p.product_id: p for p in order.items}`, read for the quantities. */
  function Wanted(lines: seq<Line>): (d: Dicts.Dict<ProductId, int>)
    ensures d.Valid()
    ensures forall p :: p in d.vals <==> exists i :: 0 <= i < |lines| && lines[i].product == p
    ensures forall i :: 0 <= i < |lines| && (forall j :: i < j < |lines| ==> lines[j].product != lines[i].product) ==>
              d.vals[lines[i].product] == lines[i].qty
  {
    var key := (l: Line) => l.product;
    var val := (l: Line) => l.qty;
    forall i | 0 <= i < |lines| && (forall j :: i < j < |lines| ==> lines[j].product != lines[i].product)
      ensures Dicts.FromSeq(lines, key, val).vals[lines[i].product] == lines[i].qty
    {
      Dicts.FromSeqLastWins(lines, key, val, i);
    }
    Dicts.FromSeq(lines, key, val)
  }

  /** Every wanted product that has a row in `store` holds at least the wanted quantity. */
  ghost predicate Covered(inv: Inventory, store: StoreId, want: map<ProductId, int>) {
    forall p :: p in want && (store, p) in inv ==> inv[(store, p)].quantity >= want[p]
  }

  /** One row of `cur` moved by `delta`, when the row exists. */
  function Bump(cur: Inventory, k: Key, delta: int): (r: Inventory)
    ensures r.Keys == cur.Keys
    ensures forall k' :: k' in cur && k' != k ==> r[k'] == cur[k']
    ensures k in cur ==> r[k] == cur[k].(quantity := cur[k].quantity + delta)
  {
    if k in cur then cur[k := cur[k].(quantity := cur[k].quantity + delta)] else cur
  }

  /** The ledger part-way through a loop: the rows of the products in `done`, visited in
      order, have each moved by their delta. */
  ghost function Partial(inv: Inventory, store: StoreId, d: map<ProductId, int>, done: seq<ProductId>): (r: Inventory)
    ensures r.Keys == inv.Keys
    decreases |done|
  {
    if |done| == 0 then inv
    else
      var last := done[|done| - 1];
      Bump(Partial(inv, store, d, done[..|done| - 1]), (store, last), Delta(d, last))
  }

  /** Over distinct products, each row has moved once if its product was visited and not at
      all otherwise. */
  lemma {:induction false} PartialAt(inv: Inventory, store: StoreId, d: map<ProductId, int>, done: seq<ProductId>, k: Key)
    requires forall i, j :: 0 <= i < j < |done| ==> done[i] != done[j]
    requires k in inv
    ensures Partial(inv, store, d, done)[k]
            == if k.0 == store && k.1 in done then inv[k].(quantity := inv[k].quantity + Delta(d, k.1)) else inv[k]
    decreases |done|
  {
    if |done| > 0 {
      var prefix := done[..|done| - 1];
      var last := done[|done| - 1];
      PartialAt(inv, store, d, prefix, k);
      assert done == prefix + [last];
      if k == (store, last) {
        assert last !in prefix by {
          forall i | 0 <= i < |prefix| ensures prefix[i] != last {
            assert prefix[i] == done[i];
          }
        }
      } else {
        assert k.0 == store ==> (k.1 in done <==> k.1 in prefix);
      }
    }
  }

  /** A finished loop over every product of `d`, each once, is the reference adjustment. */
  lemma PartialComplete(inv: Inventory, store: StoreId, d: map<ProductId, int>, done: seq<ProductId>)
    requires forall i, j :: 0 <= i < j < |done| ==> done[i] != done[j]
    requires forall p :: p in d ==> p in done
    ensures Partial(inv, store, d, done) == Adjust(inv, store, d)
  {
    var r := Partial(inv, store, d, done);
    var a := Adjust(inv, store, d);
    forall k | k in inv ensures r[k] == a[k] {
      PartialAt(inv, store, d, done, k);
    }
  }

  /** The removal loop over distinct products `keys`: a row holding less than its product's
      quantity stops it; a product without a row in `store` is passed over. */
  method TakeRows(inv: Inventory, store: StoreId, keys: seq<ProductId>, want: map<ProductId, int>) returns (r: Result<Inventory>)
    requires forall i :: 0 <= i < |keys| ==> keys[i] in want
    requires forall i, j :: 0 <= i < j < |keys| ==> keys[i] != keys[j]
    ensures r.Ok? <==> forall i :: 0 <= i < |keys| && (store, keys[i]) in inv ==> inv[(store, keys[i])].quantity >= want[keys[i]]
    ensures r.Err? ==> r.error == InsufficientStock
    ensures r.Ok? ==> r.value == Partial(inv, store, Negate(want), keys)
  {
    ghost var d := Negate(want);
    var cur := inv;
    var i := 0;
    while i < |keys|
      invariant 0 <= i <= |keys|
      invariant forall j :: 0 <= j < i && (store, keys[j]) in inv ==> inv[(store, keys[j])].quantity >= want[keys[j]]
      invariant cur == Partial(inv, store, d, keys[..i])
    {
      var p := keys[i];
      var k := (store, p);
      assert keys[..i + 1][..i] == keys[..i];
      if k in cur {
        PartialAt(inv, store, d, keys[..i], k);
        assert p !in keys[..i];
        if cur[k].quantity < want[p] {
          return Err(InsufficientStock);
        }
        cur := cur[k := cur[k].(quantity := cur[k].quantity - want[p])];
      }
      i := i + 1;
    }
    assert keys[..i] == keys;
    r := Ok(cur);
  }

  /** The adding loop over distinct products `keys`: only rows the store already has move. */
  method PutRows(inv: Inventory, store: StoreId, keys: seq<ProductId>, want: map<ProductId, int>) returns (r: Inventory)
    requires forall i :: 0 <= i < |keys| ==> keys[i] in want
    ensures r == Partial(inv, store, want, keys)
  {
    r := inv;
    var i := 0;
    while i < |keys|
      invariant 0 <= i <= |keys|
      invariant r == Partial(inv, store, want, keys[..i])
    {
      var p := keys[i];
      var k := (store, p);
      assert keys[..i + 1][..i] == keys[..i];
      if k in r {
        r := r[k := r[k].(quantity := r[k].quantity + want[p])];
      }
      i := i + 1;
    }
    assert keys[..i] == keys;
  }

  /** `check_and_remove_inventory`: fails (a ValueError) when a matching row holds less than
      the wanted quantity; otherwise every matching row drops by it. */
  method CheckAndRemoveInventory(inv: Inventory, store: StoreId, lines: seq<Line>) returns (r: Result<Inventory>)
    ensures r.Ok? <==> Covered(inv, store, Wanted(lines).vals)
    ensures r.Err? ==> r.error == InsufficientStock
    ensures r.Ok? ==> r.value == Adjust(inv, store, Negate(Wanted(lines).vals))
    ensures r.Ok? ==> forall i :: 0 <= i < |lines| && (store, lines[i].product) in inv ==>
              r.value[(store, lines[i].product)].quantity >= 0
  {
    var want := Wanted(lines);
    r := TakeRows(inv, store, want.keys, want.vals);
    CoveredIsEveryKey(inv, store, want);
    if r.Ok? {
      PartialComplete(inv, store, Negate(want.vals), want.keys);
      CoveredRemovalNonNegative(inv, store, lines);
    }
  }

  /** Covered, read key by key in the dict's order. */
  lemma CoveredIsEveryKey(inv: Inventory, store: StoreId, want: Dicts.Dict<ProductId, int>)
    requires want.Valid()
    ensures Covered(inv, store, want.vals) <==>
              forall i :: 0 <= i < |want.keys| && (store, want.keys[i]) in inv ==> inv[(store, want.keys[i])].quantity >= want.vals[want.keys[i]]
  {
    if !Covered(inv, store, want.vals) {
      var p :| p in want.vals && (store, p) in inv && inv[(store, p)].quantity < want.vals[p];
      var i :| 0 <= i < |want.keys| && want.keys[i] == p;
    }
  }

  /** A covered removal leaves every row it touched non-negative. */
  lemma CoveredRemovalNonNegative(inv: Inventory, store: StoreId, lines: seq<Line>)
    requires Covered(inv, store, Wanted(lines).vals)
    ensures forall i :: 0 <= i < |lines| && (store, lines[i].product) in inv ==>
              Adjust(inv, store, Negate(Wanted(lines).vals))[(store, lines[i].product)].quantity >= 0
  {
    var want := Wanted(lines);
    forall i | 0 <= i < |lines| && (store, lines[i].product) in inv
      ensures Adjust(inv, store, Negate(want.vals))[(store, lines[i].product)].quantity >= 0
    {
      assert lines[i].product in want.vals;
    }
  }

  /** `check_and_add_inventory`: every matching row rises by the wanted quantity; no row is
      created.  The Transaction it looks up first is never used. */
  method CheckAndAddInventory(inv: Inventory, store: StoreId, lines: seq<Line>) returns (r: Inventory)
    ensures r == Adjust(inv, store, Wanted(lines).vals)
  {
    var want := Wanted(lines);
    r := PutRows(inv, store, want.keys, want.vals);
    PartialComplete(inv, store, want.vals, want.keys);
  }

  // ---------------------------------------------------------------- properties

  /** Taking an order's items out of a store and putting them back leaves the ledger as it was. */
  lemma RemoveThenAddRestores(inv: Inventory, store: StoreId, lines: seq<Line>)
    ensures var want := Wanted(lines).vals;
            Adjust(Adjust(inv, store, Negate(want)), store, want) == inv
  {
    var want := Wanted(lines).vals;
    AdjustRoundTrip(inv, store, Negate(want));
    NegateTwice(want);
  }

  /** Putting items back never fails a later removal of the same items. */
  lemma AddThenRemoveCovered(inv: Inventory, store: StoreId, lines: seq<Line>)
    requires NonNegative(inv)
    requires forall i :: 0 <= i < |lines| ==> lines[i].qty >= 0
    ensures Covered(Adjust(inv, store, Wanted(lines).vals), store, Wanted(lines).vals)
  {
    var want := Wanted(lines).vals;
    forall p | p in want ensures want[p] >= 0 {
      var i :| 0 <= i < |lines| && lines[i].product == p && want[p] == lines[i].qty;
    }
  }
}

=== FILE: dicts.dfy ===
/** Python's insertion-ordered dict: a sequence of distinct keys plus one value per key.
    `{key(x): val(x) for x in items}` keeps the first-insertion order of each key and the
    value of its last occurrence. */
module Dicts {

  datatype Dict<K(==, !new), V> = Dict(keys: seq<K>, vals: map<K, V>) {
    ghost predicate Valid() {
      && (forall i, j :: 0 <= i < j < |keys| ==> keys[i] != keys[j])
      && (forall k :: k in vals <==> k in keys)
    }
  }

  function Empty<K(==, !new), V>(): (d: Dict<K, V>)
    ensures d.Valid() && d.vals == map[]
  {
    Dict([], map[])
  }

  /** `d[k] = v`: a new key goes to the end, an existing key keeps its place. */
  function Put<K(==, !new), V>(d: Dict<K, V>, k: K, v: V): (r: Dict<K, V>)
    requires d.Valid()
    ensures r.Valid()
    ensures r.vals == d.vals[k := v]
    ensures k in d.vals ==> r.keys == d.keys
    ensures k !in d.vals ==> r.keys == d.keys + [k]
  {
    if k in d.vals then Dict(d.keys, d.vals[k := v]) else Dict(d.keys + [k], d.vals[k := v])
  }

  function RemoveKey<K(==, !new)>(ks: seq<K>, k: K): (r: seq<K>)
    ensures forall x :: x in r <==> x in ks && x != k
    ensures |r| <= |ks|
    ensures (forall i, j :: 0 <= i < j < |ks| ==> ks[i] != ks[j]) ==>
              (forall i, j :: 0 <= i < j < |r| ==> r[i] != r[j])
  {
    if |ks| == 0 then []
    else if ks[0] == k then RemoveKey(ks[1..], k)
    else
      var rest := RemoveKey(ks[1..], k);
      assert forall x :: x in rest ==> x in ks[1..];
      assert (forall i, j :: 0 <= i < j < |ks| ==> ks[i] != ks[j]) ==> ks[0] !in ks[1..];
      [ks[0]] + rest
  }

  /** `del d[k]`: the remaining keys keep their order. */
  function Delete<K(==, !new), V>(d: Dict<K, V>, k: K): (r: Dict<K, V>)
    requires d.Valid()
    ensures r.Valid()
    ensures r.vals == d.vals - {k}
  {
    Dict(RemoveKey(d.keys, k), d.vals - {k})
  }

  /** `d.values()` in key order. */
  function Values<K(==, !new), V>(d: Dict<K, V>): (r: seq<V>)
    requires d.Valid()
    ensures |r| == |d.keys|
    ensures forall i :: 0 <= i < |r| ==> r[i] == d.vals[d.keys[i]]
  {
    seq(|d.keys|, i requires 0 <= i < |d.keys| => d.vals[d.keys[i]])
  }

  /** The dict comprehension `{key(x): val(x) for x in items}`. */
  function FromSeq<T, K(==, !new), V>(items: seq<T>, key: T -> K, val: T -> V): (d: Dict<K, V>)
    ensures d.Valid()
    ensures forall k :: k in d.vals <==> exists i :: 0 <= i < |items| && key(items[i]) == k
    ensures forall k :: k in d.vals ==> exists i :: 0 <= i < |items| && key(items[i]) == k && d.vals[k] == val(items[i])
    decreases |items|
  {
    if |items| == 0 then Empty()
    else
      var init := FromSeq(items[..|items| - 1], key, val);
      assert forall i :: 0 <= i < |items| - 1 ==> items[..|items| - 1][i] == items[i];
      Put(init, key(items[|items| - 1]), val(items[|items| - 1]))
  }

  /** With pairwise distinct keys the comprehension keeps the items' order: its i-th key
      is the i-th item's key. */
  lemma {:induction false} FromSeqInOrder<T, K(!new), V>(items: seq<T>, key: T -> K, val: T -> V)
    requires forall i, j :: 0 <= i < j < |items| ==> key(items[i]) != key(items[j])
    ensures |FromSeq(items, key, val).keys| == |items|
    ensures forall i :: 0 <= i < |items| ==> FromSeq(items, key, val).keys[i] == key(items[i])
    decreases |items|
  {
    if |items| > 0 {
      var n := |items| - 1;
      var prefix := items[..n];
      forall i, j | 0 <= i < j < n ensures key(prefix[i]) != key(prefix[j]) {
        assert prefix[i] == items[i] && prefix[j] == items[j];
      }
      FromSeqInOrder(prefix, key, val);
      var init := FromSeq(prefix, key, val);
      var k := key(items[n]);
      forall j | 0 <= j < n ensures init.keys[j] != k {
        assert init.keys[j] == key(prefix[j]) && prefix[j] == items[j];
      }
      assert k !in init.vals;
      var r := FromSeq(items, key, val);
      assert r.keys == init.keys + [k];
      forall i | 0 <= i < |items| ensures r.keys[i] == key(items[i]) {
        if i < n {
          assert r.keys[i] == init.keys[i] == key(prefix[i]);
          assert prefix[i] == items[i];
        }
      }
    }
  }

  /** ... so its values are exactly the items' values, in the items' order. */
  lemma FromSeqValuesInOrder<T, K(!new), V>(items: seq<T>, key: T -> K, val: T -> V)
    requires forall i, j :: 0 <= i < j < |items| ==> key(items[i]) != key(items[j])
    ensures |Values(FromSeq(items, key, val))| == |items|
    ensures forall i :: 0 <= i < |items| ==> Values(FromSeq(items, key, val))[i] == val(items[i])
  {
    FromSeqInOrder(items, key, val);
    FromSeqDistinct(items, key, val);
  }

  /** Each key of the comprehension holds the value of the LAST item with that key. */
  lemma {:induction false} FromSeqLastWins<T, K(!new), V>(items: seq<T>, key: T -> K, val: T -> V, i: int)
    requires 0 <= i < |items|
    requires forall j :: i < j < |items| ==> key(items[j]) != key(items[i])
    ensures key(items[i]) in FromSeq(items, key, val).vals
    ensures FromSeq(items, key, val).vals[key(items[i])] == val(items[i])
    decreases |items|
  {
    if i < |items| - 1 {
      var init := items[..|items| - 1];
      assert init[i] == items[i];
      forall j | i < j < |init| ensures key(init[j]) != key(init[i]) {
        assert init[j] == items[j];
      }
      FromSeqLastWins(init, key, val, i);
    }
  }

  /** With pairwise distinct keys, every item's value survives unchanged. */
  lemma FromSeqDistinct<T, K(!new), V>(items: seq<T>, key: T -> K, val: T -> V)
    requires forall i, j :: 0 <= i < j < |items| ==> key(items[i]) != key(items[j])
    ensures forall i :: 0 <= i < |items| ==>
              key(items[i]) in FromSeq(items, key, val).vals && FromSeq(items, key, val).vals[key(items[i])] == val(items[i])
  {
    forall i | 0 <= i < |items|
      ensures key(items[i]) in FromSeq(items, key, val).vals && FromSeq(items, key, val).vals[key(items[i])] == val(items[i])
    {
      FromSeqLastWins(items, key, val, i);
    }
  }
}

=== FILE: inventory_routes.dfy ===
/** Direct edits of the inventory table: the row bounds of validations/inventory.py and the
    handlers `add_inventory`, `modify_inventory` and `delete_inventory_by_store` of
    routes/store/routes_inventory.py. */
module InventoryRoutes {
  import opened Wrappers
  import opened Stock

  /** `InventoryRequest`: one (store, product) key with its row values. */
  datatype InventoryRequest = InventoryRequest(store: StoreId, product: ProductId, quantity: int, maxDiscount: real)

  /** `InventoryUpdateRequest`: a product and the fields to overwrite. */
  datatype InventoryUpdate = InventoryUpdate(product: ProductId, quantity: Option<int>, maxDiscount: Option<real>)

  const DefaultQuantity: int := 0
  const DefaultMaxDiscount: real := 0.0

  predicate ValidQuantity(q: int) { q >= 0 }

  predicate ValidMaxDiscount(d: real) { 0.0 <= d <= 1.0 }

  predicate ValidInventoryRequest(req: InventoryRequest) {
    ValidQuantity(req.quantity) && ValidMaxDiscount(req.maxDiscount)
  }

  /** Absent fields are not checked; present ones obey the row bounds. */
  predicate ValidInventoryUpdate(u: InventoryUpdate) {
    (u.quantity.Some? ==> ValidQuantity(u.quantity.value)) && (u.maxDiscount.Some? ==> ValidMaxDiscount(u.maxDiscount.value))
  }

  /** Every row within the request bounds. */
  ghost predicate ValidRows(inv: Inventory) {
    forall k :: k in inv ==> ValidQuantity(inv[k].quantity) && ValidMaxDiscount(inv[k].maxDiscount)
  }

  /** The request built from only a store and a product: both row fields take their defaults. */
  function DefaultRequest(store: StoreId, product: ProductId): (req: InventoryRequest)
    ensures ValidInventoryRequest(req)
    ensures req.quantity == 0 && req.maxDiscount == 0.0
  {
    InventoryRequest(store, product, DefaultQuantity, DefaultMaxDiscount)
  }

  /** `add_inventory`: inserts the one row the request addresses. */
  function AddInventory(inv: Inventory, req: InventoryRequest): (r: Result<Inventory>)
    ensures r.Ok? <==> ValidInventoryRequest(req) && (req.store, req.product) !in inv
    ensures r.Err? ==> r.error == Rejected
    ensures r.Ok? ==> r.value.Keys == inv.Keys + {(req.store, req.product)}
    ensures r.Ok? ==> r.value[(req.store, req.product)] == Row(req.quantity, req.maxDiscount)
    ensures r.Ok? ==> forall k :: k in inv ==> r.value[k] == inv[k]
  {
    if !ValidInventoryRequest(req) || (req.store, req.product) in inv then Err(Rejected)
    else Ok(inv[(req.store, req.product) := Row(req.quantity, req.maxDiscount)])
  }

  /** One update on a row: each supplied field is overwritten. */
  function UpdateRow(row: Row, u: InventoryUpdate): (r: Row)
    ensures r.quantity == if u.quantity.Some? then u.quantity.value else row.quantity
    ensures r.maxDiscount == if u.maxDiscount.Some? then u.maxDiscount.value else row.maxDiscount
  {
    var row1 := if u.quantity.Some? then row.(quantity := u.quantity.value) else row;
    if u.maxDiscount.Some? then row1.(maxDiscount := u.maxDiscount.value) else row1
  }

  /** The quantity `p` ends with after `us`: the last supplied one, else `q`. */
  predicate LastQuantityIs(us: seq<InventoryUpdate>, p: ProductId, q: int, result: int) {
    && (forall i :: 0 <= i < |us| && us[i].product == p && us[i].quantity.Some? &&
                     (forall j :: i < j < |us| && us[j].product == p ==> us[j].quantity.None?)
                 ==> result == us[i].quantity.value)
    && ((forall i :: 0 <= i < |us| && us[i].product == p ==> us[i].quantity.None?) ==> result == q)
  }

  /** The discount `p` ends with after `us`: the last supplied one, else `d`. */
  predicate LastDiscountIs(us: seq<InventoryUpdate>, p: ProductId, d: real, result: real) {
    && (forall i :: 0 <= i < |us| && us[i].product == p && us[i].maxDiscount.Some? &&
                     (forall j :: i < j < |us| && us[j].product == p ==> us[j].maxDiscount.None?)
                 ==> result == us[i].maxDiscount.value)
    && ((forall i :: 0 <= i < |us| && us[i].product == p ==> us[i].maxDiscount.None?) ==> result == d)
  }

  /** The update loop of `modify_inventory`: updates apply in order against the store's
      rows, so a later update of the same product overwrites an earlier one; a product
      without a row in the store fails the whole request. */
  function ApplyUpdates(inv: Inventory, store: StoreId, us: seq<InventoryUpdate>): (r: Result<Inventory>)
    ensures r.Ok? <==> forall i :: 0 <= i < |us| ==> (store, us[i].product) in inv
    ensures r.Err? ==> r.error == NotFound
    ensures r.Ok? ==> r.value.Keys == inv.Keys
    ensures r.Ok? ==> forall k :: k in inv && k.0 != store ==> r.value[k] == inv[k]
    ensures r.Ok? ==> forall k :: k in inv && k.0 == store ==> r.value[k] == FinalRow(us, k.1, inv[k])
    decreases |us|
  {
    if |us| == 0 then Ok(inv)
    else
      var n := |us| - 1;
      var prev := ApplyUpdates(inv, store, us[..n]);
      var u := us[n];
      var k := (store, u.product);
      if prev.Err? then
        assert exists i :: 0 <= i < n && (store, us[..n][i].product) !in inv;
        Err(NotFound)
      else if k !in inv then Err(NotFound)
      else
        var cur := prev.value;
        Ok(cur[k := UpdateRow(cur[k], u)])
  }

  /** A row after the updates naming its product, applied in order. */
  function FinalRow(us: seq<InventoryUpdate>, p: ProductId, row: Row): Row
    decreases |us|
  {
    if |us| == 0 then row
    else
      var n := |us| - 1;
      var prev := FinalRow(us[..n], p, row);
      if us[n].product == p then UpdateRow(prev, us[n]) else prev
  }

  /** FinalRow read field by field: the value the last update supplying it gave, or the
      row's own value when none did. */
  lemma {:induction false} FinalRowIsLast(us: seq<InventoryUpdate>, p: ProductId, row: Row)
    ensures LastQuantityIs(us, p, row.quantity, FinalRow(us, p, row).quantity)
    ensures LastDiscountIs(us, p, row.maxDiscount, FinalRow(us, p, row).maxDiscount)
    decreases |us|
  {
    if |us| > 0 {
      var n := |us| - 1;
      FinalRowIsLast(us[..n], p, row);
      RowExtend(us, p, row, FinalRow(us[..n], p, row), FinalRow(us, p, row));
    }
  }

  /** One more update keeps the "last supplied value" reading. */
  lemma RowExtend(us: seq<InventoryUpdate>, p: ProductId, row0: Row, cur: Row, next: Row)
    requires |us| > 0
    requires LastQuantityIs(us[..|us| - 1], p, row0.quantity, cur.quantity)
    requires LastDiscountIs(us[..|us| - 1], p, row0.maxDiscount, cur.maxDiscount)
    requires next == if us[|us| - 1].product == p then UpdateRow(cur, us[|us| - 1]) else cur
    ensures LastQuantityIs(us, p, row0.quantity, next.quantity)
    ensures LastDiscountIs(us, p, row0.maxDiscount, next.maxDiscount)
  {
    QuantityExtend(us, p, row0.quantity, cur.quantity, next.quantity);
    DiscountExtend(us, p, row0.maxDiscount, cur.maxDiscount, next.maxDiscount);
  }

  /** The quantity reading after one more update: that update's quantity when it supplies
      one for `p`, else the reading before it. */
  lemma QuantityExtend(us: seq<InventoryUpdate>, p: ProductId, q0: int, cur: int, next: int)
    requires |us| > 0
    requires LastQuantityIs(us[..|us| - 1], p, q0, cur)
    requires next == if us[|us| - 1].product == p && us[|us| - 1].quantity.Some? then us[|us| - 1].quantity.value else cur
    ensures LastQuantityIs(us, p, q0, next)
  {
    var n := |us| - 1;
    var pre := us[..n];
    if !(us[n].product == p && us[n].quantity.Some?) {
      forall i | 0 <= i < |us| && us[i].product == p && us[i].quantity.Some? &&
                 (forall j :: i < j < |us| && us[j].product == p ==> us[j].quantity.None?)
        ensures next == us[i].quantity.value
      {
        assert i < n && pre[i] == us[i];
        forall j | i < j < n && pre[j].product == p ensures pre[j].quantity.None? {
          assert pre[j] == us[j];
        }
      }
      if forall i :: 0 <= i < |us| && us[i].product == p ==> us[i].quantity.None? {
        forall i | 0 <= i < n && pre[i].product == p ensures pre[i].quantity.None? {
          assert pre[i] == us[i];
        }
      }
    }
  }

  /** The discount reading after one more update: that update's discount when it supplies
      one for `p`, else the reading before it. */
  lemma DiscountExtend(us: seq<InventoryUpdate>, p: ProductId, d0: real, cur: real, next: real)
    requires |us| > 0
    requires LastDiscountIs(us[..|us| - 1], p, d0, cur)
    requires next == if us[|us| - 1].product == p && us[|us| - 1].maxDiscount.Some? then us[|us| - 1].maxDiscount.value else cur
    ensures LastDiscountIs(us, p, d0, next)
  {
    var n := |us| - 1;
    var pre := us[..n];
    if !(us[n].product == p && us[n].maxDiscount.Some?) {
      forall i | 0 <= i < |us| && us[i].product == p && us[i].maxDiscount.Some? &&
                 (forall j :: i < j < |us| && us[j].product == p ==> us[j].maxDiscount.None?)
        ensures next == us[i].maxDiscount.value
      {
        assert i < n && pre[i] == us[i];
        forall j | i < j < n && pre[j].product == p ensures pre[j].maxDiscount.None? {
          assert pre[j] == us[j];
        }
      }
      if forall i :: 0 <= i < |us| && us[i].product == p ==> us[i].maxDiscount.None? {
        forall i | 0 <= i < n && pre[i].product == p ensures pre[i].maxDiscount.None? {
          assert pre[i] == us[i];
        }
      }
    }
  }

  /** `modify_inventory`: a store without rows fails first; otherwise the updates apply in
      order. */
  function ModifyInventory(inv: Inventory, store: StoreId, us: seq<InventoryUpdate>): (r: Result<Inventory>)
    ensures (exists i :: 0 <= i < |us| && !ValidInventoryUpdate(us[i])) ==> r == Err(Rejected)
    ensures (forall i :: 0 <= i < |us| ==> ValidInventoryUpdate(us[i])) ==>
              (r.Ok? <==> HasRows(inv, store) && forall i :: 0 <= i < |us| ==> (store, us[i].product) in inv)
    ensures r.Err? ==> r.error == Rejected || r.error == NotFound
    ensures r.Ok? ==> r.value == ApplyUpdates(inv, store, us).value
  {
    if exists i :: 0 <= i < |us| && !ValidInventoryUpdate(us[i]) then Err(Rejected)
    else if !HasRows(inv, store) then Err(NotFound)
    else ApplyUpdates(inv, store, us)
  }

  /** The keys `delete_inventory_by_store` removes. */
  ghost function Listed(store: StoreId, ids: seq<ProductId>): set<Key> {
    set i | 0 <= i < |ids| :: (store, ids[i])
  }

  /** The delete loop: each id is looked up among the store's rows as they were before the
      loop (so an id listed twice is found twice), and its row is removed. */
  function DeleteListed(inv: Inventory, running: Inventory, store: StoreId, ids: seq<ProductId>): (r: Result<Inventory>)
    requires running.Keys <= inv.Keys
    requires forall k :: k in running ==> running[k] == inv[k]
    ensures r.Ok? <==> forall i :: 0 <= i < |ids| ==> (store, ids[i]) in inv
    ensures r.Err? ==> r.error == NotFound
    ensures r.Ok? ==> r.value.Keys == running.Keys - Listed(store, ids)
    ensures r.Ok? ==> forall k :: k in r.value ==> r.value[k] == inv[k]
    decreases |ids|
  {
    if |ids| == 0 then Ok(running)
    else if (store, ids[0]) !in inv then Err(NotFound)
    else
      var rest := DeleteListed(inv, running - {(store, ids[0])}, store, ids[1..]);
      assert Listed(store, ids) == {(store, ids[0])} + Listed(store, ids[1..]) by {
        forall k | k in Listed(store, ids) ensures k in {(store, ids[0])} + Listed(store, ids[1..]) {
          var i :| 0 <= i < |ids| && k == (store, ids[i]);
          if i > 0 { assert ids[1..][i - 1] == ids[i]; }
        }
        forall k | k in Listed(store, ids[1..]) ensures k in Listed(store, ids) {
          var i :| 0 <= i < |ids[1..]| && k == (store, ids[1..][i]);
          assert ids[i + 1] == ids[1..][i];
        }
      }
      rest
  }

  /** `delete_inventory_by_store`: a store without rows fails first; otherwise exactly the
      listed rows go, or nothing does when one of them is missing. */
  function DeleteInventoryByStore(inv: Inventory, store: StoreId, ids: seq<ProductId>): (r: Result<Inventory>)
    ensures r.Ok? <==> HasRows(inv, store) && forall i :: 0 <= i < |ids| ==> (store, ids[i]) in inv
    ensures r.Err? ==> r.error == NotFound
    ensures r.Ok? ==> r.value.Keys == inv.Keys - Listed(store, ids)
    ensures r.Ok? ==> forall k :: k in r.value ==> r.value[k] == inv[k]
  {
    if !HasRows(inv, store) then Err(NotFound)
    else DeleteListed(inv, inv, store, ids)
  }

  // ---------------------------------------------------------------- properties

  /** Valid updates keep every row within the request bounds. */
  lemma ModifyKeepsValidRows(inv: Inventory, store: StoreId, us: seq<InventoryUpdate>)
    requires ValidRows(inv)
    requires ModifyInventory(inv, store, us).Ok?
    ensures ValidRows(ModifyInventory(inv, store, us).value)
  {
    var r := ModifyInventory(inv, store, us).value;
    forall k | k in r ensures ValidQuantity(r[k].quantity) && ValidMaxDiscount(r[k].maxDiscount) {
      if k.0 == store {
        FinalRowIsLast(us, k.1, inv[k]);
        LastValueValid(inv, store, us, r, k);
      }
    }
  }

  lemma LastValueValid(inv: Inventory, store: StoreId, us: seq<InventoryUpdate>, r: Inventory, k: Key)
    requires ValidRows(inv) && k in inv && k.0 == store && k in r
    requires forall i :: 0 <= i < |us| ==> ValidInventoryUpdate(us[i])
    requires LastQuantityIs(us, k.1, inv[k].quantity, r[k].quantity)
    requires LastDiscountIs(us, k.1, inv[k].maxDiscount, r[k].maxDiscount)
    ensures ValidQuantity(r[k].quantity) && ValidMaxDiscount(r[k].maxDiscount)
  {
    LastQuantityValid(us, k.1, inv[k].quantity, r[k].quantity);
    LastDiscountValid(us, k.1, inv[k].maxDiscount, r[k].maxDiscount);
  }

  /** A quantity that is the old valid one or a supplied valid one is valid. */
  lemma LastQuantityValid(us: seq<InventoryUpdate>, p: ProductId, q: int, result: int)
    requires ValidQuantity(q)
    requires forall i :: 0 <= i < |us| ==> ValidInventoryUpdate(us[i])
    requires LastQuantityIs(us, p, q, result)
    ensures ValidQuantity(result)
  {
    if exists i :: 0 <= i < |us| && us[i].product == p && us[i].quantity.Some? {
      var i :| 0 <= i < |us| && us[i].product == p && us[i].quantity.Some?;
      var last := LastSetQuantity(us, p, i);
      assert result == us[last].quantity.value;
      assert ValidInventoryUpdate(us[last]);
    }
  }

  /** A discount that is the old valid one or a supplied valid one is valid. */
  lemma LastDiscountValid(us: seq<InventoryUpdate>, p: ProductId, d: real, result: real)
    requires ValidMaxDiscount(d)
    requires forall i :: 0 <= i < |us| ==> ValidInventoryUpdate(us[i])
    requires LastDiscountIs(us, p, d, result)
    ensures ValidMaxDiscount(result)
  {
    if exists i :: 0 <= i < |us| && us[i].product == p && us[i].maxDiscount.Some? {
      var i :| 0 <= i < |us| && us[i].product == p && us[i].maxDiscount.Some?;
      var last := LastSetDiscount(us, p, i);
      assert result == us[last].maxDiscount.value;
      assert ValidInventoryUpdate(us[last]);
    }
  }

  /** The last update, at or after `i`, that supplies a quantity for `p`. */
  function LastSetQuantity(us: seq<InventoryUpdate>, p: ProductId, i: int): (j: int)
    requires 0 <= i < |us| && us[i].product == p && us[i].quantity.Some?
    ensures i <= j < |us| && us[j].product == p && us[j].quantity.Some?
    ensures forall m :: j < m < |us| && us[m].product == p ==> us[m].quantity.None?
    decreases |us| - i
  {
    if exists m :: i < m < |us| && us[m].product == p && us[m].quantity.Some? then
      var m :| i < m < |us| && us[m].product == p && us[m].quantity.Some?;
      LastSetQuantity(us, p, m)
    else i
  }

  /** The last update, at or after `i`, that supplies a discount for `p`. */
  function LastSetDiscount(us: seq<InventoryUpdate>, p: ProductId, i: int): (j: int)
    requires 0 <= i < |us| && us[i].product == p && us[i].maxDiscount.Some?
    ensures i <= j < |us| && us[j].product == p && us[j].maxDiscount.Some?
    ensures forall m :: j < m < |us| && us[m].product == p ==> us[m].maxDiscount.None?
    decreases |us| - i
  {
    if exists m :: i < m < |us| && us[m].product == p && us[m].maxDiscount.Some? then
      var m :| i < m < |us| && us[m].product == p && us[m].maxDiscount.Some?;
      LastSetDiscount(us, p, m)
    else i
  }

  /** Applying the same updates a second time changes nothing more. */
  lemma ModifyIdempotent(inv: Inventory, store: StoreId, us: seq<InventoryUpdate>)
    requires ModifyInventory(inv, store, us).Ok?
    ensures ModifyInventory(ModifyInventory(inv, store, us).value, store, us) == ModifyInventory(inv, store, us)
  {
    var r1 := ApplyUpdates(inv, store, us).value;
    assert HasRows(r1, store) by {
      var k :| k in inv && k.0 == store;
      assert k in r1;
    }
    ApplyIdempotent(inv, store, us);
  }

  lemma ApplyIdempotent(inv: Inventory, store: StoreId, us: seq<InventoryUpdate>)
    requires ApplyUpdates(inv, store, us).Ok?
    ensures ApplyUpdates(ApplyUpdates(inv, store, us).value, store, us) == ApplyUpdates(inv, store, us)
  {
    var r1 := ApplyUpdates(inv, store, us).value;
    assert ApplyUpdates(r1, store, us).Ok?;
    var r2 := ApplyUpdates(r1, store, us).value;
    forall k | k in r1 ensures r2[k] == r1[k] {
      assert k in inv;
      if k.0 == store {
        FinalRowIdempotent(us, k.1, inv[k]);
      }
    }
    assert r2 == r1;
  }

  /** Replaying the updates of one row changes nothing more. */
  lemma FinalRowIdempotent(us: seq<InventoryUpdate>, p: ProductId, row: Row)
    ensures FinalRow(us, p, FinalRow(us, p, row)) == FinalRow(us, p, row)
  {
    var row1 := FinalRow(us, p, row);
    FinalRowIsLast(us, p, row);
    FinalRowIsLast(us, p, row1);
    SameLastValue(us, p, row, row1, FinalRow(us, p, row1));
  }

  lemma SameLastValue(us: seq<InventoryUpdate>, p: ProductId, row0: Row, row1: Row, row2: Row)
    requires LastQuantityIs(us, p, row0.quantity, row1.quantity) && LastDiscountIs(us, p, row0.maxDiscount, row1.maxDiscount)
    requires LastQuantityIs(us, p, row1.quantity, row2.quantity) && LastDiscountIs(us, p, row1.maxDiscount, row2.maxDiscount)
    ensures row2 == row1
  {
    SameLastQuantity(us, p, row0.quantity, row1.quantity, row2.quantity);
    SameLastDiscount(us, p, row0.maxDiscount, row1.maxDiscount, row2.maxDiscount);
  }

  /** Reading the last supplied quantity twice gives the same value. */
  lemma SameLastQuantity(us: seq<InventoryUpdate>, p: ProductId, q0: int, q1: int, q2: int)
    requires LastQuantityIs(us, p, q0, q1) && LastQuantityIs(us, p, q1, q2)
    ensures q2 == q1
  {
    if exists i :: 0 <= i < |us| && us[i].product == p && us[i].quantity.Some? {
      var i :| 0 <= i < |us| && us[i].product == p && us[i].quantity.Some?;
      var last := LastSetQuantity(us, p, i);
      assert q1 == us[last].quantity.value && q2 == us[last].quantity.value;
    }
  }

  /** Reading the last supplied discount twice gives the same value. */
  lemma SameLastDiscount(us: seq<InventoryUpdate>, p: ProductId, d0: real, d1: real, d2: real)
    requires LastDiscountIs(us, p, d0, d1) && LastDiscountIs(us, p, d1, d2)
    ensures d2 == d1
  {
    if exists i :: 0 <= i < |us| && us[i].product == p && us[i].maxDiscount.Some? {
      var i :| 0 <= i < |us| && us[i].product == p && us[i].maxDiscount.Some?;
      var last := LastSetDiscount(us, p, i);
      assert d1 == us[last].maxDiscount.value && d2 == us[last].maxDiscount.value;
    }
  }

  /** Deleting rows and adding one of them back with its old values restores that row. */
  lemma DeleteThenAddBack(inv: Inventory, store: StoreId, p: ProductId)
    requires (store, p) in inv && ValidRows(inv)
    ensures DeleteInventoryByStore(inv, store, [p]).Ok?
    ensures var mid := DeleteInventoryByStore(inv, store, [p]).value;
            AddInventory(mid, InventoryRequest(store, p, inv[(store, p)].quantity, inv[(store, p)].maxDiscount)) == Ok(inv)
  {
    assert HasRows(inv, store);
    var mid := DeleteInventoryByStore(inv, store, [p]).value;
    assert Listed(store, [p]) == {(store, p)};
    assert mid.Keys == inv.Keys - {(store, p)};
    var back := AddInventory(mid, InventoryRequest(store, p, inv[(store, p)].quantity, inv[(store, p)].maxDiscount)).value;
    assert back.Keys == inv.Keys;
    forall k | k in inv ensures back[k] == inv[k] {
      if k != (store, p) { assert k in mid; }
    }
    assert back == inv;
  }
}

=== FILE: legacy_order.dfy ===
/** The in-memory order model of schema/order.py and its `calculate_total`. */
module LegacyOrder {
  import opened Wrappers
  import opened Stock
  import opened Catalog
  import Dicts

  datatype LegacyStatus = Done | Pending | Refunded | Canceled
  datatype LegacyMode = Online | Offline

  /** `cart` maps product ids to quantities; `discount` and `tax` are rates. */
  datatype Order = Order(id: nat, cart: Dicts.Dict<ProductId, int>, totalPrice: real, discount: real, tax: real,
                         status: LegacyStatus, mode: LegacyMode)

  /** Field bounds: total_price >= 0, discount and tax in [0, 1]. */
  predicate ValidOrder(o: Order) {
    o.totalPrice >= 0.0 && 0.0 <= o.discount <= 1.0 && 0.0 <= o.tax <= 1.0
  }

  /** Sum of discounted price x quantity over the cart's keys, in dict order. */
  function Subtotal(keys: seq<ProductId>, cart: map<ProductId, int>, catalog: map<ProductId, Product>): real
    requires forall i :: 0 <= i < |keys| ==> keys[i] in cart && keys[i] in catalog
    decreases |keys|
  {
    if |keys| == 0 then 0.0
    else DiscountedPrice(catalog[keys[0]]) * (cart[keys[0]] as real) + Subtotal(keys[1..], cart, catalog)
  }

  /** `Order.calculate_total(catalog)` as written.  A product missing from the catalog
      raises KeyError; a zero discount leaves `discount_amount` unbound, so the method fails
      then too. */
  function CalculateTotalAsWritten(o: Order, catalog: map<ProductId, Product>): (r: Result<Order>)
    requires o.cart.Valid()
    ensures r.Ok? <==> (forall p :: p in o.cart.vals ==> p in catalog) && o.discount != 0.0
    ensures r.Err? ==> r.error == Fault
    ensures r.Ok? ==> r == CalculateTotal(o, catalog)
  {
    if exists p :: p in o.cart.vals && p !in catalog then Err(Fault)
    else if o.discount == 0.0 then Err(Fault)
    else CalculateTotal(o, catalog)
  }

  /** The evident intent: a zero discount takes nothing off.  Only `total_price` changes:
      the subtotal, less the discount, plus tax on what remains. */
  function CalculateTotal(o: Order, catalog: map<ProductId, Product>): (r: Result<Order>)
    requires o.cart.Valid()
    ensures r.Ok? <==> forall p :: p in o.cart.vals ==> p in catalog
    ensures r.Err? ==> r.error == Fault
    ensures r.Ok? ==> (forall i :: 0 <= i < |o.cart.keys| ==> o.cart.keys[i] in o.cart.vals && o.cart.keys[i] in catalog)
                      && var s := Subtotal(o.cart.keys, o.cart.vals, catalog);
                         r.value == o.(totalPrice := (s - s * o.discount) * (1.0 + o.tax))
  {
    if exists p :: p in o.cart.vals && p !in catalog then Err(Fault)
    else
      assert forall i :: 0 <= i < |o.cart.keys| ==> o.cart.keys[i] in o.cart.vals;
      var subtotal := Subtotal(o.cart.keys, o.cart.vals, catalog);
      var discountAmount := if o.discount != 0.0 then subtotal * o.discount else 0.0;
      var taxAmount := (subtotal - discountAmount) * o.tax;
      Ok(o.(totalPrice := subtotal - discountAmount + taxAmount))
  }

  /** An order without a discount fails as written, while the intended total is the
      subtotal plus tax. */
  lemma ZeroDiscountFails(o: Order, catalog: map<ProductId, Product>)
    requires o.cart.Valid()
    requires o.discount == 0.0
    requires forall p :: p in o.cart.vals ==> p in catalog
    ensures CalculateTotalAsWritten(o, catalog) == Err(Fault)
    ensures CalculateTotal(o, catalog).Ok?
    ensures CalculateTotal(o, catalog).value.totalPrice == Subtotal(o.cart.keys, o.cart.vals, catalog) * (1.0 + o.tax)
  {
  }

  lemma {:induction false} SubtotalNonNegative(keys: seq<ProductId>, cart: map<ProductId, int>, catalog: map<ProductId, Product>)
    requires forall i :: 0 <= i < |keys| ==> keys[i] in cart && keys[i] in catalog
    requires forall p :: p in cart ==> cart[p] >= 0
    ensures Subtotal(keys, cart, catalog) >= 0.0
    decreases |keys|
  {
    if |keys| > 0 {
      SubtotalNonNegative(keys[1..], cart, catalog);
      assert DiscountedPrice(catalog[keys[0]]) * (cart[keys[0]] as real) >= 0.0;
    }
  }

  /** With non-negative quantities and discount and tax rates in [0, 1], the total is never negative. */
  lemma TotalNonNegative(o: Order, catalog: map<ProductId, Product>)
    requires o.cart.Valid()
    requires ValidOrder(o)
    requires forall p :: p in o.cart.vals ==> o.cart.vals[p] >= 0
    requires CalculateTotal(o, catalog).Ok?
    ensures CalculateTotal(o, catalog).value.totalPrice >= 0.0
  {
    SubtotalNonNegative(o.cart.keys, o.cart.vals, catalog);
    var s := Subtotal(o.cart.keys, o.cart.vals, catalog);
    assert s - s * o.discount == s * (1.0 - o.discount);
    assert s * (1.0 - o.discount) >= 0.0;
    assert (s - s * o.discount) * (1.0 + o.tax) >= 0.0;
  }
}

=== FILE: legacy_refund.dfy ===
/** The standalone refund record of schema/operations.py: a 15-day eligibility window
    measured from the application date, and the approval step built on it. */
module LegacyRefund {
  import opened Clock

  datatype LegacyRefundStatus = Pending | Approved | Rejected

  datatype LegacyRefund = LegacyRefund(
    id: int, order: string, products: map<string, int>, applicationDate: Time,
    refundDate: Time, amount: real, status: LegacyRefundStatus)

  const Window: int := 15 * Day

  /** `is_refundable`: at most 15 days have passed since the application, read against `now`. */
  predicate IsRefundable(r: LegacyRefund, now: Time) {
    now - r.applicationDate <= Window
  }

  /** `handle_refund`: Approved inside the window, Rejected outside it; nothing else changes. */
  function HandleRefund(r: LegacyRefund, now: Time): (s: LegacyRefund)
    ensures s.status == Approved <==> now <= r.applicationDate + Window
    ensures s.status == Rejected <==> now > r.applicationDate + Window
    ensures s == r.(status := s.status)
  {
    r.(status := if IsRefundable(r, now) then Approved else Rejected)
  }

  /** Handling never leaves a refund Pending, and handling twice at the same moment is the
      same as handling once. */
  lemma HandleRefundSettles(r: LegacyRefund, now: Time)
    ensures HandleRefund(r, now).status != Pending
    ensures HandleRefund(HandleRefund(r, now), now) == HandleRefund(r, now)
  {
  }

  /** Eligibility only lapses: refundable at a later moment means refundable at every
      earlier one, and once rejected a later handling rejects again. */
  lemma RefundabilityLapses(r: LegacyRefund, earlier: Time, later: Time)
    requires earlier <= later
    ensures IsRefundable(r, later) ==> IsRefundable(r, earlier)
    ensures HandleRefund(r, earlier).status == Rejected ==> HandleRefund(r, later).status == Rejected
  {
  }
}

=== FILE: legacy_store.dfy ===
/** The in-memory store of validations/store.py: a product → quantity map whose entries
    are removed when they reach zero, and a running revenue. */
module LegacyStore {
  import opened Wrappers
  import opened Stock
  import opened Catalog

  datatype Store = Store(inventory: map<ProductId, int>, revenue: real)

  /** Every stored quantity is at least 1: products that sell out leave the map. */
  ghost predicate StoredPositive(s: Store) {
    forall p :: p in s.inventory ==> s.inventory[p] >= 1
  }

  /** `add_product`: a quantity below 1 is refused; otherwise the product's entry grows by
      it, or is created with it. */
  function AddProduct(s: Store, product: Product, quantity: int): (r: Result<Store>)
    ensures r.Ok? <==> quantity >= 1
    ensures r.Err? ==> r.error == Rejected
    ensures r.Ok? ==> r.value.inventory.Keys == s.inventory.Keys + {product.id}
    ensures r.Ok? ==> r.value.inventory[product.id] == quantity + (if product.id in s.inventory then s.inventory[product.id] else 0)
    ensures r.Ok? ==> forall p :: p in s.inventory && p != product.id ==> r.value.inventory[p] == s.inventory[p]
    ensures r.Ok? ==> r.value.revenue == s.revenue
  {
    if quantity < 1 then Err(Rejected)
    else if product.id in s.inventory then Ok(s.(inventory := s.inventory[product.id := s.inventory[product.id] + quantity]))
    else Ok(s.(inventory := s.inventory[product.id := quantity]))
  }

  /** `sell_product`: refused when the product is absent or short; otherwise its entry
      drops by the quantity and disappears at zero, and the revenue grows by the
      discounted price times the quantity. */
  function SellProduct(s: Store, product: Product, quantity: int): (r: Result<Store>)
    ensures r.Ok? <==> product.id in s.inventory && s.inventory[product.id] >= quantity
    ensures r.Err? ==> r.error == Rejected
    ensures r.Ok? ==> (product.id in r.value.inventory <==> s.inventory[product.id] != quantity)
    ensures r.Ok? && product.id in r.value.inventory ==> r.value.inventory[product.id] == s.inventory[product.id] - quantity
    ensures r.Ok? ==> r.value.inventory.Keys <= s.inventory.Keys
    ensures r.Ok? ==> forall p :: p in s.inventory && p != product.id ==> p in r.value.inventory && r.value.inventory[p] == s.inventory[p]
    ensures r.Ok? ==> r.value.revenue - s.revenue == DiscountedPrice(product) * quantity as real
  {
    var id := product.id;
    if id !in s.inventory || s.inventory[id] < quantity then Err(Rejected)
    else
      var left := s.inventory[id] - quantity;
      var inv := if left == 0 then s.inventory - {id} else s.inventory[id := left];
      Ok(Store(inv, s.revenue + DiscountedPrice(product) * quantity as real))
  }

  /** `remove_product`: deletes the entry when there is one; otherwise nothing changes. */
  function RemoveProduct(s: Store, product: Product): (r: Store)
    ensures product.id !in r.inventory
    ensures r.inventory.Keys == s.inventory.Keys - {product.id}
    ensures forall p :: p in r.inventory ==> r.inventory[p] == s.inventory[p]
    ensures product.id !in s.inventory ==> r == s
    ensures r.revenue == s.revenue
  {
    if product.id in s.inventory then s.(inventory := s.inventory - {product.id}) else s
  }

  // ---------------------------------------------------------------- properties

  /** Every operation keeps the stored quantities at 1 or more. */
  lemma OperationsKeepStoredPositive(s: Store, product: Product, quantity: int)
    requires StoredPositive(s)
    ensures AddProduct(s, product, quantity).Ok? ==> StoredPositive(AddProduct(s, product, quantity).value)
    ensures SellProduct(s, product, quantity).Ok? ==> StoredPositive(SellProduct(s, product, quantity).value)
    ensures StoredPositive(RemoveProduct(s, product))
  {
  }

  /** Adding a quantity and selling it again gives the old stock back; the revenue rises by
      the sale. */
  lemma AddThenSellRestores(s: Store, product: Product, quantity: int)
    requires StoredPositive(s)
    requires quantity >= 1
    ensures SellProduct(AddProduct(s, product, quantity).value, product, quantity).Ok?
    ensures SellProduct(AddProduct(s, product, quantity).value, product, quantity).value
            == s.(revenue := s.revenue + DiscountedPrice(product) * quantity as real)
  {
    var mid := AddProduct(s, product, quantity).value;
    var after := SellProduct(mid, product, quantity).value;
    assert after.inventory.Keys == s.inventory.Keys;
    assert after.inventory == s.inventory;
  }

  /** With a valid product and a positive quantity a sale never lowers the revenue. */
  lemma SaleRaisesRevenue(s: Store, product: Product, quantity: int)
    requires ValidProduct(product) && quantity >= 0
    requires SellProduct(s, product, quantity).Ok?
    ensures SellProduct(s, product, quantity).value.revenue >= s.revenue
  {
    assert DiscountedPrice(product) * quantity as real >= 0.0;
  }
}

=== FILE: orders.dfy ===
/** Orders: the request rules of validations/order.py and the handlers of
    routes/order/routes_order.py.  As written, none of these handlers touches inventory:
    creating an order neither checks nor withdraws stock, and cancelling or deleting an
    order puts nothing back. */
module Orders {
  import opened Wrappers
  import opened Clock
  import opened Stock
  import opened Cart
  import Dicts

  type CustomerId = nat
  type OrderId = nat

  datatype OrderStatus = Pending | Received | Cancelled | ForRefund | Refunded
  datatype OrderMode = Online | Offline

  const DefaultStatus: OrderStatus := Pending
  const DefaultMode: OrderMode := Offline

  /** The body of POST /orders/add.  The amount fields are validated but then ignored. */
  datatype OrderRequest = OrderRequest(
    orderAmount: real, store: StoreId, discountAmount: real, tax: real, status: OrderStatus,
    mode: OrderMode, deliveryAddress: Option<string>, customer: CustomerId, items: seq<CartItem>)

  /** A stored order.  The handler never records the request's store or delivery address. */
  datatype Order = Order(
    customer: CustomerId, amount: real, discountAmount: real, tax: real, status: OrderStatus,
    datePlaced: Time, dateReceived: Option<Time>, mode: OrderMode, items: seq<CartItem>)

  datatype CartItemUpdate = CartItemUpdate(product: ProductId, quantity: Option<int>, discount: Option<real>)

  /** What the order handlers read and write. */
  datatype OrderDb = OrderDb(customers: set<CustomerId>, prices: Prices, inventory: Inventory, orders: map<OrderId, Order>)

  // ---------------------------------------------------------------- request rules

  /** A requested cart line needs quantity > 0; its discount has no bound. */
  predicate ValidCartItem(item: CartItem) {
    item.quantity > 0
  }

  /** A cart edit may set quantity >= 0 and discount >= 0, with no upper bound. */
  predicate ValidCartItemUpdate(u: CartItemUpdate) {
    (u.quantity.Some? ==> u.quantity.value >= 0) && (u.discount.Some? ==> u.discount.value >= 0.0)
  }

  /** Every edit of a cart-edit request is within bounds. */
  predicate ValidCartItemUpdates(updates: seq<CartItemUpdate>) {
    forall i :: 0 <= i < |updates| ==> ValidCartItemUpdate(updates[i])
  }

  predicate ValidOrderFields(req: OrderRequest) {
    && req.orderAmount > 0.0
    && req.discountAmount >= 0.0
    && req.tax >= 0.0
    && forall i :: 0 <= i < |req.items| ==> ValidCartItem(req.items[i])
  }

  /** `OrderRequest.validate_address`: an Online order needs a non-empty delivery address.
      A missing address reaches `len(None)` and fails with a TypeError rather than a ValueError. */
  function ValidateAddress(req: OrderRequest): (r: Result<OrderRequest>)
    ensures r.Ok? <==> req.mode == Offline || Truthy(req.deliveryAddress)
    ensures r.Ok? ==> r.value == req
    ensures req.mode == Online && req.deliveryAddress.None? ==> r == Err(Fault)
    ensures req.mode == Online && req.deliveryAddress == Some("") ==> r == Err(Rejected)
  {
    if req.mode == Offline then Ok(req)
    else if req.deliveryAddress.None? then Err(Fault)
    else if |req.deliveryAddress.value| == 0 then Err(Rejected)
    else Ok(req)
  }

  /** Field bounds first, then the address rule. */
  function ValidateOrderRequest(req: OrderRequest): (r: Result<OrderRequest>)
    ensures r.Ok? <==> ValidOrderFields(req) && (req.mode == Offline || Truthy(req.deliveryAddress))
    ensures r.Ok? ==> r.value == req
  {
    if !ValidOrderFields(req) then Err(Rejected) else ValidateAddress(req)
  }

  /** `OrderUpdateRequest.date_received`: the clock reading exactly when the new status is Received. */
  function ReceivedDate(status: OrderStatus, now: Time): (r: Option<Time>)
    ensures r.Some? <==> status == Received
    ensures r.Some? ==> r.value == now
  {
    if status == Received then Some(now) else None
  }

  // ---------------------------------------------------------------- handlers

  /** `create_order`.  `id` is the fresh uuid of the new order, `now` the clock reading. */
  function CreateOrder(db: OrderDb, req: OrderRequest, id: OrderId, now: Time): (r: Result<OrderDb>)
    requires id !in db.orders
    ensures r.Ok? <==> ValidateOrderRequest(req).Ok? && req.customer in db.customers && Priced(req.items, db.prices)
    ensures ValidateOrderRequest(req).Ok? && req.customer !in db.customers ==> r == Err(NotFound)
    ensures ValidateOrderRequest(req).Ok? && req.customer in db.customers && !Priced(req.items, db.prices) ==> r == Err(NotFound)
    ensures r.Ok? ==> r.value.inventory == db.inventory && r.value.customers == db.customers && r.value.prices == db.prices
    ensures r.Ok? ==> r.value.orders.Keys == db.orders.Keys + {id}
                      && forall o :: o in db.orders ==> r.value.orders[o] == db.orders[o]
    ensures r.Ok? ==> Priced(req.items, db.prices)
    ensures r.Ok? ==> var o := r.value.orders[id];
                      && o.items == req.items
                      && o.amount == Amount(req.items, db.prices)
                      && o.discountAmount == DiscountTotal(req.items, db.prices)
                      && o.tax == (o.amount - o.discountAmount) * DefaultTaxRate
                      && o.customer == req.customer && o.status == req.status && o.mode == req.mode
                      && o.datePlaced == now && o.dateReceived.None?
  {
    var _ :- ValidateOrderRequest(req);
    if req.customer !in db.customers then Err(NotFound)
    else
      var cart :- BuildCart(req.items, db.prices, DefaultTaxRate);
      var order := Order(req.customer, cart.amount, cart.discount, cart.tax, req.status, now, None, req.mode, cart.items);
      Ok(db.(orders := db.orders[id := order]))
  }

  /** `update_order`: any status may follow any status; date_received is overwritten
      with the computed value, which is None unless the new status is Received. */
  function UpdateOrder(db: OrderDb, id: OrderId, status: OrderStatus, now: Time): (r: Result<OrderDb>)
    ensures r.Ok? <==> id in db.orders
    ensures r.Err? ==> r.error == NotFound
    ensures r.Ok? ==> r.value.inventory == db.inventory && r.value.orders.Keys == db.orders.Keys
    ensures r.Ok? ==> r.value.customers == db.customers && r.value.prices == db.prices
    ensures r.Ok? ==> forall o :: o in db.orders && o != id ==> r.value.orders[o] == db.orders[o]
    ensures r.Ok? ==> var o := r.value.orders[id];
                      o == db.orders[id].(status := o.status, dateReceived := o.dateReceived)
    ensures r.Ok? ==> var o := r.value.orders[id];
                      && o.status == status
                      && (o.dateReceived.Some? <==> status == Received)
                      && (o.dateReceived.Some? ==> o.dateReceived.value == now)
                      && o.items == db.orders[id].items && o.amount == db.orders[id].amount
  {
    if id !in db.orders then Err(NotFound)
    else
      var order := db.orders[id].(status := status, dateReceived := ReceivedDate(status, now));
      Ok(db.(orders := db.orders[id := order]))
  }

  /** `delete_order`: removes the order and, by cascade, its cart lines. */
  function DeleteOrder(db: OrderDb, id: OrderId): (r: Result<OrderDb>)
    ensures r.Ok? <==> id in db.orders
    ensures r.Err? ==> r.error == NotFound
    ensures r.Ok? ==> r.value == db.(orders := db.orders - {id})
  {
    if id !in db.orders then Err(NotFound) else Ok(db.(orders := db.orders - {id}))
  }

  /** Every line of the cart dict sits under its own product id. */
  ghost predicate KeyedByProduct(d: Dicts.Dict<ProductId, CartItem>) {
    forall p :: p in d.vals ==> d.vals[p].product == p
  }

  /** Products of a line sequence are pairwise distinct. */
  ghost predicate DistinctProducts(items: seq<CartItem>) {
    forall i, j :: 0 <= i < j < |items| ==> items[i].product != items[j].product
  }

  /** One cart edit on a line that is present: quantity 0 deletes the line, otherwise the
      given fields are overwritten and the line keeps its place. */
  function EditLine(d: Dicts.Dict<ProductId, CartItem>, u: CartItemUpdate): (r: Dicts.Dict<ProductId, CartItem>)
    requires d.Valid() && u.product in d.vals
    ensures r.Valid()
    ensures u.quantity == Some(0) ==> r.vals == d.vals - {u.product}
    ensures u.quantity != Some(0) ==> r.vals.Keys == d.vals.Keys
    ensures forall p :: p in r.vals && p != u.product ==> r.vals[p] == d.vals[p]
    ensures u.quantity != Some(0) ==>
              && r.vals[u.product].product == d.vals[u.product].product
              && r.vals[u.product].quantity == (if u.quantity.Some? then u.quantity.value else d.vals[u.product].quantity)
              && r.vals[u.product].discount == (if u.discount.Some? then u.discount.value else d.vals[u.product].discount)
  {
    if u.quantity == Some(0) then Dicts.Delete(d, u.product)
    else
      var line := d.vals[u.product];
      var line1 := if u.quantity.Some? then line.(quantity := u.quantity.value) else line;
      var line2 := if u.discount.Some? then line1.(discount := u.discount.value) else line1;
      Dicts.Put(d, u.product, line2)
  }

  /** The edits find their lines: each update names a product that was in the cart and
      that no earlier update deleted with a quantity of 0. */
  ghost predicate EditsFindLines(present: set<ProductId>, updates: seq<CartItemUpdate>) {
    forall i :: 0 <= i < |updates| ==>
      && updates[i].product in present
      && forall j :: 0 <= j < i && updates[j].product == updates[i].product ==> updates[j].quantity != Some(0)
  }

  /** The cart-edit loop of `update_cart_items` over the dict {product_id: line}: an update
      naming a product not (or no longer) in the dict aborts with 404. */
  function ApplyCartUpdates(d: Dicts.Dict<ProductId, CartItem>, updates: seq<CartItemUpdate>)
    : (r: Result<Dicts.Dict<ProductId, CartItem>>)
    requires d.Valid()
    ensures r.Ok? <==> EditsFindLines(d.vals.Keys, updates)
    ensures r.Err? ==> r.error == NotFound
    ensures |updates| > 0 && updates[0].product !in d.vals ==> r == Err(NotFound)
    ensures r.Ok? ==> r.value.Valid() && r.value.vals.Keys <= d.vals.Keys
    ensures r.Ok? && KeyedByProduct(d) ==> KeyedByProduct(r.value)
    decreases |updates|
  {
    if |updates| == 0 then Ok(d)
    else if updates[0].product !in d.vals then Err(NotFound)
    else
      assert forall i :: 1 <= i < |updates| ==> updates[1..][i - 1] == updates[i];
      EditsFindLinesStep(d, updates);
      ApplyCartUpdates(EditLine(d, updates[0]), updates[1..])
  }

  /** After a first edit that finds its line, the remaining edits find theirs in the
      edited dict exactly when the whole list finds its lines in the original. */
  lemma EditsFindLinesStep(d: Dicts.Dict<ProductId, CartItem>, updates: seq<CartItemUpdate>)
    requires d.Valid() && |updates| > 0 && updates[0].product in d.vals
    ensures EditsFindLines(d.vals.Keys, updates) <==> EditsFindLines(EditLine(d, updates[0]).vals.Keys, updates[1..])
  {
    var next := EditLine(d, updates[0]).vals.Keys;
    var tail := updates[1..];
    if EditsFindLines(d.vals.Keys, updates) {
      forall i | 0 <= i < |tail|
        ensures tail[i].product in next
        ensures forall j :: 0 <= j < i && tail[j].product == tail[i].product ==> tail[j].quantity != Some(0)
      {
        assert tail[i] == updates[i + 1];
        assert forall j :: 0 <= j < i ==> tail[j] == updates[j + 1];
      }
    }
    if EditsFindLines(next, tail) {
      forall i | 0 <= i < |updates|
        ensures updates[i].product in d.vals.Keys
        ensures forall j :: 0 <= j < i && updates[j].product == updates[i].product ==> updates[j].quantity != Some(0)
      {
        if i > 0 {
          assert updates[i] == tail[i - 1];
          assert forall j :: 1 <= j < i ==> updates[j] == tail[j - 1];
        }
      }
    }
  }

  /** Editing with `a + b` is editing with `a`, then, if that succeeded, with `b`. */
  lemma {:induction false} ApplyCartUpdatesSplit(d: Dicts.Dict<ProductId, CartItem>, a: seq<CartItemUpdate>, b: seq<CartItemUpdate>)
    requires d.Valid()
    ensures ApplyCartUpdates(d, a).Err? ==> ApplyCartUpdates(d, a + b) == ApplyCartUpdates(d, a)
    ensures ApplyCartUpdates(d, a).Ok? ==> ApplyCartUpdates(d, a + b) == ApplyCartUpdates(ApplyCartUpdates(d, a).value, b)
    decreases |a|
  {
    if |a| == 0 {
      assert a + b == b;
    } else {
      assert (a + b)[0] == a[0];
      if a[0].product in d.vals {
        assert (a + b)[1..] == a[1..] + b;
        ApplyCartUpdatesSplit(EditLine(d, a[0]), a[1..], b);
      }
    }
  }

  /** A line that no update names comes through the edits unchanged. */
  lemma {:induction false} UntouchedLineKept(d: Dicts.Dict<ProductId, CartItem>, updates: seq<CartItemUpdate>, p: ProductId)
    requires d.Valid() && p in d.vals
    requires forall i :: 0 <= i < |updates| ==> updates[i].product != p
    requires ApplyCartUpdates(d, updates).Ok?
    ensures p in ApplyCartUpdates(d, updates).value.vals
    ensures ApplyCartUpdates(d, updates).value.vals[p] == d.vals[p]
    decreases |updates|
  {
    if |updates| > 0 {
      var next := EditLine(d, updates[0]);
      assert forall i :: 0 <= i < |updates[1..]| ==> updates[1..][i] == updates[i + 1];
      UntouchedLineKept(next, updates[1..], p);
    }
  }

  /** A single update edits its line, or fails when the product has none. */
  lemma ApplyOneCartUpdate(d: Dicts.Dict<ProductId, CartItem>, u: CartItemUpdate)
    requires d.Valid()
    ensures ApplyCartUpdates(d, [u]) == if u.product in d.vals then Ok(EditLine(d, u)) else Err(NotFound)
  {
    assert [u][0] == u;
    assert [u][1..] == [];
  }

  /** A successful edit succeeds on every prefix, and the rest of the list carries on
      from what the prefix leaves. */
  lemma CartEditPrefix(d: Dicts.Dict<ProductId, CartItem>, updates: seq<CartItemUpdate>, n: int)
    requires d.Valid() && 0 <= n <= |updates|
    requires ApplyCartUpdates(d, updates).Ok?
    ensures ApplyCartUpdates(d, updates[..n]).Ok?
    ensures ApplyCartUpdates(d, updates) == ApplyCartUpdates(ApplyCartUpdates(d, updates[..n]).value, updates[n..])
  {
    var a, b := updates[..n], updates[n..];
    assert a + b == updates;
    ApplyCartUpdatesSplit(d, a, b);
  }

  /** Update `i` of a successful edit finds its line in the dict the earlier updates
      left, and the rest of the list carries on from what it leaves. */
  lemma EditAt(d: Dicts.Dict<ProductId, CartItem>, updates: seq<CartItemUpdate>, i: int)
    requires d.Valid() && 0 <= i < |updates|
    requires ApplyCartUpdates(d, updates).Ok?
    ensures ApplyCartUpdates(d, updates[..i]).Ok?
    ensures updates[i].product in ApplyCartUpdates(d, updates[..i]).value.vals
    ensures ApplyCartUpdates(d, updates[..i + 1]) == Ok(EditLine(ApplyCartUpdates(d, updates[..i]).value, updates[i]))
    ensures ApplyCartUpdates(d, updates) == ApplyCartUpdates(ApplyCartUpdates(d, updates[..i + 1]).value, updates[i + 1..])
  {
    var upto := updates[..i + 1];
    CartEditPrefix(d, updates, i + 1);
    CartEditPrefix(d, upto, i);
    assert upto[..i] == updates[..i] && upto[i..] == [updates[i]];
    ApplyOneCartUpdate(ApplyCartUpdates(d, updates[..i]).value, updates[i]);
  }

  /** The last update naming a product decides its line: deleted after a quantity of 0,
      otherwise present with the fields that update gave, and in any case the line stands
      as it did right after that update. */
  lemma LastCartUpdateWins(d: Dicts.Dict<ProductId, CartItem>, updates: seq<CartItemUpdate>, i: int)
    requires d.Valid() && 0 <= i < |updates|
    requires forall j :: i < j < |updates| ==> updates[j].product != updates[i].product
    requires ApplyCartUpdates(d, updates).Ok?
    ensures var r := ApplyCartUpdates(d, updates).value;
            var u := updates[i];
            && (u.quantity == Some(0) ==> u.product !in r.vals)
            && (u.quantity != Some(0) ==> u.product in r.vals)
            && (u.quantity.Some? && u.quantity.value != 0 ==> r.vals[u.product].quantity == u.quantity.value)
            && (u.quantity != Some(0) && u.discount.Some? ==> r.vals[u.product].discount == u.discount.value)
    ensures ApplyCartUpdates(d, updates[..i + 1]).Ok?
    ensures var mid := ApplyCartUpdates(d, updates[..i + 1]).value;
            var r := ApplyCartUpdates(d, updates).value;
            var p := updates[i].product;
            (p in r.vals <==> p in mid.vals) && (p in r.vals ==> r.vals[p] == mid.vals[p])
  {
    EditAt(d, updates, i);
    var mid := ApplyCartUpdates(d, updates[..i + 1]).value;
    var post := updates[i + 1..];
    var p := updates[i].product;
    if p in mid.vals {
      forall j | 0 <= j < |post| ensures post[j].product != p {
        assert post[j] == updates[i + 1 + j];
      }
      UntouchedLineKept(mid, post, p);
    }
  }

  /** A product keeps a line through the edits exactly when it had one and no update
      gave it a quantity of 0. */
  lemma CartLinePresence(d: Dicts.Dict<ProductId, CartItem>, updates: seq<CartItemUpdate>, p: ProductId)
    requires d.Valid()
    requires ApplyCartUpdates(d, updates).Ok?
    ensures p in ApplyCartUpdates(d, updates).value.vals <==>
              p in d.vals && forall i :: 0 <= i < |updates| && updates[i].product == p ==> updates[i].quantity != Some(0)
  {
    var k := LastEdit(updates, p);
    if k < 0 {
      if p in d.vals {
        UntouchedLineKept(d, updates, p);
      }
    } else {
      LastCartUpdateWins(d, updates, k);
    }
  }

  /** The index of the last update naming `p`, or -1 when none does. */
  function LastEdit(updates: seq<CartItemUpdate>, p: ProductId): (k: int)
    ensures -1 <= k < |updates|
    ensures k >= 0 ==> updates[k].product == p
    ensures k < 0 ==> forall j :: 0 <= j < |updates| ==> updates[j].product != p
    ensures forall j :: k < j < |updates| ==> updates[j].product != p
  {
    if |updates| == 0 then -1
    else if updates[|updates| - 1].product == p then |updates| - 1
    else LastEdit(updates[..|updates| - 1], p)
  }

  /** Reading a product-keyed dict back in key order gives lines with distinct products,
      and a product has a line exactly when it is a key, holding that key's value. */
  lemma LinesOfKeyedDict(d: Dicts.Dict<ProductId, CartItem>)
    requires d.Valid() && KeyedByProduct(d)
    ensures DistinctProducts(Dicts.Values(d))
    ensures forall p :: p !in d.vals ==> forall i :: 0 <= i < |Dicts.Values(d)| ==> Dicts.Values(d)[i].product != p
    ensures forall p :: p in d.vals ==> exists i :: 0 <= i < |Dicts.Values(d)| && Dicts.Values(d)[i] == d.vals[p]
  {
    var vs := Dicts.Values(d);
    assert forall i :: 0 <= i < |vs| ==> vs[i].product == d.keys[i];
    forall p | p in d.vals ensures exists i :: 0 <= i < |vs| && vs[i] == d.vals[p] {
      var j :| 0 <= j < |d.keys| && d.keys[j] == p;
      assert vs[j] == d.vals[p];
    }
  }

  /** The products that have a line. */
  function ProductsOf(items: seq<CartItem>): (s: set<ProductId>)
    ensures forall p :: p in s <==> exists i :: 0 <= i < |items| && items[i].product == p
  {
    set i | 0 <= i < |items| :: items[i].product
  }

  /** The dict-and-edit part of `update_cart_items`: the order's lines keyed by product,
      edited, and read back in dict order. */
  function EditedLines(items: seq<CartItem>, updates: seq<CartItemUpdate>): (r: Result<seq<CartItem>>)
    ensures r.Ok? <==> EditsFindLines(ProductsOf(items), updates)
    ensures r.Err? ==> r.error == NotFound
    ensures |updates| > 0 && (forall i :: 0 <= i < |items| ==> items[i].product != updates[0].product) ==> r.Err?
    ensures r.Ok? ==> DistinctProducts(r.value)
  {
    var lines := CartDict(items);
    var edited :- ApplyCartUpdates(lines, updates);
    LinesOfKeyedDict(edited);
    Ok(Dicts.Values(edited))
  }

  /** `{item.product_id: item for item in order.items}`. */
  function CartDict(items: seq<CartItem>): (d: Dicts.Dict<ProductId, CartItem>)
    ensures d.Valid() && KeyedByProduct(d)
    ensures d.vals.Keys == ProductsOf(items)
    ensures d == Dicts.FromSeq(items, LineProduct, LineItself)
  {
    Dicts.FromSeq(items, LineProduct, LineItself)
  }

  function LineProduct(c: CartItem): ProductId { c.product }

  function LineItself(c: CartItem): CartItem { c }

  /** A successful edit reads back the lines of the edited dict. */
  lemma EditedLinesRead(items: seq<CartItem>, updates: seq<CartItemUpdate>)
    requires EditedLines(items, updates).Ok?
    ensures ApplyCartUpdates(CartDict(items), updates).Ok?
    ensures var edited := ApplyCartUpdates(CartDict(items), updates).value;
            && KeyedByProduct(edited)
            && EditedLines(items, updates).value == Dicts.Values(edited)
  {
  }

  /** After a successful edit a product has a line exactly when the order had one and
      no update set its quantity to 0. */
  lemma EditedLinesPresence(items: seq<CartItem>, updates: seq<CartItemUpdate>)
    requires EditedLines(items, updates).Ok?
    ensures var r := EditedLines(items, updates).value;
            forall p :: p in ProductsOf(r) <==>
              p in ProductsOf(items) && forall i :: 0 <= i < |updates| && updates[i].product == p ==> updates[i].quantity != Some(0)
  {
    EditedLinesRead(items, updates);
    var edited := ApplyCartUpdates(CartDict(items), updates).value;
    LinesOfKeyedDict(edited);
    forall p ensures p in ProductsOf(EditedLines(items, updates).value) <==>
              p in ProductsOf(items) && forall i :: 0 <= i < |updates| && updates[i].product == p ==> updates[i].quantity != Some(0)
    {
      CartLinePresence(CartDict(items), updates, p);
    }
  }

  /** The last update of a product that keeps its line shows in that line: a supplied
      quantity or discount is what the line holds. */
  lemma EditedLinesLastEdit(items: seq<CartItem>, updates: seq<CartItemUpdate>)
    requires EditedLines(items, updates).Ok?
    ensures var r := EditedLines(items, updates).value;
            forall i :: 0 <= i < |updates| && updates[i].quantity != Some(0)
                        && (forall j :: i < j < |updates| ==> updates[j].product != updates[i].product) ==>
              exists k :: 0 <= k < |r| && r[k].product == updates[i].product
                          && (updates[i].quantity.Some? ==> r[k].quantity == updates[i].quantity.value)
                          && (updates[i].discount.Some? ==> r[k].discount == updates[i].discount.value)
  {
    EditedLinesRead(items, updates);
    var edited := ApplyCartUpdates(CartDict(items), updates).value;
    var r := EditedLines(items, updates).value;
    LinesOfKeyedDict(edited);
    forall i | 0 <= i < |updates| && updates[i].quantity != Some(0)
               && (forall j :: i < j < |updates| ==> updates[j].product != updates[i].product)
      ensures exists k :: 0 <= k < |r| && r[k].product == updates[i].product
                          && (updates[i].quantity.Some? ==> r[k].quantity == updates[i].quantity.value)
                          && (updates[i].discount.Some? ==> r[k].discount == updates[i].discount.value)
    {
      LastCartUpdateWins(CartDict(items), updates, i);
    }
  }

  /** A product that no update names keeps the order's last line for it, unchanged. */
  lemma EditedLinesUntouched(items: seq<CartItem>, updates: seq<CartItemUpdate>)
    requires EditedLines(items, updates).Ok?
    ensures var r := EditedLines(items, updates).value;
            forall i :: 0 <= i < |items| && (forall j :: i < j < |items| ==> items[j].product != items[i].product)
                        && (forall j :: 0 <= j < |updates| ==> updates[j].product != items[i].product) ==>
              exists k :: 0 <= k < |r| && r[k] == items[i]
  {
    EditedLinesRead(items, updates);
    var edited := ApplyCartUpdates(CartDict(items), updates).value;
    var r := EditedLines(items, updates).value;
    LinesOfKeyedDict(edited);
    forall i | 0 <= i < |items| && (forall j :: i < j < |items| ==> items[j].product != items[i].product)
               && (forall j :: 0 <= j < |updates| ==> updates[j].product != items[i].product)
      ensures exists k :: 0 <= k < |r| && r[k] == items[i]
    {
      Dicts.FromSeqLastWins(items, LineProduct, LineItself, i);
      UntouchedLineKept(CartDict(items), updates, items[i].product);
    }
  }

  /** `update_cart_items`: edit lines already in the order (quantity 0 deletes a line, a
      missing field keeps the old value), then reprice the remaining lines from scratch. */
  function UpdateCartItems(db: OrderDb, id: OrderId, updates: seq<CartItemUpdate>): (r: Result<OrderDb>)
    ensures r.Ok? <==> && ValidCartItemUpdates(updates)
                       && id in db.orders
                       && EditedLines(db.orders[id].items, updates).Ok?
                       && Priced(EditedLines(db.orders[id].items, updates).value, db.prices)
    ensures r.Err? ==> r.error == Rejected || r.error == NotFound
    ensures ValidCartItemUpdates(updates) && id !in db.orders ==> r == Err(NotFound)
    ensures (exists i :: 0 <= i < |updates| && !ValidCartItemUpdate(updates[i])) ==> r == Err(Rejected)
    ensures id in db.orders && |updates| > 0 && updates[0].product !in ProductsOf(db.orders[id].items) ==> r.Err?
    ensures r.Ok? ==> id in db.orders && id in r.value.orders
    ensures r.Ok? ==> r.value.orders[id].items == EditedLines(db.orders[id].items, updates).value
    ensures r.Ok? ==> r.value.inventory == db.inventory && r.value.orders.Keys == db.orders.Keys
    ensures r.Ok? ==> r.value.customers == db.customers && r.value.prices == db.prices
    ensures r.Ok? ==> forall o :: o in db.orders && o != id ==> r.value.orders[o] == db.orders[o]
    ensures r.Ok? ==> DistinctProducts(r.value.orders[id].items)
    ensures r.Ok? ==> var o := r.value.orders[id];
                      && Priced(o.items, db.prices)
                      && o.amount == Amount(o.items, db.prices)
                      && o.discountAmount == DiscountTotal(o.items, db.prices)
                      && o.tax == (o.amount - o.discountAmount) * DefaultTaxRate
                      && o == db.orders[id].(amount := o.amount, discountAmount := o.discountAmount, tax := o.tax, items := o.items)
  {
    if !ValidCartItemUpdates(updates) then Err(Rejected)
    else if id !in db.orders then Err(NotFound)
    else
      var edited := EditedLines(db.orders[id].items, updates);
      if edited.Err? then Err(edited.error)
      else
        var updated :- RepriceOrder(db.orders[id], edited.value, db.prices);
        Ok(db.(orders := db.orders[id := updated]))
  }

  /** The order with `lines` as its cart and the totals of `create_cart_items` over them;
      NotFound when a line has no price. */
  function RepriceOrder(order: Order, lines: seq<CartItem>, prices: Prices): (r: Result<Order>)
    ensures r.Ok? <==> Priced(lines, prices)
    ensures r.Err? ==> r.error == NotFound
    ensures r.Ok? ==> && r.value.amount == Amount(lines, prices)
                      && r.value.discountAmount == DiscountTotal(lines, prices)
                      && r.value.tax == (r.value.amount - r.value.discountAmount) * DefaultTaxRate
                      && r.value == order.(amount := r.value.amount, discountAmount := r.value.discountAmount,
                                           tax := r.value.tax, items := lines)
  {
    var cart :- BuildCart(lines, prices, DefaultTaxRate);
    Ok(order.(amount := cart.amount, discountAmount := cart.discount, tax := cart.tax, items := cart.items))
  }

  /** An edit with no updates changes nothing but the totals: a cart whose products are
      distinct comes back line for line, repriced from the catalog. */
  lemma UpdateCartItemsNoEdits(db: OrderDb, id: OrderId)
    requires id in db.orders
    requires DistinctProducts(db.orders[id].items)
    requires Priced(db.orders[id].items, db.prices)
    ensures UpdateCartItems(db, id, []).Ok?
    ensures UpdateCartItems(db, id, []).value.orders[id].items == db.orders[id].items
  {
    EditedLinesNoEdits(db.orders[id].items);
  }

  /** Keying distinct lines by product and reading them back gives the same lines. */
  lemma EditedLinesNoEdits(items: seq<CartItem>)
    requires DistinctProducts(items)
    ensures EditedLines(items, []) == Ok(items)
  {
    Dicts.FromSeqValuesInOrder(items, LineProduct, LineItself);
    var lines := CartDict(items);
    assert ApplyCartUpdates(lines, []) == Ok(lines);
    assert Dicts.Values(lines) == items;
  }
}

=== FILE: refunds.dfy ===
/** Refund applications: the request rules of validations/refund.py and the handlers of
    routes/order/routes_refund.py.  A refund never puts stock back: creating one only marks
    its order "For Refund", and marking it Refunded touches neither order nor inventory. */
module Refunds {
  import opened Wrappers
  import opened Clock
  import opened Stock
  import Dicts
  import Orders

  type RefundId = nat

  datatype RefundStatus = Pending | Approved | Cancelled | Rejected | Refunded

  /** A refund line: quantity must be > 0. */
  datatype RefundItem = RefundItem(product: ProductId, quantity: int)

  /** An optional request field as the client sends it: left out of the body, sent as an
      explicit null, or given a value.  Only a left-out field runs its default factory. */
  datatype DateField = Omitted | Null | Given(at: Time)

  /** The body of POST /refunds/add. */
  datatype RefundRequest = RefundRequest(
    store: StoreId, reason: Option<string>, applicationDate: DateField, status: Option<RefundStatus>,
    amount: Option<real>, order: Orders.OrderId, items: seq<RefundItem>)

  datatype Refund = Refund(
    reason: Option<string>, amount: real, status: RefundStatus, applicationDate: Time,
    dateRefunded: Option<Time>, order: Orders.OrderId, items: seq<RefundItem>)

  /** What the refund handlers read and write. */
  datatype RefundDb = RefundDb(orders: map<Orders.OrderId, Orders.Order>, inventory: Inventory, refunds: map<RefundId, Refund>)

  /** Longest gap between delivery and application that still admits a refund. */
  const RefundWindow: int := 15 * Day

  predicate ValidRefundRequest(req: RefundRequest) {
    && (req.amount.Some? ==> req.amount.value > 0.0)
    && forall i :: 0 <= i < |req.items| ==> req.items[i].quantity > 0
  }

  // ---------------------------------------------------------------- application date

  /** The request's `application_date` as written: its default factory calls
      `datetime.now(timezone)` with the class rather than a tzinfo instance, which raises a
      TypeError, so a request that leaves the date out cannot be built.  An explicit null
      skips the factory and stays null. */
  function ApplicationDateAsWritten(given: DateField, now: Time): (r: Result<DateField>)
    ensures given.Omitted? ==> r == Err(Fault)
    ensures !given.Omitted? ==> r == Ok(given)
  {
    if given.Omitted? then Err(Fault) else Ok(given)
  }

  /** The evident intent: a left-out date defaults to the clock reading; an explicit null
      is still null, since `Optional[datetime]` admits it and no factory runs. */
  function ApplicationDate(given: DateField, now: Time): (r: DateField)
    ensures given.Omitted? ==> r == Given(now)
    ensures !given.Omitted? ==> r == given
    ensures !r.Omitted?
  {
    if given.Omitted? then Given(now) else given
  }

  /** The two agree whenever the client sends the field, and only the as-written version
      fails when it does not. */
  lemma ApplicationDateDefaultFails(now: Time)
    ensures ApplicationDateAsWritten(Omitted, now).Err?
    ensures ApplicationDate(Omitted, now) == Given(now)
    ensures forall f: DateField :: !f.Omitted? ==> ApplicationDateAsWritten(f, now) == Ok(ApplicationDate(f, now))
  {
  }

  // ---------------------------------------------------------------- validate_application

  /** Reference lookup in the refund lines: the quantity of the LAST line for `p`, which is
      what `{line.product_id: line for line in items}[p]` holds. */
  function LastQuantity(items: seq<RefundItem>, p: ProductId): (r: Option<int>)
    ensures r.Some? <==> exists i :: 0 <= i < |items| && items[i].product == p
    ensures r.Some? ==> exists i :: 0 <= i < |items| && items[i].product == p && items[i].quantity == r.value
                                    && forall j :: i < j < |items| ==> items[j].product != p
    decreases |items|
  {
    if |items| == 0 then None
    else
      var n := |items| - 1;
      assert forall i :: 0 <= i < n ==> items[..n][i] == items[i];
      if items[n].product == p then Some(items[n].quantity) else LastQuantity(items[..n], p)
  }

  /** Every ordered line is named in the refund, with a refund quantity at least the ordered
      one.  The comparison runs in this direction in the source: an ordered quantity larger
      than the refunded one is the error. */
  ghost predicate CoversOrder(orderItems: seq<Orders.Cart.CartItem>, items: seq<RefundItem>) {
    forall i :: 0 <= i < |orderItems| ==>
      LastQuantity(items, orderItems[i].product).Some? && orderItems[i].quantity <= LastQuantity(items, orderItems[i].product).value
  }

  /** The refund dict holds, for each product, the last line naming it. */
  lemma RefundDictIsLast(items: seq<RefundItem>, p: ProductId)
    ensures p in Dicts.FromSeq(items, (x: RefundItem) => x.product, (x: RefundItem) => x).vals <==> LastQuantity(items, p).Some?
    ensures LastQuantity(items, p).Some? ==>
              Dicts.FromSeq(items, (x: RefundItem) => x.product, (x: RefundItem) => x).vals[p].quantity == LastQuantity(items, p).value
  {
    if LastQuantity(items, p).Some? {
      var i :| 0 <= i < |items| && items[i].product == p && items[i].quantity == LastQuantity(items, p).value
               && forall j :: i < j < |items| ==> items[j].product != p;
      Dicts.FromSeqLastWins(items, (x: RefundItem) => x.product, (x: RefundItem) => x, i);
    }
  }

  /** The loop over the order's lines.  A missing product raises the ValueError; a short
      quantity fails while formatting its message (`ordered_product.name` does not exist on
      a refund line), so that path is a runtime error.  Both become HTTP 400. */
  function CheckOrderLines(orderItems: seq<Orders.Cart.CartItem>, refundDict: Dicts.Dict<ProductId, RefundItem>)
    : (r: Result<()>)
    ensures r.Ok? <==> forall i :: 0 <= i < |orderItems| ==> LineCovered(orderItems[i], refundDict)
    ensures |orderItems| > 0 && orderItems[0].product !in refundDict.vals ==> r == Err(Error.Rejected)
    ensures forall i :: 0 <= i < |orderItems| && (forall j :: 0 <= j < i ==> LineCovered(orderItems[j], refundDict)) ==>
              && (orderItems[i].product !in refundDict.vals ==> r == Err(Error.Rejected))
              && (orderItems[i].product in refundDict.vals && !LineCovered(orderItems[i], refundDict) ==> r == Err(Fault))
    ensures r.Err? ==> r.error == Error.Rejected || r.error == Fault
    decreases |orderItems|
  {
    if |orderItems| == 0 then Ok(())
    else
      var item := orderItems[0];
      if item.product !in refundDict.vals then Err(Error.Rejected)
      else if item.quantity > refundDict.vals[item.product].quantity then Err(Fault)
      else
        assert forall i :: 1 <= i < |orderItems| ==> orderItems[1..][i - 1] == orderItems[i];
        CheckOrderLines(orderItems[1..], refundDict)
  }

  /** An order line the refund covers: its product is refunded, at least as many times as
      it was ordered. */
  predicate LineCovered(item: Orders.Cart.CartItem, refundDict: Dicts.Dict<ProductId, RefundItem>) {
    item.product in refundDict.vals && item.quantity <= refundDict.vals[item.product].quantity
  }

  /** The line check against the refund dict succeeds exactly when the refund covers the order. */
  lemma CheckMeansCovers(orderItems: seq<Orders.Cart.CartItem>, items: seq<RefundItem>)
    ensures CheckOrderLines(orderItems, Dicts.FromSeq(items, (x: RefundItem) => x.product, (x: RefundItem) => x)).Ok?
            <==> CoversOrder(orderItems, items)
  {
    forall i | 0 <= i < |orderItems| {
      RefundDictIsLast(items, orderItems[i].product);
    }
  }

  /** `validate_application`, with the refund dict keyed by `product_id`.  On success the
      request's status becomes Approved; every failure raises, so Rejected is never stored. */
  function ValidateApplication(req: RefundRequest, order: Orders.Order): (r: Result<RefundRequest>)
    ensures r.Ok? <==>
              && order.status != Orders.Cancelled && order.status != Orders.Pending
              && CoversOrder(order.items, req.items)
              && req.applicationDate.Given? && order.dateReceived.Some?
              && req.applicationDate.at - order.dateReceived.value <= RefundWindow
    ensures order.status == Orders.Cancelled || order.status == Orders.Pending ==> r == Err(Error.Rejected)
    ensures r.Ok? ==> r.value == req.(status := Some(Approved))
  {
    if order.status == Orders.Cancelled then Err(Error.Rejected)
    else if order.status == Orders.Pending then Err(Error.Rejected)
    else
      var refundDict := Dicts.FromSeq(req.items, (x: RefundItem) => x.product, (x: RefundItem) => x);
      CheckMeansCovers(order.items, req.items);
      var _ :- CheckOrderLines(order.items, refundDict);
      if !req.applicationDate.Given? || order.dateReceived.None? then Err(Fault)
      else if req.applicationDate.at - order.dateReceived.value > RefundWindow then Err(Error.Rejected)
      else Ok(req.(status := Some(Approved)))
  }

  /** `validate_application` as written: `{p.id: p for p in self.items}` reads an attribute
      refund lines do not have, so any request with lines fails with an AttributeError. */
  function ValidateApplicationAsWritten(req: RefundRequest, order: Orders.Order): (r: Result<RefundRequest>)
    ensures order.status != Orders.Cancelled && order.status != Orders.Pending && |req.items| > 0 ==> r == Err(Fault)
    ensures r.Ok? ==> |req.items| == 0 && |order.items| == 0
    ensures |req.items| == 0 ==> r == ValidateApplication(req, order)
  {
    if order.status == Orders.Cancelled || order.status == Orders.Pending then ValidateApplication(req, order)
    else if |req.items| > 0 then Err(Fault)
    else ValidateApplication(req, order)
  }

  /** A delivered order with one line and a matching refund line passes the keyed check but
      fails as written. */
  lemma ValidateApplicationAsWrittenRejectsValidRefund()
    ensures var order := Orders.Order(0, 10.0, 0.0, 1.8, Orders.Received, 0, Some(0), Orders.Offline, [Orders.Cart.CartItem(7, 1, 0.0)]);
            var req := RefundRequest(0, Some("damaged"), Given(Day), None, Some(10.0), 0, [RefundItem(7, 1)]);
            && ValidateApplication(req, order).Ok?
            && ValidateApplicationAsWritten(req, order) == Err(Fault)
  {
    var order := Orders.Order(0, 10.0, 0.0, 1.8, Orders.Received, 0, Some(0), Orders.Offline, [Orders.Cart.CartItem(7, 1, 0.0)]);
    var req := RefundRequest(0, Some("damaged"), Given(Day), None, Some(10.0), 0, [RefundItem(7, 1)]);
    assert LastQuantity(req.items, 7) == Some(1);
    assert CoversOrder(order.items, req.items);
  }

  // ---------------------------------------------------------------- handlers

  /** The refund lines kept when an amount is given: those whose product was ordered. */
  function OrderedOnly(items: seq<RefundItem>, ordered: set<ProductId>): (r: seq<RefundItem>)
    ensures forall x :: x in r <==> x in items && x.product in ordered
    ensures |r| <= |items|
    ensures (forall i :: 0 <= i < |items| ==> items[i].product in ordered) ==> r == items
    decreases |items|
  {
    if |items| == 0 then []
    else
      var rest := OrderedOnly(items[1..], ordered);
      assert forall x :: x in items <==> x == items[0] || x in items[1..];
      if items[0].product in ordered then [items[0]] + rest else rest
  }

  /** No two refund lines name the same product: the refund_items table is keyed by
      (refund, product). */
  predicate DistinctRefundProducts(items: seq<RefundItem>) {
    forall a, b :: 0 <= a < b < |items| ==> items[a].product != items[b].product
  }

  function OrderedProducts(order: Orders.Order): (r: set<ProductId>)
    ensures forall p :: p in r <==> exists i :: 0 <= i < |order.items| && order.items[i].product == p
  {
    set i | 0 <= i < |order.items| :: order.items[i].product
  }

  /** `create_refund`.  `id` is the new refund's uuid and `now` the clock reading used for a
      left-out application date.  Without an amount the handler reaches `amount or
      total_amount` with `total_amount` never assigned, a runtime error.  Two kept lines for
      one product collide on the refund_items key when committed, which the generic handler
      answers with a 400. */
  function CreateRefund(db: RefundDb, req: RefundRequest, id: RefundId, now: Time): (r: Result<RefundDb>)
    requires id !in db.refunds
    ensures !ValidRefundRequest(req) ==> r == Err(Error.Rejected)
    ensures ValidRefundRequest(req) && req.order !in db.orders ==> r == Err(NotFound)
    ensures r.Ok? <==>
              && ValidRefundRequest(req) && req.order in db.orders
              && ValidateApplication(req.(applicationDate := ApplicationDate(req.applicationDate, now)), db.orders[req.order]).Ok?
              && req.amount.Some?
              && DistinctRefundProducts(OrderedOnly(req.items, OrderedProducts(db.orders[req.order])))
    ensures req.applicationDate.Null? ==> r.Err?
    ensures && ValidRefundRequest(req) && req.order in db.orders
            && ValidateApplication(req.(applicationDate := ApplicationDate(req.applicationDate, now)), db.orders[req.order]).Ok?
            && req.amount.Some?
            && !DistinctRefundProducts(OrderedOnly(req.items, OrderedProducts(db.orders[req.order])))
            ==> r == Err(Error.Rejected)
    ensures r.Ok? ==> r.value.inventory == db.inventory
    ensures r.Ok? ==> r.value.refunds.Keys == db.refunds.Keys + {id}
                      && forall x :: x in db.refunds ==> r.value.refunds[x] == db.refunds[x]
    ensures r.Ok? ==> var f := r.value.refunds[id];
                      && f.status == Approved && f.dateRefunded.None?
                      && f.order == req.order && f.reason == req.reason
                      && f.amount == req.amount.value
                      && Given(f.applicationDate) == ApplicationDate(req.applicationDate, now)
                      && forall x :: x in f.items <==> x in req.items && exists i :: 0 <= i < |db.orders[req.order].items| && db.orders[req.order].items[i].product == x.product
    ensures r.Ok? ==> r.value.orders == db.orders[req.order := db.orders[req.order].(status := Orders.ForRefund)]
  {
    if !ValidRefundRequest(req) then Err(Error.Rejected)
    else if req.order !in db.orders then Err(NotFound)
    else
      var order := db.orders[req.order];
      var dated := req.(applicationDate := ApplicationDate(req.applicationDate, now));
      var approved :- ValidateApplication(dated, order);
      var kept := OrderedOnly(req.items, OrderedProducts(order));
      if req.amount.None? then Err(Fault)
      else if !DistinctRefundProducts(kept) then Err(Error.Rejected)
      else
        var refund := Refund(req.reason, req.amount.value, Approved, dated.applicationDate.at, None, req.order, kept);
        Ok(RefundDb(db.orders[req.order := order.(status := Orders.ForRefund)], db.inventory, db.refunds[id := refund]))
  }

  /** `RefundUpdateRequest.date_refunded`: the clock reading exactly when the status is Refunded. */
  function RefundedDate(status: RefundStatus, now: Time): (r: Option<Time>)
    ensures r.Some? <==> status == Refunded
    ensures r.Some? ==> r.value == now
  {
    if status == Refunded then Some(now) else None
  }

  /** `update_refund`: a given status is stored together with its refund date (cleared unless
      Refunded); a non-empty reason replaces the old one.  No status transition is refused. */
  function UpdateRefund(db: RefundDb, id: RefundId, status: Option<RefundStatus>, reason: Option<string>, now: Time)
    : (r: Result<RefundDb>)
    ensures r.Ok? <==> id in db.refunds
    ensures r.Err? ==> r.error == NotFound
    ensures r.Ok? ==> r.value.orders == db.orders && r.value.inventory == db.inventory
    ensures r.Ok? ==> r.value.refunds.Keys == db.refunds.Keys
                      && forall x :: x in db.refunds && x != id ==> r.value.refunds[x] == db.refunds[x]
    ensures r.Ok? ==> var old_ := db.refunds[id]; var f := r.value.refunds[id];
                      && f.status == (if status.Some? then status.value else old_.status)
                      && f.dateRefunded == (if status.Some? then RefundedDate(status.value, now) else old_.dateRefunded)
                      && f.reason == (if Truthy(reason) then reason else old_.reason)
                      && f.items == old_.items && f.amount == old_.amount && f.order == old_.order
                      && f.applicationDate == old_.applicationDate
  {
    if id !in db.refunds then Err(NotFound)
    else
      var refund := db.refunds[id];
      var refund1 := if status.Some? then refund.(status := status.value, dateRefunded := RefundedDate(status.value, now)) else refund;
      var refund2 := if Truthy(reason) then refund1.(reason := reason) else refund1;
      Ok(db.(refunds := db.refunds[id := refund2]))
  }

  /** `delete_refund`: removes the application and, by cascade, its lines. */
  function DeleteRefund(db: RefundDb, id: RefundId): (r: Result<RefundDb>)
    ensures r.Ok? <==> id in db.refunds
    ensures r.Err? ==> r.error == NotFound
    ensures r.Ok? ==> r.value.refunds.Keys == db.refunds.Keys - {id} && r.value.orders == db.orders && r.value.inventory == db.inventory
    ensures r.Ok? ==> forall x :: x in r.value.refunds ==> r.value.refunds[x] == db.refunds[x]
  {
    if id !in db.refunds then Err(NotFound) else Ok(db.(refunds := db.refunds - {id}))
  }

  /** Nothing guards against a second application for the same order: an order already
      "For Refund" accepts another refund exactly like a delivered one. */
  lemma SecondRefundAccepted(db: RefundDb, req: RefundRequest, id1: RefundId, id2: RefundId, now: Time)
    requires id1 != id2 && id1 !in db.refunds && id2 !in db.refunds
    requires req.order in db.orders && db.orders[req.order].status == Orders.Received
    requires CreateRefund(db, req, id1, now).Ok?
    ensures CreateRefund(CreateRefund(db, req, id1, now).value, req, id2, now).Ok?
  {
    var db1 := CreateRefund(db, req, id1, now).value;
    var dated := req.(applicationDate := ApplicationDate(req.applicationDate, now));
    assert db1.orders[req.order] == db.orders[req.order].(status := Orders.ForRefund);
    assert ValidateApplication(dated, db.orders[req.order]).Ok?;
  }

  /** Any round of status and reason updates, even to Refunded, leaves inventory as it was. */
  lemma RefundUpdatesNeverRestock(db: RefundDb, id: RefundId, reason: Option<string>, now: Time)
    requires id in db.refunds
    ensures UpdateRefund(db, id, Some(Refunded), reason, now).Ok?
    ensures UpdateRefund(db, id, Some(Refunded), reason, now).value.inventory == db.inventory
    ensures UpdateRefund(db, id, Some(Refunded), reason, now).value.refunds[id].dateRefunded == Some(now)
  {
  }

  /** An update carrying neither a status nor a reason changes nothing. */
  lemma EmptyRefundUpdateIsIdentity(db: RefundDb, id: RefundId, now: Time)
    requires id in db.refunds
    ensures UpdateRefund(db, id, None, None, now) == Ok(db)
  {
    assert db.refunds[id := db.refunds[id]] == db.refunds;
  }
}

=== FILE: removals.dfy ===
/** Stock removals: the request rules of validations/removal.py and the handlers of
    routes/store/routes_stock_removal.py.  Creating a removal withdraws stock line by line
    against the running balance; cancelling or deleting it puts every recorded quantity
    back, however often that happens. */
module Removals {
  import opened Wrappers
  import opened Clock
  import opened Stock
  import Dicts
  import StockRestore

  type RemovalId = nat

  datatype RemovalReason = Damaged | Lost | InternalUse | Adjustment | ReturnToSupplier

  datatype RemovalItem = RemovalItem(product: ProductId, previousQuantity: int, removalQuantity: int)

  /** The body of POST /stock-removals/add.  `isCancelled` defaults to false. */
  datatype RemovalRequest = RemovalRequest(
    store: StoreId, reason: RemovalReason, date: Option<Time>, isCancelled: bool, items: seq<RemovalItem>)

  datatype StockRemoval = StockRemoval(
    store: StoreId, reason: RemovalReason, date: Option<Time>, isCancelled: bool, items: seq<RemovalItem>)

  /** The body of PUT /stock-removals/mod: every field optional. */
  datatype RemovalUpdate = RemovalUpdate(reason: Option<RemovalReason>, date: Option<Time>, isCancelled: Option<bool>)

  datatype RemovalDb = RemovalDb(inventory: Inventory, removals: map<RemovalId, StockRemoval>)

  const DefaultIsCancelled: bool := false

  /** `previous_quantity >= 0` and `removal_quantity > 0`. */
  predicate ValidRemovalItem(item: RemovalItem) {
    item.previousQuantity >= 0 && item.removalQuantity > 0
  }

  predicate ValidRemovalRequest(req: RemovalRequest) {
    forall i :: 0 <= i < |req.items| ==> ValidRemovalItem(req.items[i])
  }

  /** The per-product movements of a removal's lines. */
  function Withdrawals(items: seq<RemovalItem>): (r: seq<Line>)
    ensures |r| == |items|
    ensures forall i :: 0 <= i < |items| ==> r[i] == Line(items[i].product, items[i].removalQuantity)
  {
    seq(|items|, i requires 0 <= i < |items| => Line(items[i].product, items[i].removalQuantity))
  }

  /** Each line finds a row whose running balance (its quantity less everything earlier lines
      for the same product took) covers the line. */
  ghost predicate CanWithdraw(inv: Inventory, store: StoreId, lines: seq<Line>) {
    forall i :: 0 <= i < |lines| ==>
      (store, lines[i].product) in inv && inv[(store, lines[i].product)].quantity >= Total(lines[..i + 1], lines[i].product)
  }

  /** The loop of `create_stock_removal`: each line looks up its row (404 when absent), checks
      the row's current quantity (400 when short) and withdraws from it. */
  function Withdraw(inv: Inventory, store: StoreId, lines: seq<Line>): (r: Result<Inventory>)
    ensures r.Ok? <==> CanWithdraw(inv, store, lines)
    ensures r.Err? ==> r.error == NotFound || r.error == InsufficientStock
    ensures |lines| > 0 && (store, lines[0].product) !in inv ==> r == Err(NotFound)
    ensures r.Ok? ==> r.value.Keys == inv.Keys
    ensures r.Ok? ==> forall k :: k in inv ==>
              r.value[k] == if k.0 == store then inv[k].(quantity := inv[k].quantity - Total(lines, k.1)) else inv[k]
    decreases |lines|
  {
    if |lines| == 0 then Ok(inv)
    else
      var line := lines[0];
      var k := (store, line.product);
      if k !in inv then Err(NotFound)
      else if inv[k].quantity < line.qty then
        assert Total(lines[..1], line.product) == line.qty by { assert lines[..1][1..] == []; }
        Err(InsufficientStock)
      else
        var inv1 := inv[k := inv[k].(quantity := inv[k].quantity - line.qty)];
        WithdrawStep(inv, store, lines);
        Withdraw(inv1, store, lines[1..])
  }

  /** One step of the loop: the lines can be withdrawn from `inv` exactly when the first one
      can and the rest can be withdrawn from what it leaves. */
  lemma WithdrawStep(inv: Inventory, store: StoreId, lines: seq<Line>)
    requires |lines| > 0 && (store, lines[0].product) in inv && inv[(store, lines[0].product)].quantity >= lines[0].qty
    ensures var k := (store, lines[0].product);
            var inv1 := inv[k := inv[k].(quantity := inv[k].quantity - lines[0].qty)];
            CanWithdraw(inv, store, lines) <==> CanWithdraw(inv1, store, lines[1..])
  {
    var line := lines[0];
    var k := (store, line.product);
    var inv1 := inv[k := inv[k].(quantity := inv[k].quantity - line.qty)];
    var tail := lines[1..];
    forall j | 0 <= j < |tail|
      ensures tail[j] == lines[j + 1]
      ensures Total(lines[..j + 2], tail[j].product) == (if line.product == tail[j].product then line.qty else 0) + Total(tail[..j + 1], tail[j].product)
    {
      assert lines[..j + 2][1..] == tail[..j + 1];
    }
    assert Total(lines[..1], line.product) == line.qty by { assert lines[..1][1..] == []; }
    if CanWithdraw(inv1, store, tail) {
      forall i | 0 <= i < |lines|
        ensures (store, lines[i].product) in inv && inv[(store, lines[i].product)].quantity >= Total(lines[..i + 1], lines[i].product)
      {
        if i > 0 { assert lines[i] == tail[i - 1]; }
      }
    }
    if CanWithdraw(inv, store, lines) {
      forall j | 0 <= j < |tail|
        ensures (store, tail[j].product) in inv1 && inv1[(store, tail[j].product)].quantity >= Total(tail[..j + 1], tail[j].product)
      {
        assert lines[j + 1] == tail[j];
      }
    }
  }

  /** The first line that cannot be withdrawn decides the error: NotFound when its row is
      missing, InsufficientStock when the running balance falls short. */
  lemma {:induction false} WithdrawFirstFailure(inv: Inventory, store: StoreId, lines: seq<Line>, i: int)
    requires 0 <= i < |lines| && CanWithdraw(inv, store, lines[..i])
    ensures (store, lines[i].product) !in inv ==> Withdraw(inv, store, lines) == Err(NotFound)
    ensures (store, lines[i].product) in inv && inv[(store, lines[i].product)].quantity < Total(lines[..i + 1], lines[i].product)
            ==> Withdraw(inv, store, lines) == Err(InsufficientStock)
    decreases i
  {
    var line := lines[0];
    if i == 0 {
      assert Total(lines[..1], line.product) == line.qty by { assert lines[..1][1..] == []; }
    } else {
      var k := (store, line.product);
      WithdrawPrefixHead(inv, store, lines, i);
      var inv1 := inv[k := inv[k].(quantity := inv[k].quantity - line.qty)];
      var tail := lines[1..];
      WithdrawFirstFailure(inv1, store, tail, i - 1);
      var p := lines[i].product;
      assert tail[i - 1] == lines[i];
      assert lines[..i + 1][1..] == tail[..i];
      assert Total(lines[..i + 1], p) == (if line.product == p then line.qty else 0) + Total(tail[..i], p);
    }
  }

  /** When the first `i > 0` lines can be withdrawn, the first line goes through and the
      next `i - 1` can be withdrawn from what it leaves. */
  lemma WithdrawPrefixHead(inv: Inventory, store: StoreId, lines: seq<Line>, i: int)
    requires 0 < i <= |lines| && CanWithdraw(inv, store, lines[..i])
    ensures var k := (store, lines[0].product);
            && k in inv && inv[k].quantity >= lines[0].qty
            && var inv1 := inv[k := inv[k].(quantity := inv[k].quantity - lines[0].qty)];
               && Withdraw(inv, store, lines) == Withdraw(inv1, store, lines[1..])
               && CanWithdraw(inv1, store, lines[1..][..i - 1])
  {
    var line := lines[0];
    assert lines[..i][0] == line;
    assert Total(lines[..i][..1], line.product) == line.qty by { assert lines[..i][..1][1..] == []; }
    WithdrawStep(inv, store, lines[..i]);
    assert lines[..i][1..] == lines[1..][..i - 1];
  }

  /** After a successful withdrawal no row it touched is negative. */
  lemma WithdrawLeavesNonNegative(inv: Inventory, store: StoreId, lines: seq<Line>)
    requires Withdraw(inv, store, lines).Ok?
    ensures forall i :: 0 <= i < |lines| ==> Withdraw(inv, store, lines).value[(store, lines[i].product)].quantity >= 0
  {
    var r := Withdraw(inv, store, lines).value;
    forall i | 0 <= i < |lines| ensures r[(store, lines[i].product)].quantity >= 0 {
      var p := lines[i].product;
      var last := LastIndexOf(lines, p, i);
      TotalOfSuffixAbsent(lines, p, last);
      assert inv[(store, p)].quantity >= Total(lines[..last + 1], p);
    }
  }

  /** The last line naming `p`, at or after line `i`. */
  function LastIndexOf(lines: seq<Line>, p: ProductId, i: int): (j: int)
    requires 0 <= i < |lines| && lines[i].product == p
    ensures i <= j < |lines| && lines[j].product == p
    ensures forall m :: j < m < |lines| ==> lines[m].product != p
    decreases |lines| - i
  {
    if exists m :: i < m < |lines| && lines[m].product == p then
      var m :| i < m < |lines| && lines[m].product == p;
      LastIndexOf(lines, p, m)
    else i
  }

  lemma {:induction false} TotalSplit(lines: seq<Line>, n: int, p: ProductId)
    requires 0 <= n <= |lines|
    ensures Total(lines, p) == Total(lines[..n], p) + Total(lines[n..], p)
    decreases n
  {
    if n == 0 {
      assert lines[..0] == [] && lines[0..] == lines;
    } else {
      TotalSplit(lines[1..], n - 1, p);
      assert lines[..n][1..] == lines[1..][..n - 1];
      assert lines[1..][n - 1..] == lines[n..];
    }
  }

  lemma TotalOfSuffixAbsent(lines: seq<Line>, p: ProductId, j: int)
    requires 0 <= j < |lines|
    requires forall m :: j < m < |lines| ==> lines[m].product != p
    ensures Total(lines, p) == Total(lines[..j + 1], p)
  {
    TotalSplit(lines, j + 1, p);
    TotalOfAbsent(lines[j + 1..], p);
  }

  /** `create_stock_removal`.  The recorded lines copy the caller's `previous_quantity`, not
      the ledger's; a request already marked cancelled withdraws all the same.  The
      removal_items table is keyed by (removal, product), so a request naming a product
      twice passes the withdrawal loop but is refused on commit; the generic handler turns
      that into a 400 and the session's inventory changes are rolled back. */
  function CreateStockRemoval(db: RemovalDb, req: RemovalRequest, id: RemovalId): (r: Result<RemovalDb>)
    requires id !in db.removals
    ensures !ValidRemovalRequest(req) ==> r == Err(Rejected)
    ensures r.Ok? <==> ValidRemovalRequest(req) && CanWithdraw(db.inventory, req.store, Withdrawals(req.items))
                       && DistinctProducts(req.items)
    ensures && ValidRemovalRequest(req)
            && CanWithdraw(db.inventory, req.store, Withdrawals(req.items))
            && !DistinctProducts(req.items)
            ==> r == Err(Rejected)
    ensures r.Err? ==> r.error == Rejected || r.error == NotFound || r.error == InsufficientStock
    ensures r.Ok? ==> r.value.removals == db.removals[id := StockRemoval(req.store, req.reason, req.date, req.isCancelled, req.items)]
    ensures r.Ok? ==> r.value.inventory.Keys == db.inventory.Keys
    ensures r.Ok? ==> forall k :: k in db.inventory ==>
              r.value.inventory[k] == if k.0 == req.store
                                      then db.inventory[k].(quantity := db.inventory[k].quantity - Total(Withdrawals(req.items), k.1))
                                      else db.inventory[k]
  {
    if !ValidRemovalRequest(req) then Err(Rejected)
    else
      var inv :- Withdraw(db.inventory, req.store, Withdrawals(req.items));
      if !DistinctProducts(req.items) then Err(Rejected)
      else Ok(RemovalDb(inv, db.removals[id := StockRemoval(req.store, req.reason, req.date, req.isCancelled, req.items)]))
  }

  /** The withdrawn quantities of a removal, keyed by product (a later line of the same
      product replaces an earlier one). */
  function RemovedQuantities(removal: StockRemoval): (d: Dicts.Dict<ProductId, int>)
    ensures d.Valid()
    ensures forall p :: p in d.vals <==> exists i :: 0 <= i < |removal.items| && removal.items[i].product == p
    ensures DistinctProducts(removal.items) ==>
              forall i :: 0 <= i < |removal.items| ==> d.vals[removal.items[i].product] == removal.items[i].removalQuantity
  {
    var key := (x: RemovalItem) => x.product;
    var val := (x: RemovalItem) => x.removalQuantity;
    if DistinctProducts(removal.items) then
      Dicts.FromSeqDistinct(removal.items, key, val);
      Dicts.FromSeq(removal.items, key, val)
    else Dicts.FromSeq(removal.items, key, val)
  }

  /** `update_stock_removal`: each supplied field is stored; an update whose `is_cancelled`
      is true puts every recorded quantity back into the removal's store, failing when a
      row is gone (even when the removal was already cancelled). */
  function UpdateStockRemoval(db: RemovalDb, id: RemovalId, u: RemovalUpdate): (r: Result<RemovalDb>)
    ensures id !in db.removals ==> r == Err(NotFound)
    ensures r.Err? ==> r.error == NotFound
    ensures r.Ok? ==> r.value.removals.Keys == db.removals.Keys
                      && forall x :: x in db.removals && x != id ==> r.value.removals[x] == db.removals[x]
    ensures r.Ok? ==> var old_ := db.removals[id]; var s := r.value.removals[id];
                      && s.reason == (if u.reason.Some? then u.reason.value else old_.reason)
                      && s.date == (if u.date.Some? then u.date else old_.date)
                      && s.isCancelled == (if u.isCancelled.Some? then u.isCancelled.value else old_.isCancelled)
                      && s.items == old_.items && s.store == old_.store
    ensures u.isCancelled != Some(true) && id in db.removals ==> r.Ok? && r.value.inventory == db.inventory
    ensures u.isCancelled == Some(true) && id in db.removals ==>
              (r.Ok? <==> StockRestore.RowsExist(db.inventory, db.removals[id].store, RemovedQuantities(db.removals[id]).vals))
    ensures u.isCancelled == Some(true) && r.Ok? ==>
              r.value.inventory == Adjust(db.inventory, db.removals[id].store, RemovedQuantities(db.removals[id]).vals)
  {
    if id !in db.removals then Err(NotFound)
    else
      var removal := db.removals[id];
      var removal1 := if u.reason.Some? then removal.(reason := u.reason.value) else removal;
      var removal2 := if u.date.Some? then removal1.(date := u.date) else removal1;
      var removal3 := if u.isCancelled.Some? then removal2.(isCancelled := u.isCancelled.value) else removal2;
      if u.isCancelled == Some(true) then
        var inv :- StockRestore.Restore(db.inventory, removal.store, RemovedQuantities(removal), true);
        Ok(db.(inventory := inv, removals := db.removals[id := removal3]))
      else Ok(db.(removals := db.removals[id := removal3]))
  }

  /** `delete_stock_removal`: puts the recorded quantities back, whatever the removal's
      state, then removes the record. */
  function DeleteStockRemoval(db: RemovalDb, id: RemovalId): (r: Result<RemovalDb>)
    ensures id !in db.removals ==> r == Err(NotFound)
    ensures id in db.removals ==>
              (r.Ok? <==> StockRestore.RowsExist(db.inventory, db.removals[id].store, RemovedQuantities(db.removals[id]).vals))
    ensures r.Err? ==> r.error == NotFound
    ensures r.Ok? ==> r.value.removals == db.removals - {id}
    ensures r.Ok? ==> r.value.inventory == Adjust(db.inventory, db.removals[id].store, RemovedQuantities(db.removals[id]).vals)
  {
    if id !in db.removals then Err(NotFound)
    else
      var removal := db.removals[id];
      var inv :- StockRestore.Restore(db.inventory, removal.store, RemovedQuantities(removal), true);
      Ok(db.(inventory := inv, removals := db.removals - {id}))
  }

  /** The handlers as written call `restore_inventory(db, products, add_stock=True)`: the
      store argument is missing, so the call raises a TypeError, and the products are keyed
      by the removal line's own id rather than the product's.  Cancelling through an update
      and deleting an existing removal therefore fail. */
  function UpdateStockRemovalAsWritten(db: RemovalDb, id: RemovalId, u: RemovalUpdate): (r: Result<RemovalDb>)
    ensures id in db.removals && u.isCancelled == Some(true) ==> r == Err(Fault)
    ensures u.isCancelled != Some(true) ==> r == UpdateStockRemoval(db, id, u)
  {
    if id in db.removals && u.isCancelled == Some(true) then Err(Fault) else UpdateStockRemoval(db, id, u)
  }

  function DeleteStockRemovalAsWritten(db: RemovalDb, id: RemovalId): (r: Result<RemovalDb>)
    ensures id in db.removals ==> r == Err(Fault)
    ensures id !in db.removals ==> r == Err(NotFound)
  {
    if id in db.removals then Err(Fault) else Err(NotFound)
  }

  // ---------------------------------------------------------------- properties

  predicate DistinctProducts(items: seq<RemovalItem>) {
    forall a, b :: 0 <= a < b < |items| ==> items[a].product != items[b].product
  }

  /** A removal, once created, can be cancelled, and the cancel gives every row back
      exactly what the removal took. */
  lemma CreateThenCancelRestores(db: RemovalDb, req: RemovalRequest, id: RemovalId, u: RemovalUpdate)
    requires id !in db.removals
    requires CreateStockRemoval(db, req, id).Ok?
    requires u.isCancelled == Some(true)
    ensures UpdateStockRemoval(CreateStockRemoval(db, req, id).value, id, u).Ok?
    ensures UpdateStockRemoval(CreateStockRemoval(db, req, id).value, id, u).value.inventory == db.inventory
  {
    var db1 := CreateStockRemoval(db, req, id).value;
    var removal := db1.removals[id];
    assert removal.items == req.items && removal.store == req.store;
    var d := RemovedQuantities(removal).vals;
    assert DistinctProducts(removal.items);
    WithdrawnAreRecorded(db.inventory, req.store, req.items, db1.inventory, d);
    assert StockRestore.RowsExist(db1.inventory, req.store, d);
    var db2 := UpdateStockRemoval(db1, id, u).value;
    assert db2.inventory == Adjust(db1.inventory, req.store, d);
  }

  /** The bookkeeping behind CreateThenCancelRestores: with distinct products, each row the
      withdrawal touched lost exactly the recorded quantity, and every recorded product has
      a row. */
  lemma WithdrawnAreRecorded(inv: Inventory, store: StoreId, items: seq<RemovalItem>, inv1: Inventory, d: map<ProductId, int>)
    requires DistinctProducts(items)
    requires Withdraw(inv, store, Withdrawals(items)) == Ok(inv1)
    requires forall p :: p in d <==> exists i :: 0 <= i < |items| && items[i].product == p
    requires forall i :: 0 <= i < |items| ==> d[items[i].product] == items[i].removalQuantity
    ensures StockRestore.RowsExist(inv1, store, d)
    ensures Adjust(inv1, store, d) == inv
  {
    var lines := Withdrawals(items);
    assert CanWithdraw(inv, store, lines);
    forall p | p in d ensures (store, p) in inv1 {
      var i :| 0 <= i < |items| && items[i].product == p;
      assert lines[i].product == p;
    }
    var a := Adjust(inv1, store, d);
    forall k | k in inv ensures a[k] == inv[k] {
      WithdrawnRowRestored(inv, store, items, inv1, d, k);
    }
    assert a.Keys == inv.Keys;
  }

  lemma WithdrawnRowRestored(inv: Inventory, store: StoreId, items: seq<RemovalItem>, inv1: Inventory, d: map<ProductId, int>, k: Key)
    requires DistinctProducts(items)
    requires Withdraw(inv, store, Withdrawals(items)) == Ok(inv1)
    requires forall p :: p in d <==> exists i :: 0 <= i < |items| && items[i].product == p
    requires forall i :: 0 <= i < |items| ==> d[items[i].product] == items[i].removalQuantity
    requires k in inv
    ensures Adjust(inv1, store, d)[k] == inv[k]
  {
    var lines := Withdrawals(items);
    assert inv1[k] == if k.0 == store then inv[k].(quantity := inv[k].quantity - Total(lines, k.1)) else inv[k];
    if k.0 == store {
      if i :| 0 <= i < |items| && items[i].product == k.1 {
        assert lines[i].product == k.1;
        TotalOfDistinct(lines, i);
        assert Delta(d, k.1) == lines[i].qty;
      } else {
        TotalOfAbsent(lines, k.1);
        assert k.1 !in d;
      }
    }
  }
}

=== FILE: restock_creator.dfy ===
/** utils/restock_creator.py: snapshotting a restock request against the ledger, and
    applying a restock's lines to it.  No route calls these helpers; `create_restock` has
    its own loop (see Restocks). */
module RestockCreator {
  import opened Stock
  import Dicts
  import opened Restocks

  /** `create_restock_items`: one recorded line per request line, in order, carrying the
      row's current quantity (0 when the store has no row) and the requested quantity. */
  function CreateRestockItems(inv: Inventory, store: StoreId, lines: seq<RestockItem>): (r: seq<RestockItem>)
    ensures |r| == |lines|
    ensures forall i :: 0 <= i < |lines| ==> r[i].product == lines[i].product && r[i].restockQuantity == lines[i].restockQuantity
    ensures forall i :: 0 <= i < |lines| ==> r[i].previousQuantity == QuantityOr0(inv, store, lines[i].product)
    ensures forall i :: 0 <= i < |lines| && (store, lines[i].product) !in inv ==> r[i].previousQuantity == 0
    decreases |lines|
  {
    if |lines| == 0 then []
    else
      var line := lines[0];
      assert forall i :: 1 <= i < |lines| ==> lines[i] == lines[1..][i - 1];
      [RestockItem(line.product, QuantityOr0(inv, store, line.product), line.restockQuantity)]
        + CreateRestockItems(inv, store, lines[1..])
  }

  /** The dict `{line.product_id: line for line in items}`. */
  function ByProduct(items: seq<RestockItem>): (d: Dicts.Dict<ProductId, RestockItem>)
    ensures d.Valid()
    ensures forall p :: p in d.vals ==> d.vals[p].product == p && d.vals[p] in items
  {
    var d := Dicts.FromSeq(items, (x: RestockItem) => x.product, (x: RestockItem) => x);
    assert forall p :: p in d.vals ==> d.vals[p].product == p && d.vals[p] in items by {
      forall p | p in d.vals ensures d.vals[p].product == p && d.vals[p] in items {
        var i :| 0 <= i < |items| && items[i].product == p && d.vals[p] == items[i];
      }
    }
    d
  }

  /** A restock's lines keyed by product, read back in dict order. */
  function LinesByProduct(items: seq<RestockItem>): (r: seq<RestockItem>)
    ensures DistinctLines(r)
    ensures forall x :: x in r ==> x in items
  {
    var d := ByProduct(items);
    var vs := Dicts.Values(d);
    assert forall i :: 0 <= i < |vs| ==> vs[i].product == d.keys[i];
    vs
  }

  /** A line that no later line overrides survives the keying. */
  lemma LastLineKept(items: seq<RestockItem>, i: int)
    requires 0 <= i < |items|
    requires forall j :: i < j < |items| ==> items[j].product != items[i].product
    ensures items[i] in LinesByProduct(items)
  {
    var d := ByProduct(items);
    Dicts.FromSeqLastWins(items, (x: RestockItem) => x.product, (x: RestockItem) => x, i);
    var k :| 0 <= k < |d.keys| && d.keys[k] == items[i].product;
    assert Dicts.Values(d)[k] == items[i];
  }

  /** Keying keeps only lines that were requested. */
  lemma KeyedAreRequested(items: seq<RestockItem>)
    ensures forall p :: Requested(LinesByProduct(items), p) ==> Requested(items, p)
  {
    var lines := LinesByProduct(items);
    forall p | Requested(lines, p) ensures Requested(items, p) {
      var i :| 0 <= i < |lines| && lines[i].product == p;
      assert lines[i] in lines;
      var j :| 0 <= j < |items| && items[j] == lines[i];
    }
  }

  /** `add_restock_items_to_inventory`: for each product (its last line winning) an existing
      row grows by the restock quantity and a missing one is created with that quantity and
      no discount allowance; nothing else changes. */
  function AddRestockItemsToInventory(inv: Inventory, store: StoreId, items: seq<RestockItem>): (r: Inventory)
    ensures forall k :: k in inv ==> k in r
    ensures forall k :: k in r && k !in inv ==> k.0 == store && Requested(items, k.1)
    ensures forall k :: k in inv && (k.0 != store || !Requested(items, k.1)) ==> r[k] == inv[k]
    ensures forall i :: 0 <= i < |items| && (forall j :: i < j < |items| ==> items[j].product != items[i].product) ==>
              (store, items[i].product) in r && r[(store, items[i].product)] == RestockRow(inv, store, items[i])
  {
    var lines := LinesByProduct(items);
    KeyedAreRequested(items);
    var r := ApplyRestockLines(inv, store, lines);
    forall i | 0 <= i < |items| && (forall j :: i < j < |items| ==> items[j].product != items[i].product)
      ensures (store, items[i].product) in r && r[(store, items[i].product)] == RestockRow(inv, store, items[i])
    {
      LastLineKept(items, i);
      var k :| 0 <= k < |lines| && lines[k] == items[i];
    }
    r
  }

  /** For distinct products with nothing in between, a snapshot's previous quantity plus its
      restock quantity is exactly the row's quantity after the lines are applied. */
  lemma PreviousPlusRestock(inv: Inventory, store: StoreId, lines: seq<RestockItem>, i: int)
    requires DistinctLines(lines)
    requires 0 <= i < |lines|
    ensures var snapshot := CreateRestockItems(inv, store, lines);
            var after := AddRestockItemsToInventory(inv, store, snapshot);
            (store, lines[i].product) in after
            && snapshot[i].previousQuantity + snapshot[i].restockQuantity == after[(store, lines[i].product)].quantity
  {
    var snapshot := CreateRestockItems(inv, store, lines);
    forall j | i < j < |snapshot| ensures snapshot[j].product != snapshot[i].product {
      assert lines[i].product != lines[j].product;
    }
  }
}

=== FILE: restocks.dfy ===
/** Restock orders: the request rules of validations/restock.py and the handlers of
    routes/store/routes_restock.py.  Stock arrives when the restock is created, whatever its
    status; cancelling or deleting it takes back only the lines that were recorded, and a
    product that had no row gets a row but no recorded line. */
module Restocks {
  import opened Wrappers
  import opened Clock
  import opened Stock
  import Dicts
  import StockRestore

  type RestockId = nat

  datatype RestockStatus = Pending | Completed | Cancelled

  /** A restock line, both as requested and as recorded. */
  datatype RestockItem = RestockItem(product: ProductId, previousQuantity: int, restockQuantity: int)

  /** The body of POST /restocks/add; `datePlaced` is None when the client leaves it out. */
  datatype RestockRequest = RestockRequest(
    store: StoreId, status: RestockStatus, datePlaced: Option<Time>, dateReceived: Option<Time>, items: seq<RestockItem>)

  datatype Restock = Restock(
    store: StoreId, status: RestockStatus, datePlaced: Time, dateReceived: Option<Time>, items: seq<RestockItem>)

  /** What the restock handlers read and write: the product catalog, the ledger, the restocks. */
  datatype RestockDb = RestockDb(catalog: set<ProductId>, inventory: Inventory, restocks: map<RestockId, Restock>)

  predicate ValidRestockItem(item: RestockItem) {
    item.previousQuantity >= 0 && item.restockQuantity > 0
  }

  /** At least one line, each within its bounds. */
  predicate ValidRestockRequest(req: RestockRequest) {
    |req.items| >= 1 && forall i :: 0 <= i < |req.items| ==> ValidRestockItem(req.items[i])
  }

  /** `RestockUpdateRequest.date_received`: the clock reading exactly when the status is Completed. */
  function CompletedDate(status: Option<RestockStatus>, now: Time): (r: Option<Time>)
    ensures r.Some? <==> status == Some(Completed)
    ensures r.Some? ==> r.value == now
  {
    if status == Some(Completed) then Some(now) else None
  }

  ghost predicate DistinctLines(lines: seq<RestockItem>) {
    forall i, j :: 0 <= i < j < |lines| ==> lines[i].product != lines[j].product
  }

  ghost predicate Requested(lines: seq<RestockItem>, p: ProductId) {
    exists i :: 0 <= i < |lines| && lines[i].product == p
  }

  // ---------------------------------------------------------------- the catalog check

  /** The distinct products the lines name. */
  function Products(lines: seq<RestockItem>): (r: set<ProductId>)
    ensures forall p :: p in r <==> Requested(lines, p)
  {
    set i | 0 <= i < |lines| :: lines[i].product
  }

  /** The distinct requested products that the catalog knows: `products` in the handler. */
  function CatalogMatches(lines: seq<RestockItem>, catalog: set<ProductId>): (r: set<ProductId>)
    ensures r == Products(lines) * catalog
  {
    set i | 0 <= i < |lines| && lines[i].product in catalog :: lines[i].product
  }

  /** Lines name as many distinct products as there are lines exactly when no product repeats. */
  lemma {:induction false} ProductsCount(lines: seq<RestockItem>)
    ensures |Products(lines)| <= |lines|
    ensures |Products(lines)| == |lines| <==> DistinctLines(lines)
    decreases |lines|
  {
    if |lines| > 0 {
      var tail := lines[1..];
      var p := lines[0].product;
      ProductsCount(tail);
      assert forall i :: 1 <= i < |lines| ==> lines[i] == tail[i - 1];
      assert Products(lines) == {p} + Products(tail) by {
        forall q | q in Products(lines) ensures q in {p} + Products(tail) {
          var i :| 0 <= i < |lines| && lines[i].product == q;
          if i > 0 { assert tail[i - 1].product == q; }
        }
      }
      DistinctCons(lines);
    }
  }

  lemma DistinctCons(lines: seq<RestockItem>)
    requires |lines| > 0
    ensures DistinctLines(lines) <==> !Requested(lines[1..], lines[0].product) && DistinctLines(lines[1..])
  {
    var tail := lines[1..];
    if Requested(tail, lines[0].product) {
      var j :| 0 <= j < |tail| && tail[j].product == lines[0].product;
      assert lines[j + 1].product == lines[0].product;
    }
    if !Requested(tail, lines[0].product) && DistinctLines(tail) {
      forall i, j | 0 <= i < j < |lines| ensures lines[i].product != lines[j].product {
        assert lines[j] == tail[j - 1];
        if i > 0 { assert lines[i] == tail[i - 1]; }
      }
    }
  }

  /** `len(products) != len(product_ids)` fails unless every line names a catalog product
      and no product is named twice. */
  lemma CatalogCountMatches(lines: seq<RestockItem>, catalog: set<ProductId>)
    ensures |CatalogMatches(lines, catalog)| == |lines| <==>
              (forall i :: 0 <= i < |lines| ==> lines[i].product in catalog) && DistinctLines(lines)
  {
    ProductsCount(lines);
    var ps := Products(lines);
    if !(ps <= catalog) {
      var x :| x in ps && x !in catalog;
      assert ps * catalog <= ps - {x};
      SubsetCard(ps * catalog, ps - {x});
      assert |ps - {x}| == |ps| - 1;
      var i :| 0 <= i < |lines| && lines[i].product == x;
    } else {
      assert ps * catalog == ps;
    }
  }

  lemma SubsetCard<T>(a: set<T>, b: set<T>)
    requires a <= b
    ensures |a| <= |b|
    decreases b
  {
    if a != {} {
      var x :| x in a;
      SubsetCard(a - {x}, b - {x});
    }
  }

  // ---------------------------------------------------------------- create_restock

  /** The effect of one line on the ledger: an existing row grows by the restock quantity, an
      absent product gets a new row holding it with no discount allowance. */
  function RestockRow(inv: Inventory, store: StoreId, line: RestockItem): (r: Row)
    ensures (store, line.product) in inv ==> r == inv[(store, line.product)].(quantity := inv[(store, line.product)].quantity + line.restockQuantity)
    ensures (store, line.product) !in inv ==> r == Row(line.restockQuantity, 0.0)
  {
    if (store, line.product) in inv then inv[(store, line.product)].(quantity := inv[(store, line.product)].quantity + line.restockQuantity)
    else Row(line.restockQuantity, 0.0)
  }

  /** The ledger side of the `create_restock` loop over lines with distinct products. */
  function ApplyRestockLines(inv: Inventory, store: StoreId, lines: seq<RestockItem>): (r: Inventory)
    requires DistinctLines(lines)
    ensures forall k :: k in inv ==> k in r
    ensures forall k :: k in r && k !in inv ==> k.0 == store && Requested(lines, k.1)
    ensures forall i :: 0 <= i < |lines| ==> (store, lines[i].product) in r && r[(store, lines[i].product)] == RestockRow(inv, store, lines[i])
    ensures forall k :: k in inv && (k.0 != store || !Requested(lines, k.1)) ==> r[k] == inv[k]
    decreases |lines|
  {
    if |lines| == 0 then inv
    else
      var line := lines[0];
      var tail := lines[1..];
      assert forall i :: 1 <= i < |lines| ==> lines[i] == tail[i - 1];
      assert forall i :: 0 <= i < |tail| ==> tail[i].product != line.product;
      var next := inv[(store, line.product) := RestockRow(inv, store, line)];
      assert forall i :: 0 <= i < |tail| ==> RestockRow(next, store, tail[i]) == RestockRow(inv, store, tail[i]);
      assert forall p :: Requested(lines, p) <==> p == line.product || Requested(tail, p);
      ApplyRestockLines(next, store, tail)
  }

  /** The record side of the loop: the lines whose product already had a row, in request
      order, each carrying that row's quantity before the increment. */
  function RecordedLines(inv: Inventory, store: StoreId, lines: seq<RestockItem>): (r: seq<RestockItem>)
    ensures |r| <= |lines|
    ensures forall x :: x in r <==> exists i :: 0 <= i < |lines| && (store, lines[i].product) in inv
                                      && x == RestockItem(lines[i].product, inv[(store, lines[i].product)].quantity, lines[i].restockQuantity)
    decreases |lines|
  {
    if |lines| == 0 then []
    else
      var line := lines[0];
      var rest := RecordedLines(inv, store, lines[1..]);
      assert forall i :: 1 <= i < |lines| ==> lines[i] == lines[1..][i - 1];
      if (store, line.product) in inv then [RestockItem(line.product, inv[(store, line.product)].quantity, line.restockQuantity)] + rest
      else rest
  }

  /** The state change of a successful `create_restock`: rows incremented or created, and
      the new restock holding the recorded lines.  `now` stands in for a missing `date_placed`. */
  function RecordRestock(db: RestockDb, req: RestockRequest, id: RestockId, now: Time): (r: RestockDb)
    requires DistinctLines(req.items)
    ensures r.catalog == db.catalog
    ensures r.restocks.Keys == db.restocks.Keys + {id}
    ensures forall x :: x in db.restocks && x != id ==> r.restocks[x] == db.restocks[x]
    ensures forall k :: k in db.inventory ==> k in r.inventory
    ensures forall k :: k in r.inventory && k !in db.inventory ==> k.0 == req.store && Requested(req.items, k.1)
    ensures forall k :: k in db.inventory && (k.0 != req.store || !Requested(req.items, k.1)) ==> r.inventory[k] == db.inventory[k]
    ensures forall i :: 0 <= i < |req.items| ==>
              (req.store, req.items[i].product) in r.inventory
              && r.inventory[(req.store, req.items[i].product)] == RestockRow(db.inventory, req.store, req.items[i])
    ensures var s := r.restocks[id];
            && s.store == req.store && s.status == req.status && s.dateReceived == req.dateReceived
            && s.datePlaced == (if req.datePlaced.Some? then req.datePlaced.value else now)
            && forall x :: x in s.items <==>
                 exists i :: 0 <= i < |req.items| && (req.store, req.items[i].product) in db.inventory
                             && x == RestockItem(req.items[i].product, db.inventory[(req.store, req.items[i].product)].quantity, req.items[i].restockQuantity)
  {
    var placed := if req.datePlaced.Some? then req.datePlaced.value else now;
    var restock := Restock(req.store, req.status, placed, req.dateReceived, RecordedLines(db.inventory, req.store, req.items));
    db.(inventory := ApplyRestockLines(db.inventory, req.store, req.items), restocks := db.restocks[id := restock])
  }

  /** `create_restock`: field bounds (422), then the catalog count (404), then the
      increments, whatever the requested status.  `id` is the new restock's uuid. */
  function CreateRestock(db: RestockDb, req: RestockRequest, id: RestockId, now: Time): (r: Result<RestockDb>)
    requires id !in db.restocks
    ensures !ValidRestockRequest(req) ==> r == Err(Rejected)
    ensures r.Ok? <==> ValidRestockRequest(req) && (forall i :: 0 <= i < |req.items| ==> req.items[i].product in db.catalog)
                       && DistinctLines(req.items)
    ensures r.Err? ==> r.error == Rejected || r.error == NotFound
    ensures && ValidRestockRequest(req)
            && !((forall i :: 0 <= i < |req.items| ==> req.items[i].product in db.catalog) && DistinctLines(req.items))
            ==> r == Err(NotFound)
    ensures r.Ok? ==> DistinctLines(req.items) && r.value == RecordRestock(db, req, id, now)
  {
    if !ValidRestockRequest(req) then Err(Rejected)
    else
      CatalogCountMatches(req.items, db.catalog);
      if |CatalogMatches(req.items, db.catalog)| != |req.items| then Err(NotFound)
      else Ok(RecordRestock(db, req, id, now))
  }

  // ---------------------------------------------------------------- update and delete

  /** The dict `{line.product_id: line.restock_quantity}` handed to `restore_inventory`. */
  function RecordedQuantities(restock: Restock): (d: Dicts.Dict<ProductId, int>)
    ensures d.Valid()
    ensures forall p :: p in d.vals <==> exists i :: 0 <= i < |restock.items| && restock.items[i].product == p
  {
    Dicts.FromSeq(restock.items, (x: RestockItem) => x.product, (x: RestockItem) => x.restockQuantity)
  }

  /** `update_restock`: a given status is stored; a date is stored only for Completed; a
      Cancelled update takes every recorded line's quantity back out of the restock's store,
      failing on a missing row or a row now holding less (even when it was already Cancelled). */
  function UpdateRestock(db: RestockDb, id: RestockId, status: Option<RestockStatus>, now: Time): (r: Result<RestockDb>)
    ensures id !in db.restocks ==> r == Err(NotFound)
    ensures r.Err? ==> r.error == NotFound || r.error == InsufficientStock
    ensures r.Ok? ==> r.value.catalog == db.catalog && r.value.restocks.Keys == db.restocks.Keys
                      && forall x :: x in db.restocks && x != id ==> r.value.restocks[x] == db.restocks[x]
    ensures r.Ok? ==> var old_ := db.restocks[id]; var s := r.value.restocks[id];
                      && s.status == (if status.Some? then status.value else old_.status)
                      && s.dateReceived == (if status == Some(Completed) then Some(now) else old_.dateReceived)
                      && s.items == old_.items && s.store == old_.store && s.datePlaced == old_.datePlaced
    ensures status != Some(Cancelled) && id in db.restocks ==> r.Ok? && r.value.inventory == db.inventory
    ensures status == Some(Cancelled) && id in db.restocks ==>
              (r.Ok? <==> StockRestore.Sufficient(db.inventory, db.restocks[id].store, RecordedQuantities(db.restocks[id]).vals))
    ensures status == Some(Cancelled) && r.Ok? ==>
              r.value.inventory == Adjust(db.inventory, db.restocks[id].store, Negate(RecordedQuantities(db.restocks[id]).vals))
  {
    if id !in db.restocks then Err(NotFound)
    else
      var restock := db.restocks[id];
      var restock1 := if status.Some? then restock.(status := status.value) else restock;
      var date := CompletedDate(status, now);
      var restock2 := if date.Some? then restock1.(dateReceived := date) else restock1;
      if status == Some(Cancelled) then
        var inv :- StockRestore.Restore(db.inventory, restock.store, RecordedQuantities(restock), false);
        Ok(db.(inventory := inv, restocks := db.restocks[id := restock2]))
      else Ok(db.(restocks := db.restocks[id := restock2]))
  }

  /** `delete_restock`: takes the recorded quantities back out, whatever the status, then
      removes the record. */
  function DeleteRestock(db: RestockDb, id: RestockId): (r: Result<RestockDb>)
    ensures id !in db.restocks ==> r == Err(NotFound)
    ensures id in db.restocks ==>
              (r.Ok? <==> StockRestore.Sufficient(db.inventory, db.restocks[id].store, RecordedQuantities(db.restocks[id]).vals))
    ensures r.Err? ==> r.error == NotFound || r.error == InsufficientStock
    ensures r.Ok? ==> r.value.catalog == db.catalog && r.value.restocks == db.restocks - {id}
    ensures r.Ok? ==> r.value.inventory == Adjust(db.inventory, db.restocks[id].store, Negate(RecordedQuantities(db.restocks[id]).vals))
  {
    if id !in db.restocks then Err(NotFound)
    else
      var restock := db.restocks[id];
      var inv :- StockRestore.Restore(db.inventory, restock.store, RecordedQuantities(restock), false);
      Ok(db.(inventory := inv, restocks := db.restocks - {id}))
  }

  /** The handlers as written call `restore_inventory(db, products, add_stock=False)`: the
      store argument is missing, so the call raises a TypeError (and the coroutine it would
      return is never awaited in any case).  A Cancelled update and every delete of an
      existing restock therefore fail. */
  function UpdateRestockAsWritten(db: RestockDb, id: RestockId, status: Option<RestockStatus>, now: Time): (r: Result<RestockDb>)
    ensures id in db.restocks && status == Some(Cancelled) ==> r == Err(Fault)
    ensures status != Some(Cancelled) ==> r == UpdateRestock(db, id, status, now)
  {
    if id in db.restocks && status == Some(Cancelled) then Err(Fault) else UpdateRestock(db, id, status, now)
  }

  function DeleteRestockAsWritten(db: RestockDb, id: RestockId): (r: Result<RestockDb>)
    ensures id in db.restocks ==> r == Err(Fault)
    ensures id !in db.restocks ==> r == Err(NotFound)
  {
    if id in db.restocks then Err(Fault) else Err(NotFound)
  }

  // ---------------------------------------------------------------- properties

  /** Creating a restock and cancelling it at once always succeeds on a non-negative
      ledger; it gives back the old quantity of every product that already had a row, and
      keeps the rows it created for products that had none. */
  lemma CreateThenCancel(db: RestockDb, req: RestockRequest, id: RestockId, now: Time, later: Time)
    requires id !in db.restocks
    requires NonNegative(db.inventory)
    requires CreateRestock(db, req, id, now).Ok?
    ensures var db1 := CreateRestock(db, req, id, now).value;
            UpdateRestock(db1, id, Some(Cancelled), later).Ok?
    ensures var db2 := UpdateRestock(CreateRestock(db, req, id, now).value, id, Some(Cancelled), later).value;
            && (forall k :: k in db.inventory ==> k in db2.inventory && db2.inventory[k] == db.inventory[k])
            && (forall i :: 0 <= i < |req.items| && (req.store, req.items[i].product) !in db.inventory ==>
                  db2.inventory[(req.store, req.items[i].product)] == Row(req.items[i].restockQuantity, 0.0))
  {
    var db1 := CreateRestock(db, req, id, now).value;
    var inv, store, lines := db.inventory, req.store, req.items;
    assert db1.inventory == ApplyRestockLines(inv, store, lines);
    assert db1.restocks[id].items == RecordedLines(inv, store, lines);
    assert db1.restocks[id].store == store;
    var d := RecordedQuantities(db1.restocks[id]).vals;
    assert d == Recorded(inv, store, lines);
    CancelAfterCreateSufficient(inv, store, lines);
    var db2 := UpdateRestock(db1, id, Some(Cancelled), later).value;
    assert db2.inventory == Adjust(db1.inventory, store, Negate(d));
    forall k | k in inv ensures k in db2.inventory && db2.inventory[k] == inv[k] {
      CancelRestoresRow(inv, store, lines, k);
    }
    forall i | 0 <= i < |lines| && (store, lines[i].product) !in inv
      ensures db2.inventory[(store, lines[i].product)] == Row(lines[i].restockQuantity, 0.0)
    {
      RecordedAreRequested(inv, store, lines);
      assert lines[i].product !in d;
    }
  }

  /** The recorded quantities, keyed by product, as the cancel path reads them. */
  function Recorded(inv: Inventory, store: StoreId, lines: seq<RestockItem>): (d: map<ProductId, int>)
    ensures forall p :: p in d ==> exists i :: 0 <= i < |lines| && lines[i].product == p
  {
    var recorded := RecordedLines(inv, store, lines);
    var dict := Dicts.FromSeq(recorded, (x: RestockItem) => x.product, (x: RestockItem) => x.restockQuantity);
    assert forall p :: p in dict.vals ==> exists i :: 0 <= i < |lines| && lines[i].product == p by {
      forall p | p in dict.vals ensures exists i :: 0 <= i < |lines| && lines[i].product == p {
        var j :| 0 <= j < |recorded| && recorded[j].product == p;
        assert recorded[j] in recorded;
      }
    }
    dict.vals
  }

  /** Every recorded line stands for the one requested line of its product, whose row existed. */
  lemma RecordedAreRequested(inv: Inventory, store: StoreId, lines: seq<RestockItem>)
    requires DistinctLines(lines)
    ensures forall p :: p in Recorded(inv, store, lines) ==>
              exists i :: 0 <= i < |lines| && lines[i].product == p && (store, p) in inv
                          && Recorded(inv, store, lines)[p] == lines[i].restockQuantity
  {
    var recorded := RecordedLines(inv, store, lines);
    var d := Recorded(inv, store, lines);
    forall p | p in d
      ensures exists i :: 0 <= i < |lines| && lines[i].product == p && (store, p) in inv && d[p] == lines[i].restockQuantity
    {
      var j :| 0 <= j < |recorded| && recorded[j].product == p && d[p] == recorded[j].restockQuantity;
      assert recorded[j] in recorded;
    }
  }

  /** A requested product whose row existed is among the recorded lines, with its quantity. */
  lemma RecordedCoversExisting(inv: Inventory, store: StoreId, lines: seq<RestockItem>, i: int)
    requires DistinctLines(lines)
    requires 0 <= i < |lines| && (store, lines[i].product) in inv
    ensures lines[i].product in Recorded(inv, store, lines)
    ensures Recorded(inv, store, lines)[lines[i].product] == lines[i].restockQuantity
  {
    var p := lines[i].product;
    var x := RestockItem(p, inv[(store, p)].quantity, lines[i].restockQuantity);
    assert x in RecordedLines(inv, store, lines);
    RecordedAreRequested(inv, store, lines);
  }

  /** Right after the increments every recorded line's row holds at least the line's quantity. */
  lemma CancelAfterCreateSufficient(inv: Inventory, store: StoreId, lines: seq<RestockItem>)
    requires DistinctLines(lines)
    requires NonNegative(inv)
    ensures StockRestore.Sufficient(ApplyRestockLines(inv, store, lines), store, Recorded(inv, store, lines))
  {
    var inv1 := ApplyRestockLines(inv, store, lines);
    var d := Recorded(inv, store, lines);
    RecordedAreRequested(inv, store, lines);
    forall p | p in d ensures (store, p) in inv1 && inv1[(store, p)].quantity >= d[p] {
      var i :| 0 <= i < |lines| && lines[i].product == p && (store, p) in inv && d[p] == lines[i].restockQuantity;
      assert inv1[(store, p)] == RestockRow(inv, store, lines[i]);
    }
  }

  /** Taking the recorded quantities back out of the incremented ledger gives each old row back. */
  lemma CancelRestoresRow(inv: Inventory, store: StoreId, lines: seq<RestockItem>, k: Key)
    requires DistinctLines(lines)
    requires k in inv
    ensures Adjust(ApplyRestockLines(inv, store, lines), store, Negate(Recorded(inv, store, lines)))[k] == inv[k]
  {
    if k.0 == store && Requested(lines, k.1) {
      var i :| 0 <= i < |lines| && lines[i].product == k.1;
      CancelRestoresRequestedRow(inv, store, lines, i);
    } else {
      CancelKeepsOtherRow(inv, store, lines, k);
    }
  }

  /** A requested row that existed goes up by its line's quantity and comes back down by it. */
  lemma CancelRestoresRequestedRow(inv: Inventory, store: StoreId, lines: seq<RestockItem>, i: int)
    requires DistinctLines(lines)
    requires 0 <= i < |lines| && (store, lines[i].product) in inv
    ensures var k := (store, lines[i].product);
            Adjust(ApplyRestockLines(inv, store, lines), store, Negate(Recorded(inv, store, lines)))[k] == inv[k]
  {
    var k := (store, lines[i].product);
    var inv1 := ApplyRestockLines(inv, store, lines);
    var d := Recorded(inv, store, lines);
    assert inv1[k] == RestockRow(inv, store, lines[i]);
    RecordedCoversExisting(inv, store, lines, i);
    assert Negate(d)[k.1] == -lines[i].restockQuantity;
    assert Delta(Negate(d), k.1) == -lines[i].restockQuantity;
  }

  /** A row of another store or of an unrequested product is touched by neither step. */
  lemma CancelKeepsOtherRow(inv: Inventory, store: StoreId, lines: seq<RestockItem>, k: Key)
    requires DistinctLines(lines)
    requires k in inv && (k.0 != store || !Requested(lines, k.1))
    ensures Adjust(ApplyRestockLines(inv, store, lines), store, Negate(Recorded(inv, store, lines)))[k] == inv[k]
  {
    var d := Recorded(inv, store, lines);
    assert ApplyRestockLines(inv, store, lines)[k] == inv[k];
    if k.0 == store {
      assert k.1 !in d;
    }
  }
}

=== FILE: stock.dfy ===
/** The inventory ledger: one row per (store, product) key holding a quantity and the
    maximum discount allowed on that product in that store (the `inventory` table). */
module Stock {

  type StoreId = nat
  type ProductId = nat
  type Key = (StoreId, ProductId)

  datatype Row = Row(quantity: int, maxDiscount: real)

  type Inventory = map<Key, Row>

  /** The ledger invariant the workflows are meant to keep. */
  ghost predicate NonNegative(inv: Inventory) {
    forall k :: k in inv ==> inv[k].quantity >= 0
  }

  /** True when `store` has at least one row (the handlers' "Inventory Not Found" guard). */
  predicate HasRows(inv: Inventory, store: StoreId) {
    exists k :: k in inv && k.0 == store
  }

  /** Quantity of a row, or 0 when the store has no row for the product. */
  function QuantityOr0(inv: Inventory, store: StoreId, p: ProductId): int {
    if (store, p) in inv then inv[(store, p)].quantity else 0
  }

  function Delta(d: map<ProductId, int>, p: ProductId): int {
    if p in d then d[p] else 0
  }

  /** Reference effect of a quantity change: every row of `store` moves by its product's
      delta; the rows' discounts, the key set and every other store stay as they are. */
  function Adjust(inv: Inventory, store: StoreId, d: map<ProductId, int>): (r: Inventory)
    ensures r.Keys == inv.Keys
    ensures forall k :: k in inv && k.0 != store ==> r[k] == inv[k]
    ensures forall k :: k in inv && k.1 !in d ==> r[k] == inv[k]
  {
    map k | k in inv :: if k.0 == store then inv[k].(quantity := inv[k].quantity + Delta(d, k.1)) else inv[k]
  }

  function Negate(d: map<ProductId, int>): (r: map<ProductId, int>)
    ensures r.Keys == d.Keys
    ensures forall p :: p in d ==> r[p] + d[p] == 0
  {
    map p | p in d :: -d[p]
  }

  lemma NegateTwice(d: map<ProductId, int>)
    ensures Negate(Negate(d)) == d
  {
  }

  /** Applying a delta and then its negation gives back the original inventory. */
  lemma AdjustRoundTrip(inv: Inventory, store: StoreId, d: map<ProductId, int>)
    ensures Adjust(Adjust(inv, store, d), store, Negate(d)) == inv
  {
    var mid := Adjust(inv, store, d);
    var back := Adjust(mid, store, Negate(d));
    forall k | k in inv ensures back[k] == inv[k] {
      if k.0 == store && k.1 in d {
        assert back[k].quantity == inv[k].quantity + d[k.1] - d[k.1];
      }
    }
  }

  /** Moving rows up never breaks non-negativity. */
  lemma AdjustUpKeepsNonNegative(inv: Inventory, store: StoreId, d: map<ProductId, int>)
    requires NonNegative(inv)
    requires forall p :: p in d ==> d[p] >= 0
    ensures NonNegative(Adjust(inv, store, d))
  {
  }

  /** A per-product movement: one line of an order, removal or restock. */
  datatype Line = Line(product: ProductId, qty: int)

  /** Sum of the quantities of the lines for `p`. */
  function Total(lines: seq<Line>, p: ProductId): int
    decreases |lines|
  {
    if |lines| == 0 then 0
    else (if lines[0].product == p then lines[0].qty else 0) + Total(lines[1..], p)
  }

  lemma {:induction false} TotalOfAbsent(lines: seq<Line>, p: ProductId)
    requires forall i :: 0 <= i < |lines| ==> lines[i].product != p
    ensures Total(lines, p) == 0
    decreases |lines|
  {
    if |lines| > 0 {
      TotalOfAbsent(lines[1..], p);
    }
  }

  lemma {:induction false} TotalNonNegative(lines: seq<Line>, p: ProductId)
    requires forall i :: 0 <= i < |lines| ==> lines[i].qty >= 0
    ensures Total(lines, p) >= 0
    decreases |lines|
  {
    if |lines| > 0 {
      TotalNonNegative(lines[1..], p);
    }
  }

  /** With distinct products, a product's total is its single line's quantity. */
  lemma {:induction false} TotalOfDistinct(lines: seq<Line>, i: int)
    requires 0 <= i < |lines|
    requires forall a, b :: 0 <= a < b < |lines| ==> lines[a].product != lines[b].product
    ensures Total(lines, lines[i].product) == lines[i].qty
    decreases |lines|
  {
    if i == 0 {
      TotalOfAbsent(lines[1..], lines[0].product);
    } else {
      assert lines[1..][i - 1] == lines[i];
      TotalOfDistinct(lines[1..], i - 1);
    }
  }
}

=== FILE: stock_restore.dfy ===
/** `restore_inventory`: add (or subtract, with a sufficiency guard) a dict of per-product
    quantities to the rows of one store, aborting on the first product without a row. */
module StockRestore {
  import opened Wrappers
  import opened Stock
  import Dicts

  /** Every listed product has a row in `store`. */
  ghost predicate RowsExist(inv: Inventory, store: StoreId, d: map<ProductId, int>) {
    forall p :: p in d ==> (store, p) in inv
  }

  /** Every listed product has a row in `store` holding at least the listed quantity. */
  ghost predicate Sufficient(inv: Inventory, store: StoreId, d: map<ProductId, int>) {
    forall p :: p in d ==> (store, p) in inv && inv[(store, p)].quantity >= d[p]
  }

  /** A row moved up (add) or down (subtract) by `amount`. */
  function Moved(row: Row, amount: int, addStock: bool): (r: Row)
    ensures r.maxDiscount == row.maxDiscount
    ensures addStock ==> r.quantity - row.quantity == amount
    ensures !addStock ==> row.quantity - r.quantity == amount
  {
    row.(quantity := if addStock then row.quantity + amount else row.quantity - amount)
  }

  /** The loop of `restore_inventory` over the dict's keys, in insertion order. */
  function RestoreKeys(inv: Inventory, store: StoreId, keys: seq<ProductId>, vals: map<ProductId, int>, addStock: bool)
    : (r: Result<Inventory>)
    requires forall i :: 0 <= i < |keys| ==> keys[i] in vals
    requires forall i, j :: 0 <= i < j < |keys| ==> keys[i] != keys[j]
    ensures r.Ok? <==> forall i :: 0 <= i < |keys| ==>
              (store, keys[i]) in inv && (addStock || inv[(store, keys[i])].quantity >= vals[keys[i]])
    ensures r.Ok? ==> r.value.Keys == inv.Keys
    ensures r.Ok? ==> forall k :: k in inv ==>
              r.value[k] == if k.0 == store && k.1 in keys then Moved(inv[k], vals[k.1], addStock) else inv[k]
    ensures r.Err? ==> ((r.error == NotFound && exists i :: 0 <= i < |keys| && (store, keys[i]) !in inv)
                        || (r.error == InsufficientStock && !addStock))
    decreases |keys|
  {
    if |keys| == 0 then Ok(inv)
    else
      var p := keys[0];
      var k := (store, p);
      assert forall i :: 0 <= i < |keys| - 1 ==> keys[1..][i] == keys[i + 1];
      if k !in inv then Err(NotFound)
      else if !addStock && inv[k].quantity < vals[p] then Err(InsufficientStock)
      else RestoreKeys(inv[k := Moved(inv[k], vals[p], addStock)], store, keys[1..], vals, addStock)
  }

  /** `restore_inventory(db, store_id, products, add_stock)`. */
  function Restore(inv: Inventory, store: StoreId, products: Dicts.Dict<ProductId, int>, addStock: bool)
    : (r: Result<Inventory>)
    requires products.Valid()
    ensures addStock ==> (r.Ok? <==> RowsExist(inv, store, products.vals))
    ensures !addStock ==> (r.Ok? <==> Sufficient(inv, store, products.vals))
    ensures r.Ok? ==> r.value == Adjust(inv, store, if addStock then products.vals else Negate(products.vals))
    ensures r.Err? && addStock ==> r.error == NotFound
    ensures r.Err? ==> r.error == NotFound || r.error == InsufficientStock
    ensures r.Err? && r.error == NotFound ==> !RowsExist(inv, store, products.vals)
  {
    var r := RestoreKeys(inv, store, products.keys, products.vals, addStock);
    KeysCoverDict(products);
    if r.Ok? then
      RestoreKeysIsAdjust(inv, store, products, addStock);
      r
    else r
  }

  lemma KeysCoverDict(products: Dicts.Dict<ProductId, int>)
    requires products.Valid()
    ensures forall p :: p in products.vals ==> exists i :: 0 <= i < |products.keys| && products.keys[i] == p
  {
    forall p | p in products.vals ensures exists i :: 0 <= i < |products.keys| && products.keys[i] == p {
      assert p in products.keys;
    }
  }

  lemma RestoreKeysIsAdjust(inv: Inventory, store: StoreId, products: Dicts.Dict<ProductId, int>, addStock: bool)
    requires products.Valid()
    requires RestoreKeys(inv, store, products.keys, products.vals, addStock).Ok?
    ensures RestoreKeys(inv, store, products.keys, products.vals, addStock).value
            == Adjust(inv, store, if addStock then products.vals else Negate(products.vals))
  {
    var r := RestoreKeys(inv, store, products.keys, products.vals, addStock).value;
    var d := if addStock then products.vals else Negate(products.vals);
    var a := Adjust(inv, store, d);
    assert r.Keys == a.Keys;
    forall k | k in inv ensures r[k] == a[k] {
      MovedIsAdjust(inv, store, products, addStock, k);
    }
  }

  lemma MovedIsAdjust(inv: Inventory, store: StoreId, products: Dicts.Dict<ProductId, int>, addStock: bool, k: Key)
    requires products.Valid() && k in inv
    ensures Adjust(inv, store, if addStock then products.vals else Negate(products.vals))[k]
            == if k.0 == store && k.1 in products.keys then Moved(inv[k], products.vals[k.1], addStock) else inv[k]
  {
  }

  /** On success no row becomes negative: a subtraction is guarded, an addition adds a non-negative amount. */
  lemma RestoreKeepsNonNegative(inv: Inventory, store: StoreId, products: Dicts.Dict<ProductId, int>, addStock: bool)
    requires products.Valid()
    requires NonNegative(inv)
    requires addStock ==> forall p :: p in products.vals ==> products.vals[p] >= 0
    requires Restore(inv, store, products, addStock).Ok?
    ensures NonNegative(Restore(inv, store, products, addStock).value)
  {
    var r := Restore(inv, store, products, addStock).value;
    forall k | k in r ensures r[k].quantity >= 0 {
      if !addStock && k.0 == store && k.1 in products.vals {
        assert r[k].quantity == inv[k].quantity - products.vals[k.1];
      }
    }
  }

  /** Adding a dict and then subtracting it restores the original inventory. */
  lemma AddThenSubtractRestores(inv: Inventory, store: StoreId, products: Dicts.Dict<ProductId, int>)
    requires products.Valid()
    requires NonNegative(inv)
    requires Restore(inv, store, products, true).Ok?
    ensures Restore(Restore(inv, store, products, true).value, store, products, false) == Ok(inv)
  {
    var mid := Restore(inv, store, products, true).value;
    forall p | p in products.vals ensures (store, p) in mid && mid[(store, p)].quantity >= products.vals[p] {
      assert mid[(store, p)].quantity == inv[(store, p)].quantity + products.vals[p];
    }
    AdjustRoundTrip(inv, store, products.vals);
  }

  /** Subtracting a dict and then adding it back restores the original inventory. */
  lemma SubtractThenAddRestores(inv: Inventory, store: StoreId, products: Dicts.Dict<ProductId, int>)
    requires products.Valid()
    requires Restore(inv, store, products, false).Ok?
    ensures Restore(Restore(inv, store, products, false).value, store, products, true) == Ok(inv)
  {
    var d := products.vals;
    var mid := Restore(inv, store, products, false).value;
    assert RowsExist(mid, store, d);
    NegateTwice(d);
    AdjustRoundTrip(inv, store, Negate(d));
  }
}

=== FILE: transactions.dfy ===
/** The audit ledger of utils/create_transaction.py: `add_transaction` tags an operation
    record with the transaction type of its kind and appends one ledger entry for it. */
module Transactions {
  import opened Wrappers
  import opened Clock

  type HandlerId = nat

  /** The classes `add_transaction` distinguishes, plus any other object passed to it. */
  datatype RecordKind = OrderRecord | RefundRecord | RestockRecord | RemovalRecord | OtherRecord

  datatype OperationRecord = OperationRecord(kind: RecordKind, id: nat)

  /** The four allowed values of a transaction's `type`. */
  datatype TransactionType = Sale | Refund | Restock | Removal

  datatype Transaction = Transaction(kind: TransactionType, operationId: nat, handler: HandlerId, date: Time)

  type Ledger = seq<Transaction>

  /** The type a record kind is logged under; other kinds have none. */
  function TypeOf(kind: RecordKind): (t: Option<TransactionType>)
    ensures t.None? <==> kind == OtherRecord
  {
    match kind
    case OrderRecord => Some(Sale)
    case RefundRecord => Some(Refund)
    case RestockRecord => Some(Restock)
    case RemovalRecord => Some(Removal)
    case OtherRecord => None
  }

  /** The record kind a ledger entry's type points back to (the join key of the audit table). */
  function KindOf(t: TransactionType): (kind: RecordKind)
    ensures kind != OtherRecord
  {
    match t
    case Sale => OrderRecord
    case Refund => RefundRecord
    case Restock => RestockRecord
    case Removal => RemovalRecord
  }

  /** Number of entries of type `t`. */
  function CountOf(ledger: Ledger, t: TransactionType): (n: nat)
    ensures n <= |ledger|
    decreases |ledger|
  {
    if |ledger| == 0 then 0
    else CountOf(ledger[..|ledger| - 1], t) + (if ledger[|ledger| - 1].kind == t then 1 else 0)
  }

  /** `add_transaction`: the record's kind decides the type (a ValueError for any other
      object); the new entry carries the record's id, the handler and the current time. */
  function AddTransaction(ledger: Ledger, record: OperationRecord, handler: HandlerId, now: Time): (r: Result<Ledger>)
    ensures r.Ok? <==> record.kind != OtherRecord
    ensures r.Err? ==> r == Err(Rejected)
    ensures r.Ok? ==> |r.value| == |ledger| + 1 && r.value[..|ledger|] == ledger
    ensures r.Ok? ==> var entry := r.value[|ledger|];
                      && KindOf(entry.kind) == record.kind
                      && entry.operationId == record.id
                      && entry.handler == handler
                      && entry.date == now
  {
    match TypeOf(record.kind)
    case None => Err(Rejected)
    case Some(t) => Ok(ledger + [Transaction(t, record.id, handler, now)])
  }

  /** As written, the function imports `TransactionBase` from validations/store.py, which
      defines no such class, and the class of that name elsewhere requires a
      `request_made_by` field the call does not pass; either way no call can succeed. */
  function AddTransactionAsWritten(ledger: Ledger, record: OperationRecord, handler: HandlerId, now: Time): (r: Result<Ledger>)
    ensures r.Err? && r.error == Fault
  {
    Err(Fault)
  }

  // ---------------------------------------------------------------- properties

  /** Tagging and reading back a tag are inverse on the four record kinds. */
  lemma TagRoundTrip(kind: RecordKind, t: TransactionType)
    ensures kind != OtherRecord ==> TypeOf(kind).Some? && KindOf(TypeOf(kind).value) == kind
    ensures TypeOf(KindOf(t)) == Some(t)
  {
  }

  /** A successful call adds exactly one entry, of the record's type, and no other. */
  lemma AddTransactionCounts(ledger: Ledger, record: OperationRecord, handler: HandlerId, now: Time, t: TransactionType)
    requires AddTransaction(ledger, record, handler, now).Ok?
    ensures var after := AddTransaction(ledger, record, handler, now).value;
            CountOf(after, t) == CountOf(ledger, t) + (if KindOf(t) == record.kind then 1 else 0)
  {
    var after := AddTransaction(ledger, record, handler, now).value;
    assert after[..|after| - 1] == ledger;
    TagRoundTrip(record.kind, t);
  }

  /** The ledger never shrinks and earlier entries are never rewritten. */
  lemma {:induction false} AddTransactionsExtend(ledger: Ledger, records: seq<OperationRecord>, handler: HandlerId, now: Time)
    requires forall i :: 0 <= i < |records| ==> records[i].kind != OtherRecord
    ensures var after := AddAll(ledger, records, handler, now);
            |after| == |ledger| + |records| && after[..|ledger|] == ledger
    decreases |records|
  {
    if |records| > 0 {
      var next := AddTransaction(ledger, records[0], handler, now).value;
      AddTransactionsExtend(next, records[1..], handler, now);
      var after := AddAll(ledger, records, handler, now);
      assert after[..|next|][..|ledger|] == after[..|ledger|];
    }
  }

  /** Logging several records in turn, one `add_transaction` each. */
  function AddAll(ledger: Ledger, records: seq<OperationRecord>, handler: HandlerId, now: Time): Ledger
    requires forall i :: 0 <= i < |records| ==> records[i].kind != OtherRecord
    decreases |records|
  {
    if |records| == 0 then ledger
    else AddAll(AddTransaction(ledger, records[0], handler, now).value, records[1..], handler, now)
  }
}

=== FILE: users.dfy ===
/** Account management in routes/user/routes_user.py: self-registration, creation of
    internal users by a manager, self-service edits, and edits of other users, under the
    rule that nobody creates or edits a user at or above their own access level.  Password
    hashing is a function parameter. */
module Users {
  import opened Wrappers

  type UserId = nat

  datatype User = User(username: string, email: string, passwordHash: string, isInternal: bool, level: int)

  type UserDb = map<UserId, User>

  /** The authenticated caller as the token describes it. */
  datatype Caller = Caller(id: UserId, level: int)

  /** `UserRequest`: `level` defaults to 1 and `is_internal_user` to false. */
  datatype UserRequest = UserRequest(username: string, email: string, password: string, isInternal: bool, level: int)

  /** The self-service update: each field is applied only when truthy. */
  datatype PublicUpdate = PublicUpdate(newUsername: Option<string>, newPassword: Option<string>, newEmail: Option<string>)

  /** The management update: the target is found by `username`, else by `email`; a zero
      `newLevel` leaves the level alone. */
  datatype ManagementUpdate = ManagementUpdate(
    username: Option<string>, email: Option<string>, edit: PublicUpdate, newLevel: int)

  const DefaultLevel: int := 1

  /** Username of 7 to 20 characters, password of 9 to 100. */
  predicate ValidUserRequest(req: UserRequest) {
    7 <= |req.username| <= 20 && 9 <= |req.password| <= 100
  }

  /** The `users.username` column is unique. */
  predicate UsernameTaken(db: UserDb, name: string) {
    exists id :: id in db && db[id].username == name
  }

  /** `create_public_user`: the requested level is never copied; the new user gets the
      default level.  A clash on the username fails the insert (HTTP 400). */
  function CreatePublicUser(db: UserDb, req: UserRequest, id: UserId, hash: string -> string): (r: Result<UserDb>)
    requires id !in db
    ensures r.Ok? <==> ValidUserRequest(req) && !UsernameTaken(db, req.username)
    ensures r.Err? ==> r.error == Rejected
    ensures r.Ok? ==> r.value.Keys == db.Keys + {id} && forall x :: x in db ==> r.value[x] == db[x]
    ensures r.Ok? ==> var u := r.value[id];
                      && u.username == req.username && u.email == req.email && u.isInternal == req.isInternal
                      && u.passwordHash == hash(req.password)
                      && u.level == DefaultLevel
  {
    if !ValidUserRequest(req) || UsernameTaken(db, req.username) then Err(Rejected)
    else Ok(db[id := User(req.username, req.email, hash(req.password), req.isInternal, DefaultLevel)])
  }

  /** `create_internal_user`: the requested level must lie strictly below the caller's
      (HTTP 403); a username clash then fails the insert (HTTP 400). */
  function CreateInternalUser(db: UserDb, req: UserRequest, id: UserId, caller: Caller, hash: string -> string): (r: Result<UserDb>)
    requires id !in db
    ensures !ValidUserRequest(req) ==> r == Err(Rejected)
    ensures ValidUserRequest(req) && req.level >= caller.level ==> r == Err(Forbidden)
    ensures r.Ok? <==> ValidUserRequest(req) && req.level < caller.level && !UsernameTaken(db, req.username)
    ensures r.Ok? ==> r.value.Keys == db.Keys + {id} && forall x :: x in db ==> r.value[x] == db[x]
    ensures r.Ok? ==> var u := r.value[id];
                      && u.username == req.username && u.email == req.email && u.isInternal == req.isInternal
                      && u.passwordHash == hash(req.password)
                      && u.level == req.level && u.level < caller.level
  {
    if !ValidUserRequest(req) then Err(Rejected)
    else if req.level >= caller.level then Err(Forbidden)
    else if UsernameTaken(db, req.username) then Err(Rejected)
    else Ok(db[id := User(req.username, req.email, hash(req.password), req.isInternal, req.level)])
  }

  /** The truthy fields of an update applied to one user. */
  function ApplyEdit(user: User, e: PublicUpdate, hash: string -> string): (r: User)
    ensures r.username == if Truthy(e.newUsername) then e.newUsername.value else user.username
    ensures r.passwordHash == if Truthy(e.newPassword) then hash(e.newPassword.value) else user.passwordHash
    ensures r.email == if Truthy(e.newEmail) then e.newEmail.value else user.email
    ensures r.level == user.level && r.isInternal == user.isInternal
  {
    var u1 := if Truthy(e.newUsername) then user.(username := e.newUsername.value) else user;
    var u2 := if Truthy(e.newPassword) then u1.(passwordHash := hash(e.newPassword.value)) else u1;
    if Truthy(e.newEmail) then u2.(email := e.newEmail.value) else u2
  }

  /** True when storing `user` under `id` would duplicate another user's username. */
  predicate Clashes(db: UserDb, id: UserId, user: User) {
    exists x :: x in db && x != id && db[x].username == user.username
  }

  /** `modify_user`: edits the caller's own record only.  A username clash fails the
      commit (HTTP 503). */
  function ModifyUser(db: UserDb, caller: Caller, e: PublicUpdate, hash: string -> string): (r: Result<UserDb>)
    ensures caller.id !in db ==> r == Err(NotFound)
    ensures caller.id in db ==> (r.Ok? <==> !Clashes(db, caller.id, ApplyEdit(db[caller.id], e, hash)))
    ensures r.Err? ==> r.error == NotFound || r.error == Fault
    ensures r.Ok? ==> r.value.Keys == db.Keys && forall x :: x in db && x != caller.id ==> r.value[x] == db[x]
    ensures r.Ok? ==> r.value[caller.id] == ApplyEdit(db[caller.id], e, hash)
  {
    if caller.id !in db then Err(NotFound)
    else
      var user := ApplyEdit(db[caller.id], e, hash);
      if Clashes(db, caller.id, user) then Err(Fault) else Ok(db[caller.id := user])
  }

  /** The users a lookup matches; `scalar_one_or_none` fails on more than one. */
  function Matching(db: UserDb, byUsername: bool, key: string): (s: set<UserId>)
    ensures forall x :: x in s <==> x in db && (if byUsername then db[x].username else db[x].email) == key
  {
    set x | x in db && (if byUsername then db[x].username else db[x].email) == key
  }

  /** The target of a management update: by username when one is given, else by email
      (HTTP 400 when neither is), missing (HTTP 404) or ambiguous (HTTP 503). */
  function FindTarget(db: UserDb, u: ManagementUpdate): (r: Result<UserId>)
    ensures !Truthy(u.username) && !Truthy(u.email) ==> r == Err(Rejected)
    ensures r.Ok? ==> r.value in db
    ensures r.Ok? && Truthy(u.username) ==> db[r.value].username == u.username.value
    ensures r.Ok? && !Truthy(u.username) ==> db[r.value].email == u.email.value
    ensures r.Ok? ==> forall x :: x in db && x != r.value ==>
              if Truthy(u.username) then db[x].username != u.username.value else db[x].email != u.email.value
    ensures Truthy(u.username) && !UsernameTaken(db, u.username.value) ==> r == Err(NotFound)
    ensures Truthy(u.username) || Truthy(u.email) ==>
              var byUsername := Truthy(u.username);
              var key := if byUsername then u.username.value else u.email.value;
              && (|Matching(db, byUsername, key)| == 0 ==> r == Err(NotFound))
              && (|Matching(db, byUsername, key)| > 1 ==> r == Err(Fault))
              && (r.Ok? <==> |Matching(db, byUsername, key)| == 1)
              && (r.Ok? ==> Matching(db, byUsername, key) == {r.value})
    ensures r.Err? ==> r.error in {Rejected, NotFound, Fault}
  {
    if !Truthy(u.username) && !Truthy(u.email) then Err(Rejected)
    else
      var byUsername := Truthy(u.username);
      var key := if byUsername then u.username.value else u.email.value;
      var s := Matching(db, byUsername, key);
      if |s| == 0 then Err(NotFound)
      else if |s| > 1 then Err(Fault)
      else
        var x := Only(s);
        Ok(x)
  }

  /** The element of a singleton set. */
  function Only(s: set<UserId>): (x: UserId)
    requires |s| == 1
    ensures s == {x}
  {
    assert forall a, b :: a in s && b in s ==> a == b by {
      var y :| y in s;
      assert |s - {y}| == 0;
      assert s == {y};
    }
    var x :| x in s;
    x
  }

  /** `modify_any_user`: both the requested level and the target's current level must lie
      strictly below the caller's (HTTP 403); the truthy fields, and a non-zero level, are
      then applied. */
  function ModifyAnyUser(db: UserDb, caller: Caller, u: ManagementUpdate, hash: string -> string): (r: Result<UserDb>)
    ensures FindTarget(db, u).Err? ==> r == Err(FindTarget(db, u).error)
    ensures FindTarget(db, u).Ok? && (u.newLevel >= caller.level || db[FindTarget(db, u).value].level >= caller.level) ==>
              r == Err(Forbidden)
    ensures r.Ok? ==> var t := FindTarget(db, u).value;
                      && r.value.Keys == db.Keys
                      && (forall x :: x in db && x != t ==> r.value[x] == db[x])
                      && db[t].level < caller.level && u.newLevel < caller.level
                      && r.value[t] == ApplyEdit(db[t], u.edit, hash).(level := if u.newLevel != 0 then u.newLevel else db[t].level)
                      && r.value[t].level < caller.level
    ensures FindTarget(db, u).Ok? && u.newLevel < caller.level && db[FindTarget(db, u).value].level < caller.level ==>
              var t := FindTarget(db, u).value;
              var edited := ApplyEdit(db[t], u.edit, hash).(level := if u.newLevel != 0 then u.newLevel else db[t].level);
              && (r.Ok? <==> !Clashes(db, t, edited))
              && (r.Err? ==> r.error == Fault)
  {
    var t :- FindTarget(db, u);
    if u.newLevel >= caller.level || db[t].level >= caller.level then Err(Forbidden)
    else
      var user := ApplyEdit(db[t], u.edit, hash);
      var user1 := if u.newLevel != 0 then user.(level := u.newLevel) else user;
      if Clashes(db, t, user1) then Err(Fault) else Ok(db[t := user1])
  }

  // ---------------------------------------------------------------- properties

  /** The requested level never reaches a public registration. */
  lemma PublicLevelIgnored(db: UserDb, req: UserRequest, id: UserId, hash: string -> string, level: int)
    requires id !in db
    ensures CreatePublicUser(db, req, id, hash) == CreatePublicUser(db, req.(level := level), id, hash)
  {
  }

  /** A management update cannot lift anybody to, or touch anybody at, the caller's level:
      users at or above it are exactly as before, whatever the update. */
  lemma ManagersCannotTouchPeers(db: UserDb, caller: Caller, u: ManagementUpdate, hash: string -> string, x: UserId)
    requires ModifyAnyUser(db, caller, u, hash).Ok?
    requires x in db && db[x].level >= caller.level
    ensures ModifyAnyUser(db, caller, u, hash).value[x] == db[x]
  {
  }

  /** An update without truthy fields changes nothing. */
  lemma EmptyEditIsIdentity(user: User, hash: string -> string)
    ensures ApplyEdit(user, PublicUpdate(None, None, None), hash) == user
  {
  }

  /** Repeating a self-service edit changes nothing more. */
  lemma ApplyEditIdempotent(user: User, e: PublicUpdate, hash: string -> string)
    ensures ApplyEdit(ApplyEdit(user, e, hash), e, hash) == ApplyEdit(user, e, hash)
  {
  }
}

=== FILE: wrappers.dfy ===
/** Option/Result wrappers shared by every module.  A handler that raises before
    `db.commit()` persists nothing, so every operation returns a Result and an
    `Err` means the previous state is kept. */
module Wrappers {

  datatype Option<+T> = None | Some(value: T)

  /** Why a unit of work was aborted. */
  datatype Error =
    | NotFound            // HTTP 404 raised by a handler or helper
    | InsufficientStock   // a stock sufficiency check failed
    | Rejected            // a validation rule failed (ValueError, HTTP 400 or 422)
    | Forbidden           // HTTP 403: access-level hierarchy violated
    | Fault               // a Python runtime error (unbound local, TypeError, AttributeError, ...)

  datatype Result<+T> = Ok(value: T) | Err(error: Error) {
    predicate IsFailure() { Err? }

    function PropagateFailure<U>(): Result<U>
      requires Err?
    {
      Err(error)
    }

    function Extract(): T
      requires Ok?
    {
      value
    }
  }

  /** Python truthiness of an optional string: present and non-empty. */
  predicate Truthy(s: Option<string>) {
    s.Some? && |s.value| > 0
  }
}

/** Timestamps, as an integer count of microseconds (the resolution of Python's timedelta). */
module Clock {
  type Time = int

  const Microsecond: int := 1
  const Day: int := 86_400_000_000 * Microsecond
}
